=== FILE: README.md ===
# opentrons-python-packages builder, modelled in Dafny

This project models the core of the builder tools that produce the Opentrons
Python package index. It covers four areas.

- **Unpacking a fetched source archive** (`Download`). Dispatch on the archive
  name. Tar members are taken in descending name order, each is verified by type
  and by containment in the unpack directory, and a sub-path filter selects
  members. The result is the common path of what was unpacked.
- **The SDK subshell protocol** (`Shell`). Each command is framed so the shell
  prints a sentinel line with the exit status. Output is read line by line up to
  that sentinel. A non-zero status becomes `ShellCommandFailed`. The module also
  covers `run`, the activation in `persistent`/`scoped`, and the ten exports of
  `initiate_python_environment`.
- **Build planning** (`BuildWheel`, `BuildTypes`, `PackageOrchestrate`). This
  covers:
  - the setup.py argument table;
  - the numpy pin;
  - the exact command sequence sent to the shell;
  - the wheel name read back from the build output;
  - source URLs and archive names, and the `github_source` constructor choice;
  - per-package build and dist directories, and `build_package`'s defaults,
    work directories and pipeline. The pipeline is modelled twice: as written
    (`BuildPackageAsWritten`) and with the three defects listed under
    "## Findings" corrected (`BuildPackage`), with a lemma saying where the
    two agree.
- **Index layout and build container** (`IndexLayout`, `Containers`,
  `HostRun`). This covers:
  - wheels grouped by package name;
  - the slash-terminated URLs;
  - the list of paths the index generation returns;
  - the docker command lines;
  - the pull, build or require decision;
  - the `--container-source` mapping in `run_build`.

Paths (`Paths`) are a flag for a leading "/" plus a list of components, as
pathlib parses them. Two standard functions are modelled explicitly:

- `os.path.commonpath` is the longest common component prefix, and it fails on
  an empty list or on mixed absolute and relative paths.
- `os.path.realpath` is lexical resolution that follows a map of symbolic links
  present on disk.

`urllib.parse.urljoin`, which the simple index URL is built with, is modelled
(`Urls`) as Python 3.12 writes it, with the `urlsplit`, `urlparse` and
`urlunsplit` it rests on. It is not part of the repository, so its rows below
cite the call that uses it.

Processes are abstracted. A subshell is an alive flag, the text written to its
stdin, and the lines its stdout will still yield. Docker is the success or
failure of each docker command. HTTP, docker and the files written are not
modelled: their outcomes are parameters.

## Model

| member | source | states |
|---|---|---|
| `Download.UnpackSource` | tools/builder/package_build/download.py:29-38 | A name containing ".tar" goes to the tar unpacker and any other name to the zip unpacker; content of the other kind is an error |
| `Download.VerifyTarMember` | tools/builder/package_build/download.py:41-77 | Succeeds exactly when all three hold: the resolved containment target lies in the unpack directory, the type is one of the four handled, and a link's target resolved against the unpack directory lies under that target; the member comes back unchanged, and an unhandled type always fails |
| `Download.DotDotFinalComponentRejected` | tools/builder/package_build/download.py:44-52 | A member whose final component is ".." resolves to the unpack directory's parent and is refused |
| `Download.UnpackMember` | tools/builder/package_build/download.py:80-100 | Verification comes first. A verified member is extracted exactly when its name lies under a `Path` sub-path. The call fails exactly when verification fails or the name and the sub-path have different anchors. The write lands at the real path of unpack directory / name |
| `Download.PlantChanges` | tools/builder/package_build/download.py:99 | Extracting a symbolic-link member adds one link, named after its final component, in the real directory that holds it and pointing at its link name. Every other member leaves the links on disk as they were, and no existing link is dropped |
| `Download.UnpackMembers` | tools/builder/package_build/download.py:109-112 | The extracted members are exactly the selected members, in order. Each reported destination, made relative to the unpack directory and joined to the sub-path, is the member's name. With whole-name containment every write stays inside the unpack directory |
| `Download.UnpackMembersReports` | tools/builder/package_build/download.py:97-100 | The reported destinations are, in order, the reference destinations of the selected members: each name with the sub-path taken off its front, put under the unpack directory |
| `Download.SortByNameDescending` | tools/builder/package_build/download.py:108 | The result is a permutation of the members in non-increasing name order |
| `Download.SortByNameStable` | tools/builder/package_build/download.py:108 | The sort is stable: for every name, the members with that name keep their archive order |
| `Download.UnpackTar` | tools/builder/package_build/download.py:103-117 | A failing member's error is passed on. Otherwise the unpack succeeds exactly when some member of the sorted list is selected, and the result is the common path of the reference destinations of the selected members, lexically under the unpack directory. With nothing selected it fails as `commonpath([])` does |
| `Download.UnsupportedMemberAborts` | tools/builder/package_build/download.py:88-96 | A member of an unhandled type anywhere in the sequence aborts the unpack, whether or not it lies under the sub-path |
| `Download.UnsupportedMemberFailsTar` | tools/builder/package_build/download.py:57-76 | Whatever order the sort produces, an unhandled member type makes the tar unpack fail |
| `Download.DotSelectsAll` | tools/builder/package_build/download.py:91-96 | The sub-path "." selects every relative member |
| `Download.KeepPlain` | tools/builder/package_build/download.py:139 | Exactly the pieces that are not "", "." or "..", and no more of them than were given |
| `Download.ZipArcParts` | tools/builder/package_build/download.py:139 | The components kept of an entry name are exactly its "/"-separated pieces other than "", "." and ".." |
| `Download.ZipArcPartsOfCanonical` | tools/builder/package_build/download.py:139 | An entry name spelled from plain components is extracted to exactly those components |
| `Download.ZipDest` | tools/builder/package_build/download.py:139 | A zip entry lands below the unpack directory, with its empty, "." and ".." components dropped |
| `Download.ZipSelect` | tools/builder/package_build/download.py:126-139 | The loop fails exactly when the first entry's anchor differs from the sub-path's and no earlier `common` exists. Otherwise the destinations are those of the reference selection, in order, each the `ZipDest` of its entry. An entry with the sub-path's anchor is kept when it lies under the sub-path, and any other entry repeats the previous decision |
| `Download.UnpackZip` | tools/builder/package_build/download.py:120-140 | The loop's failure is passed on. Otherwise the unpack succeeds exactly when the reference selection is non-empty, and the result is the common path of its destinations. Under a canonical unpack directory that result lies inside it |
| `Download.TextSubpathFailsUnpack` | tools/builder/package_build/download.py:92-95 | A sub-path passed as `str` never equals a `Path`, so nothing is selected and every unpack fails |
| `Download.TraversalAdmittedByFinalComponent` | tools/builder/package_build/download.py:44 | Checking only the final component admits the member "../evil" |
| `Download.TraversalRefusedByWholeName` | tools/builder/package_build/download.py:44-52 | Resolving the whole name refuses "../evil" |
| `Download.TraversalAcceptedAsWritten` | tools/builder/package_build/download.py:44-56 | As written, "../evil" is verified, selected by ".", and written beside the unpack directory; the whole-name check refuses it |
| `Download.PlainTarAgrees` | tools/builder/package_build/download.py:44-56 | With no links on disk and only plain relative regular files and directories, checking the final component unpacks exactly what checking the whole name does |
| `Download.PlainUnpackAgrees` | tools/builder/package_build/download.py:29-56 | Hence the unpack as written and the corrected unpack agree on every archive without tar content, and on a tar archive of such members |
| `Shell.StripOneNewline` | tools/builder/package_build/shell_environment.py:40-47 | Exactly one trailing newline is removed if present; otherwise the text is unchanged |
| `Shell.Frame` | tools/builder/package_build/shell_environment.py:136-138 | The written text is the command with one trailing newline stripped, followed by the sentinel echo |
| `Shell.UnframeFrame` | tools/builder/package_build/shell_environment.py:136-138 | Unframing recovers the stripped command, and a command frames identically with one extra newline exactly when it does not already end in one |
| `Shell.LineStatus` | tools/builder/package_build/shell_environment.py:37 | A status is read only from a line that starts with the sentinel prefix and ends with its suffix |
| `Shell.SentinelRoundTrip` | tools/builder/package_build/shell_environment.py:138-150 | The line `echo` prints for any status, including negative ones, is recognised with that same status |
| `Shell.FirstSentinel` | tools/builder/package_build/shell_environment.py:144-150 | The index of the first sentinel line, with no sentinel before it; none when no line has one |
| `Shell.ShellCall` | tools/builder/package_build/shell_environment.py:121-150 | Writes the framed command, keeps the shell's liveness and echo routing, and returns at least one line on success |
| `Shell.ShellCallReads` | tools/builder/package_build/shell_environment.py:121-150 | On success the lines returned were consumed from stdout in order and end at the first sentinel, whose status is returned. Without a sentinel the read blocks after consuming every pending line |
| `Shell.ReadReply` | tools/builder/package_build/shell_environment.py:144-150 | The read loop leaves stdin, liveness and echo routing alone and returns at least one line on success |
| `Shell.ReadReplyReads` | tools/builder/package_build/shell_environment.py:144-150 | Every line read goes to the verbose echo in order. The loop blocks only when no line carries a sentinel, and otherwise returns exactly the lines through the first one, with its status |
| `Shell.ShellCallLog` | tools/builder/package_build/shell_environment.py:139-147 | The log gains the framed command, on the verbose or normal echo as asked, and then every line read, on the verbose echo |
| `Shell.ShellCallEchoesLines` | tools/builder/package_build/shell_environment.py:146-147 | Every line read reaches the verbose echo, in order, after what was logged before |
| `Shell.GuardedShellCall` | tools/builder/package_build/shell_environment.py:152-168 | A closed shell fails with "Subshell closed" and nothing is written. Otherwise the frame is written and the shell stays alive |
| `Shell.GuardedReads` | tools/builder/package_build/shell_environment.py:157-168 | Success returns the lines read through the first sentinel, and that sentinel's status is 0 |
| `Shell.GuardedReplies` | tools/builder/package_build/shell_environment.py:152-168 | A guarded call succeeds exactly when the shell is alive and the first pending reply ends in status 0. It then returns that reply and consumes only it |
| `Shell.GuardedFailureReport` | tools/builder/package_build/shell_environment.py:160-167 | A failure carries the command as passed, its non-zero status, and all consumed output but the sentinel line |
| `Shell.GuardedWrites` | tools/builder/package_build/shell_environment.py:193-198 | A guarded call writes its frame or nothing, and succeeds only on a live shell that received the frame |
| `Shell.NewSubshellAsWritten` | tools/builder/package_build/shell_environment.py:190-191 | As written, the verbose echo is the `echo` callback and never the verbose one |
| `Shell.OpenSubshell` | tools/builder/package_build/shell_environment.py:175-191 | Under either routing, a new shell is alive in the given directory, with nothing written or logged and the given stdout pending |
| `Shell.NewSubshell` | tools/builder/package_build/shell_environment.py:175-191 | A fresh live shell, with `echo` and `echo_verbose` each routed to its own sink when given |
| `Shell.VerboseNeverReachedAsWritten` | tools/builder/package_build/shell_environment.py:147 | With the constructor as written, no call ever delivers anything to the verbose callback |
| `Shell.VerboseOutputLostAsWritten` | tools/builder/package_build/shell_environment.py:191 | With only a verbose callback given, a successful command's output is lost as written and delivered when routed correctly |
| `Shell.ShlexQuote` | tools/builder/package_build/shell_environment.py:92 | `shlex.quote`: safe non-empty text stays as is, and anything else is single-quoted |
| `Shell.ShlexQuoteRoundTrip` | tools/builder/package_build/shell_environment.py:92 | A POSIX shell reads a quoted argument back as the original text |
| `Shell.ShlexJoin` | tools/builder/package_build/shell_environment.py:92 | A single argument is joined as its quoted form |
| `Shell.Run` | tools/builder/package_build/shell_environment.py:91-92 | A closed shell fails with "Subshell closed". A live one receives the framed, quoted argv and stays alive. The text returned is the lines read from stdout, joined with newlines |
| `Shell.RunReads` | tools/builder/package_build/shell_environment.py:91-168 | `run` succeeds exactly when the shell is alive and the first reply pending on stdout ends in status 0. The text is that reply's lines joined with newlines, and only that reply is consumed |
| `Shell.Stop` | tools/builder/package_build/shell_environment.py:85-86 | The docstring's intent, "stops the running shell": the shell is marked closed, so later calls fail with "Subshell closed", and its input, pending output and log are unchanged. The terminate-and-poll loop of lines 87-89 does not achieve this (see "## Notes on the code") |
| `Shell.Persistent` | tools/builder/package_build/shell_environment.py:69-83 | The only thing written to a new shell is the framed `source <sdk>/environment-setup`, whichever way the callbacks are routed; success leaves the shell alive |
| `Shell.PersistentReads` | tools/builder/package_build/shell_environment.py:69-83 | Activation succeeds exactly when the first reply on stdout ends in status 0, and it consumes only that reply |
| `Shell.PersistentRoutingAgrees` | tools/builder/package_build/shell_environment.py:175-191 | The routing as written and the corrected routing give the same activation result and the same shell, apart from which sink each log entry reached |
| `Shell.Scoped` | tools/builder/package_build/shell_environment.py:49-67 | After a successful activation the body runs and `stop` is called afterwards, with the intended effect of `Shell.Stop`. A failed activation never calls `stop` |
| `Shell.PythonEnvCommands` | tools/builder/package_build/shell_environment.py:105-119 | Ten commands, each an `export` |
| `Shell.PythonPathInSysroot` | tools/builder/package_build/shell_environment.py:102-104 | The exported PYTHONPATH is three levels inside the exported sysroot |
| `Shell.InitiatePythonEnvironment` | tools/builder/package_build/shell_environment.py:94-119 | On success the ten exports were written, framed, in order |
| `Shell.RunEach` | tools/builder/package_build/build_wheel.py:89-94 | Calls in order return one output per command. A call that keeps the echo routing keeps it over the whole sequence |
| `Shell.RunEachReplies` | tools/builder/package_build/build_wheel.py:89-94 | For any call that answers with the next reply, the sequence succeeds exactly when there are no commands or the next reply for each one ends in status 0. The outputs are those replies in order, and exactly they are consumed |
| `Shell.GuardedBehaves` | tools/builder/package_build/shell_environment.py:152-168 | Every guarded call keeps the echo routing and writes its frame or nothing, and writes it on success |
| `Shell.RunEachSendsAll` | tools/builder/package_build/build_wheel.py:89-94 | For any such call, on success every command was written, framed, in order |
| `Shell.RunEachFailureIndex` | tools/builder/package_build/build_wheel.py:89-94 | For any call, a failure lies at a command index inside the sequence |
| `Shell.RunEachStopsAtFailure` | tools/builder/package_build/build_wheel.py:89-94 | For any such call, on failure the commands before the failing one were written, the failing one at most, and none after it |
| `Shell.RunAll` | tools/builder/package_build/build_wheel.py:72-94 | A sequence of guarded calls returns one output per command and keeps the echo routing |
| `Shell.RunAllReplies` | tools/builder/package_build/build_wheel.py:72-94 | Guarded calls succeed exactly when there are no commands or the shell is alive and the next reply for each command ends in status 0. Output i is the i-th pending reply, and exactly those replies are consumed |
| `Shell.RunAllSame` | tools/builder/package_build/shell_environment.py:175-191 | Two shells that differ only in their sinks give the same results and end in the same state |
| `Shell.RunAllSendsAll` | tools/builder/package_build/build_wheel.py:72-94 | On success every command was written, framed, in order, after what was written before |
| `Shell.RunAllFailureIndex` | tools/builder/package_build/build_wheel.py:72-94 | A failure lies at a command index inside the sequence |
| `Shell.RunAllStopsAtFailure` | tools/builder/package_build/build_wheel.py:89-94 | On failure the commands before the failing one were written, the failing one at most, and none after it |
| `BuildWheel.ArgsForBuildExt` | tools/builder/package_build/build_wheel.py:9-11 | Two options, `--build-lib` and `--build-temp`, whose values are both the build directory |
| `BuildWheel.ArgsForBdistWheel` | tools/builder/package_build/build_wheel.py:14-22 | Three options: `--dist-dir` with the dist directory, `--bdist-dir` with the build directory, and `--plat-name` with linux_armv7l |
| `BuildWheel.ArgsForCommand` | tools/builder/package_build/build_wheel.py:25-37 | "build_ext" gets the build_ext arguments, "bdist_wheel" the bdist_wheel arguments, and any other command nothing |
| `BuildWheel.ArgsCarryDirectories` | tools/builder/package_build/build_wheel.py:9-22 | The option values parse back to exactly the build and dist directories, and the platform is linux_armv7l |
| `BuildWheel.UpdateBuildDependencies` | tools/builder/package_build/build_wheel.py:40-51 | Length and order are kept, and exactly the entries equal to "numpy" become the pinned numpy |
| `BuildWheel.UpdateBuildDependenciesIdempotent` | tools/builder/package_build/build_wheel.py:42-51 | Rewriting twice equals rewriting once |
| `BuildWheel.PipArgv` | tools/builder/package_build/build_wheel.py:83-87 | The pip command carries the dependencies unchanged and in order, followed by "wheel" |
| `BuildWheel.SetupCommands` | tools/builder/package_build/build_wheel.py:90-94 | One quoted `python setup.py <command> <args>` per command, in order |
| `BuildWheel.Plan` | tools/builder/package_build/build_wheel.py:72-94 | The order is: venv creation, venv activation, pip install, the ten exports, then the setup.py commands |
| `BuildWheel.BuildSteps` | tools/builder/package_build/build_wheel.py:72-94 | Succeeds exactly when the shell is alive and the next reply for every planned command ends in status 0. Then every command was written, framed, in order, those replies are consumed, and the output is the replies to the setup.py commands, each joined with newlines, concatenated. A failure lies inside the plan |
| `BuildWheel.JoinedOutputsAppend` | tools/builder/package_build/build_wheel.py:90-94 | Accumulating outputs with `+=` over two runs of commands concatenates the two accumulations |
| `BuildWheel.RunPlan` | tools/builder/package_build/build_wheel.py:66-94 | `stop` is called, with the intended effect of `Shell.Stop`, exactly when activation succeeded, and the stage succeeds only after a successful activation |
| `BuildWheel.RunPlanOutput` | tools/builder/package_build/build_wheel.py:66-94 | Against the replies on stdout, the stage succeeds exactly when the activation's reply and the next reply for every planned command end in status 0. Its output is the replies to the setup.py commands, each joined with newlines, concatenated in order |
| `BuildWheel.RunPlanRoutingAgrees` | tools/builder/package_build/build_wheel.py:66-94 | Routing the callbacks as written or as corrected gives the same result and the same shell state |
| `BuildWheel.RunPlanSendsPlan` | tools/builder/package_build/build_wheel.py:66-94 | A successful build wrote the SDK activation and then the whole plan, and nothing else |
| `BuildWheel.RunPlanStopsAtFailure` | tools/builder/package_build/build_wheel.py:83-94 | After a failing command nothing more of the plan is written |
| `BuildWheel.RunEnd` | tools/builder/package_build/build_wheel.py:95 | The maximal run of `[\w\-\.]` characters from a position |
| `BuildWheel.GroupAt` | tools/builder/package_build/build_wheel.py:95 | The greedy group at a position is made of token characters and ends in ".whl", at the last ".whl" inside the run of token characters. No group exists when no ".whl" ends inside that run |
| `BuildWheel.FirstGroup` | tools/builder/package_build/build_wheel.py:95 | The lazy `.*?` selects the first position where the group matches |
| `BuildWheel.LineWheel` | tools/builder/package_build/build_wheel.py:95 | A name is found exactly when the line starts with "creating" and the group matches after it. The name is the line's text from the first matching position to the end of that group |
| `BuildWheel.LineWheelIff` | tools/builder/package_build/build_wheel.py:95 | A line yields a name exactly when it starts with "creating" and ".whl" occurs after that prefix |
| `BuildWheel.LineWheelToken` | tools/builder/package_build/build_wheel.py:95 | A line's match is exactly its reference token: the token's text is what the line yields, and the text the line yields is a reference token |
| `BuildWheel.FirstLineWheel` | tools/builder/package_build/build_wheel.py:95 | The name is the one yielded by some line with no earlier line yielding one, so by the first such line; none is found exactly when no line yields one |
| `BuildWheel.FindWheelName` | tools/builder/package_build/build_wheel.py:95 | The name searched for in the output is a token ending in ".whl", yielded by an output line with no earlier line yielding one |
| `BuildWheel.FindWheelNameIff` | tools/builder/package_build/build_wheel.py:95-98 | The search fails exactly when no output line qualifies |
| `BuildWheel.FindWheelNameIs` | tools/builder/package_build/build_wheel.py:95 | When no earlier output line qualifies, the name is the reference token of the first qualifying line |
| `BuildWheel.WheelNameIsComponent` | tools/builder/package_build/build_wheel.py:99 | A found name is a single path component |
| `BuildWheel.WheelPath` | tools/builder/package_build/build_wheel.py:95-99 | The wheel path is the dist directory joined with the name found in the output, a ".whl" file directly in it. The build fails with `NoWheelName` exactly when no name is found |
| `BuildWheel.WheelPathIs` | tools/builder/package_build/build_wheel.py:95-99 | The wheel path is the dist directory joined with the reference token of the first qualifying output line |
| `BuildWheel.BuildWithSetupPy` | tools/builder/package_build/build_wheel.py:54-99 | A shell failure is reported as such. Otherwise the result is the wheel path from the setup.py output, and success gives a ".whl" in the dist directory |
| `BuildWheel.BuildWithSetupPyOutput` | tools/builder/package_build/build_wheel.py:54-99 | When the activation and every planned command succeed, the wheel is the one named in the concatenated replies to the setup.py commands; otherwise the shell stage fails |
| `BuildWheel.BuildWithSetupPyRoutingAgrees` | tools/builder/package_build/build_wheel.py:54-99 | Routing the callbacks as written or as corrected builds the same wheel, or fails the same way, and leaves the same shell state |
| `BuildTypes.Url` | tools/builder/package_build/types.py:135-136 | Every URL is on https://github.com/ |
| `BuildTypes.UrlEndsWithArchiveName` | tools/builder/package_build/types.py:135-163 | For both source kinds the URL ends with "/" followed by the archive name |
| `BuildTypes.GithubSource` | tools/builder/package_build/__init__.py:32-66 | A non-empty sdist archive gives a release source with that package name; otherwise a repository source with the given path. The name falls back to the repo, and org, repo and tag are copied unchanged |
| `BuildTypes.PathIgnoredForSDist` | tools/builder/package_build/__init__.py:60-63 | With an sdist archive named, the path makes no difference |
| `BuildTypes.OsPathJoin` | tools/builder/package_build/types.py:99 | An absolute second piece replaces the first; otherwise the result extends the first and ends with the second |
| `BuildTypes.SetupPyCommand` | tools/builder/package_build/types.py:98-99 | Three arguments: "python", the script, then the subcommand |
| `BuildTypes.SetupPyCommandPath` | tools/builder/package_build/types.py:99 | The script is `setup.py` inside the given directory |
| `BuildTypes.Write` | tools/builder/package_build/types.py:37-41 | Appends the line and a newline when there is an output, and nothing otherwise |
| `BuildTypes.WriteVerbose` | tools/builder/package_build/types.py:43-49 | Appends only when there is an output and verbose is set |
| `BuildTypes.VerboseImpliesWrite` | tools/builder/package_build/types.py:37-49 | Whatever `write_verbose` emits `write` emits too, and without an output neither emits |
| `PackageOrchestrate.ChildEmpty` | tools/builder/package_build/orchestrate.py:63-64 | `p / ""` is `p` |
| `PackageOrchestrate.MirrorPosition` | tools/builder/package_build/orchestrate.py:63-64 | A package's build or dist directory lies under its root, at the same relative position as the source under the resolved package root |
| `PackageOrchestrate.MirrorInjective` | tools/builder/package_build/orchestrate.py:63-64 | Distinct source directories map to distinct directories |
| `PackageOrchestrate.DiscoverPackages` | tools/builder/package_build/orchestrate.py:59-71 | One entry per discovered build.py, in order, with that directory as source and its mirrored build and dist directories |
| `PackageOrchestrate.DiscoveredPathsDistinct` | tools/builder/package_build/orchestrate.py:62-67 | Packages in distinct directories never share a build or a dist directory |
| `PackageOrchestrate.BuildPackages` | tools/builder/package_build/orchestrate.py:74-79 | The packages before the first failure are built in order. The run ends there with that failure, and completes only when none fails |
| `PackageOrchestrate.BuildPackagesStopsAtFirstFailure` | tools/builder/package_build/orchestrate.py:77-79 | No package after a failing one is built |
| `PackageOrchestrate.WorkDirsOf` | tools/builder/package_build/orchestrate.py:129-132 | The four work directories are the children download, build, unpack and venv of the build path |
| `PackageOrchestrate.WorkDirsDistinctChildren` | tools/builder/package_build/orchestrate.py:129-132 | The work directories have the build path as parent, keep their names, and are pairwise distinct |
| `PackageOrchestrate.DefaultCommands` | tools/builder/package_build/orchestrate.py:134 | The given commands if non-empty, otherwise `["bdist_wheel"]` |
| `PackageOrchestrate.DefaultDependencies` | tools/builder/package_build/orchestrate.py:154 | The given dependencies, otherwise none |
| `PackageOrchestrate.UnpackArgAsWritten` | tools/builder/package_build/orchestrate.py:144 | A truthy repository sub-path is passed on as a plain `str`; everything else falls back to `Path(".")` |
| `PackageOrchestrate.UnpackArg` | tools/builder/package_build/orchestrate.py:141-146 | The sub-path as a `Path`: the parsed repository sub-path, or "." |
| `PackageOrchestrate.DevSourcePathNeverUnpacksAsWritten` | tools/builder/package_build/orchestrate.py:141-146 | As written, a repository source with a sub-path never unpacks, whatever the archive holds |
| `PackageOrchestrate.UnpackArgAgrees` | tools/builder/package_build/orchestrate.py:144 | The corrected argument agrees with the written one everywhere but the `str` case, where it names the same path |
| `PackageOrchestrate.FetchedArchive` | tools/builder/package_build/orchestrate.py:139-143 | The archive unpacked is the download directory's child named after the source's archive name |
| `PackageOrchestrate.BuildPackageAsWritten` | tools/builder/package_build/orchestrate.py:94-158 | The pipeline as written: final-component containment, the sub-path passed on as given, and the verbose callback taken from `echo`. An unpack failure is reported as such, and otherwise the result is the build's, a ".whl" in the package's dist directory |
| `PackageOrchestrate.SubdirectorySourceFailsAsWritten` | tools/builder/package_build/orchestrate.py:141-146 | As written, a repository source with a sub-directory always fails at the unpack |
| `PackageOrchestrate.BuildPackage` | tools/builder/package_build/orchestrate.py:94-158 | The corrected pipeline: the fetched archive is unpacked into the unpack directory with whole-name containment and the sub-path read as a path, then the wheel is built with the defaults and each callback on its own sink. An unpack failure is reported as such, and otherwise the result is the build's, a ".whl" in the package's dist directory |
| `PackageOrchestrate.BuildPackageAgrees` | tools/builder/package_build/orchestrate.py:94-158 | The pipeline as written and the corrected pipeline give the same result whenever the source has no sub-directory and the archive is zip, or tar with only plain members and no links on disk |
| `PackageOrchestrate.FinishRoutingAgrees` | tools/builder/package_build/orchestrate.py:148-158 | How the callbacks are routed never changes the build's result |
| `PackageOrchestrate.BuildPackageUnpacksUnderWorkDir` | tools/builder/package_build/orchestrate.py:129-146 | In the corrected pipeline, a tar source unpacks to a path lexically under the unpack directory, and so lexically under the build path |
| `IndexLayout.Collate` | tools/builder/generate_index/orchestrate.py:140-148 | Every wheel is in the group of its name, and every group member is an input wheel with that name |
| `IndexLayout.CollatePartition` | tools/builder/generate_index/orchestrate.py:145-147 | Each wheel is in exactly its own group, no group is empty, and the groups together are the input |
| `IndexLayout.CollateKeyHasWheel` | tools/builder/generate_index/orchestrate.py:147 | Every key names at least one of the wheels |
| `IndexLayout.NamesInOrder` | tools/builder/generate_index/orchestrate.py:64 | Package names without repeats, each the name of some wheel |
| `IndexLayout.NamesAreKeys` | tools/builder/generate_index/orchestrate.py:64 | The names listed are exactly the map's keys |
| `IndexLayout.EnsureTrailingSlash` | tools/builder/generate_index/orchestrate.py:57-58 | The result ends in "/" and extends the URL by at most that "/"; a URL already ending in "/" is unchanged |
| `IndexLayout.EnsureTrailingSlashIdempotent` | tools/builder/generate_index/orchestrate.py:84-85 | Adding the slash twice equals adding it once |
| `IndexLayout.SimpleUrl` | tools/builder/generate_index/orchestrate.py:83-86 | Fails exactly when the slash-terminated URL does not parse (a lone "[" or "]" in its authority). Otherwise the result ends in "simple/", and it is "simple/" alone when the URL's scheme is one `urljoin` does not resolve relative references under |
| `IndexLayout.SimpleUrlOfSlashed` | tools/builder/generate_index/orchestrate.py:57-58 | Terminating the URL with "/" before the call, as `generate_for_distributions` does, gives the same simple URL |
| `IndexLayout.SimpleUrlUnderAuthority` | tools/builder/generate_index/orchestrate.py:83-86 | For a URL with a scheme from `uses_relative`, a host and directory segments, "simple/" is put after the directory, with the directory's empty segments dropped |
| `IndexLayout.SimpleUrlOfBareName` | tools/builder/generate_index/orchestrate.py:83-86 | A URL without a scheme is a relative path: "simple/" is put after its directory, with empty segments dropped |
| `IndexLayout.SimpleUrlOutsideRelativeSchemes` | tools/builder/generate_index/orchestrate.py:83-86 | A URL whose scheme is outside `uses_relative` gives "simple/" alone. This includes "host:port", whose host reads as the scheme |
| `IndexLayout.SimpleUrlOfDomain` | tools/builder/generate_index/orchestrate.py:37-44 | The documented index URL "pypi.opentrons.com" gives "pypi.opentrons.com/simple/" |
| `IndexLayout.SimpleUrlOfBucket` | tools/builder/generate_index/orchestrate.py:83-86 | "s3://bucket/" gives "simple/", since "s3" is not in `uses_relative` |
| `IndexLayout.SimpleUrlDropsEmptySegment` | tools/builder/generate_index/orchestrate.py:83-86 | "http://h/a//" gives "http://h/a/simple/": the empty segment is dropped |
| `Urls.UrlJoin` | tools/builder/generate_index/orchestrate.py:86 | Fails exactly when the base or the reference does not parse. A base whose scheme is outside `uses_relative` gives the reference unchanged |
| `Urls.JoinSimpleUnderAuthority` | tools/builder/generate_index/orchestrate.py:86 | Joining "simple/" onto "scheme://host/" and directory segments gives the directory with its empty segments dropped, followed by "simple/" |
| `Urls.JoinSimpleUnderRelativePath` | tools/builder/generate_index/orchestrate.py:86 | Joining "simple/" onto a scheme-less directory path gives that path with its empty segments dropped, followed by "simple/" |
| `Urls.JoinSimpleUnderOtherScheme` | tools/builder/generate_index/orchestrate.py:86 | Joining "simple/" onto a URL whose scheme is outside `uses_relative` gives "simple/" |
| `IndexLayout.SimpleRootChild` | tools/builder/generate_index/orchestrate.py:79-80 | The simple root is the child "simple" of the index root |
| `IndexLayout.PackageDirs` | tools/builder/generate_index/orchestrate.py:89-94 | One directory per name under the simple root, in order |
| `IndexLayout.PackageDirsAreChildren` | tools/builder/generate_index/orchestrate.py:93 | Each package directory is the child of the simple root named after its package |
| `IndexLayout.CopyDistsToLeaf` | tools/builder/generate_index/orchestrate.py:132-137 | One target per wheel, in order, each the package directory joined with the wheel's file name |
| `IndexLayout.CopyTargetsInLeaf` | tools/builder/generate_index/orchestrate.py:135 | Each copy lands directly in the package directory and keeps the wheel's file name |
| `IndexLayout.GenerateAndFillPackageDir` | tools/builder/generate_index/orchestrate.py:112-129 | The package directory, then its index.html, then the copied wheels |
| `IndexLayout.PackageEntries` | tools/builder/generate_index/orchestrate.py:66-75 | Two entries per package plus one per wheel in its group |
| `IndexLayout.GenerateForDistributions` | tools/builder/generate_index/orchestrate.py:56-65 | Fails exactly when the simple URL of the index URL does, since that URL is computed before any package; otherwise the index root comes first, then the simple root and its index.html |
| `IndexLayout.IndexEntries` | tools/builder/generate_index/orchestrate.py:59-76 | The index root first, then the simple root and its index.html |
| `IndexLayout.GenerateForDistributionsLength` | tools/builder/generate_index/orchestrate.py:56-76 | A successful generation lists three fixed entries, two per package, and one per distinct wheel |
| `Containers.ImageSpecific` | tools/builder/host/containers.py:123-125 | The image is the container name, ":", and a prefix of the version without any "+" |
| `Containers.ImageSpecificDropsLocalPart` | tools/builder/host/containers.py:124 | `v+local` is tagged `v`, and a version without "+" is tagged as it is |
| `Containers.ImageLatest` | tools/builder/host/containers.py:128-129 | The same repository as the specific image, tagged "latest" |
| `Containers.BuildInvokeCmd` | tools/builder/host/containers.py:132-146 | `docker build -f <Dockerfile>` tags the specific and the latest image and ends with the root path |
| `Containers.BuildReadsRootDockerfile` | tools/builder/host/containers.py:140 | The Dockerfile read is the one at the root path |
| `Containers.VolumePath` | tools/builder/host/containers.py:174 | The volume is an absolute path that parses back to the real path of the root's parent |
| `Containers.VolumeIsParent` | tools/builder/host/containers.py:174 | Without symbolic links, the mounted volume is the root's parent |
| `Containers.RunInvokeCmd` | tools/builder/host/containers.py:170-181 | The fixed `docker run` prefix with the volume, then the container, then the forwarded arguments unchanged |
| `Containers.PullCommands` | tools/builder/host/containers.py:89-96 | The pull of `<name>:<tag>`, then the listing of that image, which runs exactly when the pull succeeded |
| `Containers.PullContainer` | tools/builder/host/containers.py:78-104 | A failed pull is a handled error and a failed listing an unhandled one. Success is the first line of the stripped listing |
| `Containers.PullSingleImage` | tools/builder/host/containers.py:98-104 | A one-line listing gives that image; the empty-listing branch cannot be reached |
| `Containers.BuildContainer` | tools/builder/host/containers.py:107-167 | Runs the build command and yields the specific image exactly when the build succeeds |
| `Containers.PrepContainer` | tools/builder/host/containers.py:39-75 | The decision table. The tag is "main" unless given. A forced build never pulls, and an unforced one pulls first and uses a successful pull without building. After a failed or skipped pull, a required tag is an error and otherwise the local build decides |
| `HostRun.ContainerFlags` | tools/builder/host/run.py:50-60 | "any", "build" and "pull" map to their flag pairs, and any other value is an error |
| `HostRun.FlagsNeverBoth` | tools/builder/host/run.py:50-58 | No accepted value both forces a build and requires the tag |
| `HostRun.Forwarded` | tools/builder/host/run.py:72 | `argv[1:]`: the arguments after the program name |
| `HostRun.RunBuild` | tools/builder/host/run.py:39-73 | An unknown source fails before any docker command. Preparation only never runs the container. A run is the run command line with the forwarded arguments and the real parent of the repository root as the volume, and the result succeeds exactly when preparation does |
| `HostRun.RunUsesPreparedImage` | tools/builder/host/run.py:61-73 | The container run is the prepared image's, with the realpath of the repository root's parent mounted |

## Left out

- HTTP in `fetch_source` (tools/builder/package_build/download.py:13-26) is an effect. The downloaded archive's content is a parameter of `PackageOrchestrate.BuildPackage`.
- Docker, `subprocess`, `Popen` and `run_simple`'s streaming are effects. Their outcomes are the `Containers.Docker` parameter, and the outcome of the final `docker run` is not modelled.
- `Shell.Stop`: models the intent of `stop`'s docstring, a shell that is closed afterwards. Process lifetime, SIGTERM and the poll-and-sleep loop are not modelled; as written, that loop does not wait for the shell to end (see "## Notes on the code").
- `Shell.ReadReply`: when no sentinel line ever arrives, the source loops forever. The model returns `Blocked` instead, after consuming all pending lines.
- The subshell's stdout is a finite list of whole lines, fixed when the shell starts. It does not react to the commands written.
- The `exec` of each package's build.py and its global injection are dynamic code loading. `PackageOrchestrate.BuildPackages` takes the per-package build as a function.
- `rglob("build.py")` is file-system search. `PackageOrchestrate.DiscoverPackages` takes the directories found, in the order found.
- `pkginfo`'s `Wheel(dist).name` reads wheel metadata. It is the function parameter `wheelName`.
- The HTML pages of the index, and their SHA-256 digests, are rendering.
- The argparse wiring is left out. `HostRun.RunBuild` takes the parsed values.
- `HostRun.RunBuild`: requires an absolute, well-formed repository root, since realpath there resolves against no working directory. The program computes the root from its own file's location, which is absolute.
- Log message texts are left out. The echo log records which sink received which text under the routing a shell was opened with: `SharedEcho` is the constructor as written and `OwnSinks` the corrected one. `PackageOrchestrate.BuildPackageAsWritten` opens its shell with the first and `PackageOrchestrate.BuildPackage` with the second. `BuildTypes.Context` keeps the text written.
- Files written by tarfile and zipfile are left out. Only where each write lands is modelled.
- `Paths.Realpath`: expands at most 40 nested symbolic links, a bound of the model. Python's non-strict `os.path.realpath` has no such bound: it follows a chain of any length, and on a loop, which it detects by the links it has already seen, it keeps the rest of the path unresolved. The model reads a link met past the bound as a plain directory instead, so it differs from Python on chains longer than 40 and on loops.
- `Download.UnpackSource`: requires an absolute, well-formed unpack directory, since realpath there resolves against no working directory. Some of its containment results also need it to be canonical.
- `PackageOrchestrate.BuildPackage`: requires an absolute build path, for the same reason.
- `BuildWheel.FindWheelName`: `\w` is ASCII letters, digits and "_", where Python matches any Unicode word character. `.` stands for any character but "\n".
- `Urls.UrlSplit`: of the checks `urlsplit` makes on an authority, only the unmatched-bracket error is modelled. The validation of a bracketed IPv6 or IPvFuture host and the NFKC check of a non-ASCII authority are not, so the model accepts some authorities Python rejects. `urllib.parse` is followed as Python 3.12 writes it; earlier versions differ in details such as the control characters stripped.
- `IndexLayout.SimpleUrl`: its contract states the failure case, the "simple/" ending and the result outside `uses_relative`. The full result for a URL under a `uses_relative` scheme is stated by the `SimpleUrlUnder*`, `SimpleUrlOfBareName` and instance lemmas, for slash-free hosts and plain directory segments; queries, fragments, parameters and dot segments in the index URL are resolved by `Urls.UrlJoin` but not restated by a lemma.
- The package page URL, `urljoin(simple_root_url, f"{package_dir.name}/")` (tools/builder/generate_index/orchestrate.py:120), feeds only the rendered HTML and is left out with it.
- `IndexLayout.GenerateForDistributions`: a package's `set` of wheels and the dict's keys are iterated in first-occurrence order. Python's set order is arbitrary, so only the length and the first three entries hold for every order.
- `BuildTypes.Url`: its contract states the `https://github.com/` prefix. The archive-name suffix is stated by `BuildTypes.UrlEndsWithArchiveName`, and the middle segments only by the definition.
- `Shell.ShlexJoin`: its contract states only the one-argument case. The round trip is stated per argument by `Shell.ShlexQuoteRoundTrip`.
- `Shell.LineStatus`: reads ASCII digits only. Python's `\d` and `int()` also accept other Unicode decimal digits, which the shell's `echo $?` never prints.
- `Download.UnpackTar`: "under the unpack directory" is lexical. A reported destination is the unpack directory joined with the name relative to the sub-path, as the code builds it, so the member `x/../y` under the sub-path `x` is reported as `<unpack>/../y`, which names a directory beside the unpack directory.
- `PackageOrchestrate.BuildPackageUnpacksUnderWorkDir`: states lexical containment only, for the reason given for `Download.UnpackTar`, and only for the corrected pipeline. As written, containment is checked on the final component, so nothing bounds where a tar member is written (see "## Findings").

## Findings

| source | as written | input that shows it | evidently intended | confidence | as-written member | corrected member |
|---|---|---|---|---|---|---|
| tools/builder/package_build/download.py:44 | containment resolves `unpack_dir / Path(member.name).name`, only the final component | a regular member named `../evil` unpacked into `/work/unpack`: it is admitted and extracted to `/work/evil` | resolve the whole member name, so a traversal is refused | high (not executed) | `Download.TraversalAcceptedAsWritten`, with the final-component mode that `PackageOrchestrate.BuildPackageAsWritten` uses | `Download.TraversalRefusedByWholeName`, with `Download.UnpackMembers` in whole-name mode, which `PackageOrchestrate.BuildPackage` uses |
| tools/builder/package_build/shell_environment.py:191 | `self._echo_verbose = echo or ...` ignores `echo_verbose` | `scoped(dir, sdk, None, verbose_cb)`: the command's output never reaches `verbose_cb` | `echo_verbose or ...` | high (not executed) | `Shell.VerboseOutputLostAsWritten`, with `Shell.NewSubshellAsWritten`, the `SharedEcho` routing that `PackageOrchestrate.BuildPackageAsWritten` uses | `Shell.NewSubshell`, the `OwnSinks` routing that `PackageOrchestrate.BuildPackage` uses |
| tools/builder/package_build/orchestrate.py:144 | a truthy `package_source_path` is passed on as a `str`, and download.py:95 and :132 compare a `Path` with it using `!=` | `github_source(org, repo, tag, path="pkg")`: no member is selected, so `commonpath([])` raises | `Path(package_source_path)` | high (not executed) | `PackageOrchestrate.DevSourcePathNeverUnpacksAsWritten`, with `PackageOrchestrate.UnpackArgAsWritten` and `PackageOrchestrate.SubdirectorySourceFailsAsWritten` | `PackageOrchestrate.UnpackArg`, which `PackageOrchestrate.BuildPackage` uses |

## Notes on the code

These are places where the model follows the code rather than its comments or
the behaviour one might expect.

- `ShellCommandFailed.command` is the command as passed to `_guarded_shellcall`, without the sentinel framing (shell_environment.py:163).
- `scoped` calls `stop` only when activation succeeded. An activation failure raises before the `try` (shell_environment.py:63-67).
- `build_with_setup_py` passes the dependencies to pip as given. `update_build_dependencies` is defined but not applied (build_wheel.py:83-87).
- `build_packages` has no exception handling. The first failing package ends the whole run (package_build/orchestrate.py:74-79).
- When `commonpath` raises inside the tar filter, `common` is unbound and the unpack fails. In the zip loop, the value from the previous entry is reused (download.py:91-95, 128-133).
- The zip result is the common path of where entries landed. The sub-path prefix is not removed from it (download.py:139-140).
- For tar, the reported destination is `unpack_dir / (name relative to sub-path)`, while the write lands at `unpack_dir / name`. They differ when the sub-path is not ".".
- `docker images` runs with `check=True`. Its `CalledProcessError` is not a `RuntimeError`, so `prep_container` does not catch it (containers.py:94-96).
- `SetupPyBuild.command` is defined but not used by `build_package`.
- `stop`'s wait loop has its condition inverted (shell_environment.py:87-89). `poll()` returns `None` while the shell runs, so after `terminate()` the loop `while self._proc.poll()` exits at once and `stop` does not wait for the shell to end. The shell is `bash -i` (shell_environment.py:182), which ignores SIGTERM, so it may still be running afterwards. A shell that has already exited with a non-zero status, or been killed by a signal (status -15, say), makes `poll()` truthy on every call, and `stop` never returns. `Shell.Stop` models what the docstring says `stop` is for.
- Lines read from the shell keep their own newline, so the text `run` joins with "\n" has blank lines between them (shell_environment.py:92, 147).

=== FILE: build_wheel.dfy ===
/**
 * Building one wheel with `setup.py` inside the SDK subshell: the argument
 * table per setup.py command, the dependency rewrite, the exact sequence of
 * shell commands, and the wheel name read back from the build output.
 */
module BuildWheel {
  import opened Wrappers
  import opened Text
  import opened Paths
  import opened Shell

  /** `args_for_build_ext`: both the library and the temporary directory are the build directory. */
  function ArgsForBuildExt(build: Path): (args: seq<string>)
    ensures |args| == 2
    ensures OptionValue(args[0], "--build-lib") == Some(Format(build))
    ensures OptionValue(args[1], "--build-temp") == Some(Format(build))
  {
    OptionValueOf("--build-lib", Format(build));
    OptionValueOf("--build-temp", Format(build));
    ["--build-lib" + "=" + Format(build), "--build-temp" + "=" + Format(build)]
  }

  /** `args_for_bdist_wheel`: the wheel goes to the dist directory, is staged in the build directory, for linux_armv7l. */
  function ArgsForBdistWheel(build: Path, dist: Path): (args: seq<string>)
    ensures |args| == 3
    ensures OptionValue(args[0], "--dist-dir") == Some(Format(dist))
    ensures OptionValue(args[1], "--bdist-dir") == Some(Format(build))
    ensures OptionValue(args[2], "--plat-name") == Some("linux_armv7l")
  {
    OptionValueOf("--dist-dir", Format(dist));
    OptionValueOf("--bdist-dir", Format(build));
    PlatNameOption();
    ["--dist-dir" + "=" + Format(dist), "--bdist-dir" + "=" + Format(build), "--plat-name=linux_armv7l"]
  }

  lemma PlatNameOption()
    ensures OptionValue("--plat-name=linux_armv7l", "--plat-name") == Some("linux_armv7l")
  {
    OptionValueOf("--plat-name", "linux_armv7l");
    assert "--plat-name" + "=" + "linux_armv7l" == "--plat-name=linux_armv7l";
  }

  /** `args_for_command`: the table of extra arguments per setup.py command; unknown commands get none. */
  function ArgsForCommand(command: string, source: Path, build: Path, dist: Path): (args: seq<string>)
    ensures command == "build_ext" ==> args == ArgsForBuildExt(build)
    ensures command == "bdist_wheel" ==> args == ArgsForBdistWheel(build, dist)
    ensures command != "build_ext" && command != "bdist_wheel" ==> args == []
  {
    match command
    case "build_ext" => ArgsForBuildExt(build)
    case "bdist_wheel" => ArgsForBdistWheel(build, dist)
    case _ => []
  }

  /** The value of an `--option=value` argument. */
  function OptionValue(arg: string, option: string): Option<string>
  {
    if |option| + 1 <= |arg| && option + "=" <= arg then Some(arg[|option| + 1..]) else None
  }

  lemma OptionValueOf(option: string, value: string)
    ensures OptionValue(option + "=" + value, option) == Some(value)
  {
    var arg := option + "=" + value;
    assert arg[..|option| + 1] == option + "=";
    assert arg[|option| + 1..] == value;
  }

  /** An `--option=<path>` argument carries the path exactly. */
  lemma OptionCarriesPath(option: string, p: Path)
    requires Valid(p)
    ensures OptionValue(option + "=" + Format(p), option).Some?
    ensures Parse(OptionValue(option + "=" + Format(p), option).value) == p
  {
    OptionValueOf(option, Format(p));
    ParseFormat(p);
  }

  /** The directories handed to setup.py are read back exactly from their arguments. */
  lemma ArgsCarryDirectories(command: string, source: Path, build: Path, dist: Path)
    requires Valid(build) && Valid(dist)
    ensures command == "build_ext" ==>
              var args := ArgsForCommand(command, source, build, dist);
              && |args| == 2
              && Parse(OptionValue(args[0], "--build-lib").value) == build
              && Parse(OptionValue(args[1], "--build-temp").value) == build
    ensures command == "bdist_wheel" ==>
              var args := ArgsForCommand(command, source, build, dist);
              && |args| == 3
              && Parse(OptionValue(args[0], "--dist-dir").value) == dist
              && Parse(OptionValue(args[1], "--bdist-dir").value) == build
              && args[2] == "--plat-name=linux_armv7l"
  {
    ParseFormat(build);
    ParseFormat(dist);
    if command == "build_ext" {
      var args := ArgsForBuildExt(build);
      assert OptionValue(args[0], "--build-lib").value == Format(build);
      assert OptionValue(args[1], "--build-temp").value == Format(build);
    } else if command == "bdist_wheel" {
      var args := ArgsForBdistWheel(build, dist);
      assert OptionValue(args[0], "--dist-dir").value == Format(dist);
      assert OptionValue(args[1], "--bdist-dir").value == Format(build);
    }
  }

  const NumpyPin := "numpy>=1.19.0,<1.25"

  /** `update_build_dependencies`: pin a bare "numpy", pass everything else through. */
  function UpdateBuildDependencies(deps: seq<string>): (r: seq<string>)
    ensures |r| == |deps|
    ensures forall i :: 0 <= i < |deps| ==> r[i] == (if deps[i] == "numpy" then NumpyPin else deps[i])
  {
    if |deps| == 0 then []
    else [if deps[0] == "numpy" then NumpyPin else deps[0]] + UpdateBuildDependencies(deps[1..])
  }

  /** Rewriting twice is rewriting once: the pin is not itself rewritten. */
  lemma {:induction false} UpdateBuildDependenciesIdempotent(deps: seq<string>)
    ensures UpdateBuildDependencies(UpdateBuildDependencies(deps)) == UpdateBuildDependencies(deps)
  {
    var once := UpdateBuildDependencies(deps);
    var twice := UpdateBuildDependencies(once);
    assert |NumpyPin| != |"numpy"|;
    forall i | 0 <= i < |once|
      ensures twice[i] == once[i]
    {
    }
  }

  const OwnPythonPath := "PYTHONPATH=/usr/local/lib/python3.10:/usr/local/lib/python3.10/lib-dynload"

  /** The pip invocation: the dependencies as given (not rewritten), then "wheel". */
  function PipArgv(deps: seq<string>): (argv: seq<string>)
    ensures |argv| == 6 + |deps|
    ensures argv[5..5 + |deps|] == deps && argv[|argv| - 1] == "wheel"
  {
    [OwnPythonPath, "python", "-m", "pip", "install"] + deps + ["wheel"]
  }

  function SetupArgv(command: string, source: Path, build: Path, dist: Path): seq<string>
  {
    ["python", "setup.py", command] + ArgsForCommand(command, source, build, dist)
  }

  function SetupCommands(commands: seq<string>, source: Path, build: Path, dist: Path): (cmds: seq<string>)
    ensures |cmds| == |commands|
    ensures forall i :: 0 <= i < |commands| ==> cmds[i] == ShlexJoin(SetupArgv(commands[i], source, build, dist))
  {
    if |commands| == 0 then []
    else [ShlexJoin(SetupArgv(commands[0], source, build, dist))] + SetupCommands(commands[1..], source, build, dist)
  }

  function VenvActivate(venv: Path): Path
  {
    Join(venv, Path(false, ["bin", "activate"]))
  }

  /** The number of commands before the setup.py commands: venv, activate, pip, and the ten exports. */
  const PrefixLength := 13

  /** Every command `build_with_setup_py` sends after activating the SDK, in order. */
  function Plan(commands: seq<string>, source: Path, build: Path, dist: Path, venv: Path, deps: seq<string>, sdk: Path)
    : (plan: seq<string>)
    ensures |plan| == PrefixLength + |commands|
    ensures plan[0] == ShlexJoin(["python", "-m", "venv", Format(venv)])
    ensures plan[1] == ShlexJoin(["source", Format(VenvActivate(venv))])
    ensures plan[2] == ShlexJoin(PipArgv(deps))
    ensures plan[3..PrefixLength] == PythonEnvCommands(sdk)
    ensures plan[PrefixLength..] == SetupCommands(commands, source, build, dist)
  {
    var pre := [ShlexJoin(["python", "-m", "venv", Format(venv)]),
                ShlexJoin(["source", Format(VenvActivate(venv))]),
                ShlexJoin(PipArgv(deps))];
    var plan := pre + PythonEnvCommands(sdk) + SetupCommands(commands, source, build, dist);
    assert plan[3..PrefixLength] == PythonEnvCommands(sdk);
    plan
  }

  /** `output += shell.run(...)`: each command's lines joined with newlines, concatenated in command order. */
  function JoinedOutputs(outs: seq<seq<string>>): string
  {
    if |outs| == 0 then "" else JoinWith(outs[0], "\n") + JoinedOutputs(outs[1..])
  }

  /** Accumulating with `+=` over two runs of commands is the concatenation of the two accumulations. */
  lemma {:induction false} JoinedOutputsAppend(a: seq<seq<string>>, b: seq<seq<string>>)
    ensures JoinedOutputs(a + b) == JoinedOutputs(a) + JoinedOutputs(b)
  {
    if |a| == 0 {
      assert a + b == b;
    } else {
      assert (a + b)[0] == a[0];
      assert (a + b)[1..] == a[1..] + b;
      JoinedOutputsAppend(a[1..], b);
    }
  }

  /**
   * The steps inside the scoped shell: the whole plan, and the output of the
   * setup.py commands. Against the replies pending on stdout: it succeeds
   * exactly when the shell is alive and the next reply for every command ends
   * in status 0, and the output is the replies to the commands after the
   * prefix, each joined with newlines, concatenated.
   */
  function BuildSteps(sh: Subshell, plan: seq<string>): (r: Step<string>)
    requires |plan| >= PrefixLength
    ensures r.result.Ok? <==> sh.alive && AllSucceed(Blocks(sh.stdout), |plan|)
    ensures r.result.Ok? ==> r.result.value == JoinedOutputs(Blocks(sh.stdout)[PrefixLength..|plan|])
    ensures r.result.Ok? ==> r.sh.stdin == sh.stdin + Concat(FramesOf(plan)) && Blocks(r.sh.stdout) == Blocks(sh.stdout)[|plan|..]
    ensures r.result.Err? ==> Completed(sh, plan, false) < |plan|
  {
    var st := RunAll(sh, plan, false);
    RunAllReplies(sh, plan, false);
    RunAllSendsAll(sh, plan, false);
    RunAllFailureIndex(sh, plan, false);
    match st.result
    case Err(e) => Step(st.sh, Err(e))
    case Ok(outs) =>
      assert outs[PrefixLength..] == Blocks(sh.stdout)[PrefixLength..|plan|];
      Step(st.sh, Ok(JoinedOutputs(outs[PrefixLength..])))
  }

  /** The steps fail exactly when the calls do, and leave the shell the calls leave. */
  lemma BuildStepsRun(sh: Subshell, plan: seq<string>)
    requires |plan| >= PrefixLength
    ensures BuildSteps(sh, plan).sh == RunAll(sh, plan, false).sh
    ensures BuildSteps(sh, plan).result.Err? <==> RunAll(sh, plan, false).result.Err?
  {
  }

  /** The steps give the same result and leave the same state whichever sinks the shell has. */
  lemma BuildStepsSame(a: Subshell, b: Subshell, plan: seq<string>)
    requires |plan| >= PrefixLength && SameState(a, b)
    ensures BuildSteps(a, plan).result == BuildSteps(b, plan).result && SameState(BuildSteps(a, plan).sh, BuildSteps(b, plan).sh)
  {
    RunAllSame(a, b, plan, false);
  }

  /** The body handed to the scoped shell. */
  function BuildBody(plan: seq<string>): (body: Subshell -> Step<string>)
    requires |plan| >= PrefixLength
    ensures forall sh :: body(sh) == BuildSteps(sh, plan)
  {
    sh => BuildSteps(sh, plan)
  }

  /** Characters of `[\w\-\.]` (ASCII `\w`). */
  predicate TokenChar(c: char)
  {
    ('a' <= c <= 'z') || ('A' <= c <= 'Z') || ('0' <= c <= '9') || c == '_' || c == '-' || c == '.'
  }

  predicate AllTokenChars(s: string)
  {
    forall i :: 0 <= i < |s| ==> TokenChar(s[i])
  }

  /** Where the run of token characters starting at `p` ends. */
  function RunEnd(line: string, p: nat): (e: nat)
    requires p <= |line|
    ensures p <= e <= |line|
    ensures forall i :: p <= i < e ==> TokenChar(line[i])
    ensures e < |line| ==> !TokenChar(line[e])
    decreases |line| - p
  {
    if p < |line| && TokenChar(line[p]) then RunEnd(line, p + 1) else p
  }

  /** ".whl" ends just before position `q`. */
  predicate WhlEnd(line: string, q: int)
  {
    4 <= q <= |line| && line[q - 4..q] == ".whl"
  }

  /** The largest `q` in `[lo, hi]` at which ".whl" ends. */
  function LastWhlEnd(line: string, lo: nat, hi: nat): (q: Option<nat>)
    requires hi <= |line|
    ensures q.Some? ==> lo <= q.value <= hi && WhlEnd(line, q.value)
    ensures q.Some? ==> forall k :: q.value < k <= hi ==> !WhlEnd(line, k)
    ensures q.None? ==> forall k :: lo <= k <= hi ==> !WhlEnd(line, k)
    decreases hi
  {
    if hi < lo then None
    else if WhlEnd(line, hi) then Some(hi)
    else if hi == 0 then None
    else LastWhlEnd(line, lo, hi - 1)
  }

  /**
   * The group `[\w\-\.]*\.whl` tried at position `p`: greedy, so it ends at the
   * last ".whl" inside the run of token characters starting at `p`.
   */
  function GroupAt(line: string, p: nat): (q: Option<nat>)
    requires p <= |line|
    ensures q.Some? ==> p + 4 <= q.value <= RunEnd(line, p) && WhlEnd(line, q.value)
    ensures q.Some? ==> AllTokenChars(line[p..q.value]) && EndsWith(line[p..q.value], ".whl")
    ensures q.Some? ==> forall k :: q.value < k <= RunEnd(line, p) ==> !WhlEnd(line, k)
    ensures q.None? ==> forall k :: p + 4 <= k <= RunEnd(line, p) ==> !WhlEnd(line, k)
  {
    var e := RunEnd(line, p);
    match LastWhlEnd(line, p + 4, e)
    case None => None
    case Some(q) =>
      assert line[p..q][q - p - 4..] == line[q - 4..q];
      Some(q)
  }

  /** The lazy `.*?`: the first position from `p` on where the group matches. */
  function FirstGroup(line: string, p: nat): (r: Option<(nat, nat)>)
    requires p <= |line|
    ensures r.Some? ==> p <= r.value.0 <= |line| && GroupAt(line, r.value.0) == Some(r.value.1)
    ensures r.Some? ==> forall k :: p <= k < r.value.0 ==> GroupAt(line, k).None?
    ensures r.None? ==> forall k :: p <= k <= |line| ==> GroupAt(line, k).None?
    decreases |line| - p
  {
    match GroupAt(line, p)
    case Some(q) => Some((p, q))
    case None => if p == |line| then None else FirstGroup(line, p + 1)
  }

  const Creating := "creating"

  /** The match on one line: it must start with "creating", and the group starts after it. */
  function LineWheel(line: string): (r: Option<string>)
    ensures r.Some? ==> Creating <= line && |r.value| >= 4 && AllTokenChars(r.value) && EndsWith(r.value, ".whl")
    ensures r.Some? <==> Creating <= line && FirstGroup(line, |Creating|).Some?
    ensures r.Some? ==> var g := FirstGroup(line, |Creating|).value; r.value == line[g.0..g.1]
  {
    if Creating <= line then
      match FirstGroup(line, |Creating|)
      case None => None
      case Some((p, q)) => Some(line[p..q])
    else None
  }

  /** The first line with a match, searched in order. */
  function FirstLineWheel(lines: seq<string>): (r: Option<string>)
    ensures r.Some? ==> |r.value| >= 4 && AllTokenChars(r.value) && EndsWith(r.value, ".whl")
    ensures r.Some? ==> exists i :: 0 <= i < |lines| && LineWheel(lines[i]) == r && NoWheelBefore(lines, i)
    ensures r.None? <==> forall i :: 0 <= i < |lines| ==> LineWheel(lines[i]).None?
  {
    if |lines| == 0 then None
    else if LineWheel(lines[0]).Some? then
      assert NoWheelBefore(lines, 0);
      LineWheel(lines[0])
    else
      var r := FirstLineWheel(lines[1..]);
      assert r.Some? ==> exists i :: 0 <= i < |lines| && LineWheel(lines[i]) == r && NoWheelBefore(lines, i) by {
        if r.Some? {
          var i :| 0 <= i < |lines[1..]| && LineWheel(lines[1..][i]) == r && NoWheelBefore(lines[1..], i);
          NoWheelBeforeCons(lines, i);
        }
      }
      r
  }

  /** No line before the `i`-th yields a name. */
  predicate NoWheelBefore(lines: seq<string>, i: nat)
  {
    forall j :: 0 <= j < i && j < |lines| ==> LineWheel(lines[j]).None?
  }

  lemma NoWheelBeforeCons(lines: seq<string>, i: nat)
    requires |lines| > 0 && LineWheel(lines[0]).None? && NoWheelBefore(lines[1..], i) && i < |lines| - 1
    ensures LineWheel(lines[i + 1]) == LineWheel(lines[1..][i]) && NoWheelBefore(lines, i + 1)
  {
    forall j | 0 < j < i + 1
      ensures LineWheel(lines[j]).None?
    {
      var t := lines[1..];
      assert lines[j] == t[j - 1];
      assert LineWheel(t[j - 1]).None?;
    }
    assert lines[i + 1] == lines[1..][i];
  }

  /**
   * `re.search(r"^creating.*?([\w\-\.]*\.whl).*$", output, re.MULTILINE).group(1)`:
   * `.` does not cross a newline, so the match lies within the first line that has one.
   */
  function FindWheelName(output: string): (r: Option<string>)
    ensures r.Some? ==> |r.value| >= 4 && AllTokenChars(r.value) && EndsWith(r.value, ".whl")
    ensures r.Some? ==> exists i :: 0 <= i < |Split(output, '\n')| && LineWheel(Split(output, '\n')[i]) == r
                                    && NoWheelBefore(Split(output, '\n'), i)
  {
    FirstLineWheel(Split(output, '\n'))
  }

  /** A line qualifies when it starts with "creating" and ".whl" ends somewhere after that prefix. */
  predicate Qualifies(line: string)
  {
    Creating <= line && exists q :: |Creating| + 4 <= q <= |line| && WhlEnd(line, q)
  }

  lemma {:induction false} RunEndCovers(line: string, p: nat, k: nat)
    requires p <= k <= |line|
    requires forall i :: p <= i < k ==> TokenChar(line[i])
    ensures k <= RunEnd(line, p)
    decreases |line| - p
  {
    if p < k {
      RunEndCovers(line, p + 1, k);
    }
  }

  /** Where ".whl" starts, the group matches: its four characters are token characters themselves. */
  lemma GroupAtWhl(line: string, q: nat)
    requires WhlEnd(line, q)
    ensures GroupAt(line, q - 4).Some?
  {
    var j := q - 4;
    assert line[j..q][0] == line[j];
    assert line[j..q][1] == line[j + 1];
    assert line[j..q][2] == line[j + 2];
    assert line[j..q][3] == line[j + 3];
    RunEndCovers(line, j, q);
  }

  /** A line yields a wheel name exactly when it qualifies. */
  lemma LineWheelIff(line: string)
    ensures LineWheel(line).Some? <==> Qualifies(line)
  {
    if LineWheel(line).Some? {
      var g := FirstGroup(line, |Creating|);
      var q := g.value.1;
      assert WhlEnd(line, q) by {
        assert line[g.value.0..q][q - g.value.0 - 4..] == line[q - 4..q];
      }
    }
    if Qualifies(line) {
      var q :| |Creating| + 4 <= q <= |line| && WhlEnd(line, q);
      GroupAtWhl(line, q);
    }
  }

  /** No line yields a wheel name exactly when no line qualifies. */
  lemma FirstLineWheelNone(lines: seq<string>)
    ensures FirstLineWheel(lines).None? <==> NoLineQualifies(lines)
  {
    forall i | 0 <= i < |lines|
      ensures LineWheel(lines[i]).Some? <==> Qualifies(lines[i])
    {
      LineWheelIff(lines[i]);
    }
  }

  predicate NoLineQualifies(lines: seq<string>)
  {
    forall i :: 0 <= i < |lines| ==> !Qualifies(lines[i])
  }

  /** No wheel name is found exactly when no output line qualifies. */
  lemma FindWheelNameIff(output: string)
    ensures FindWheelName(output).None? <==> NoLineQualifies(Split(output, '\n'))
  {
    FirstLineWheelNone(Split(output, '\n'));
  }

  /**
   * Reference reading of the captured group on one line: `line[p..q]` starts a
   * run of token characters (or starts right after "creating"), holds the
   * first ".whl" that ends after the prefix, and runs to the last ".whl"
   * inside that run.
   */
  predicate WheelToken(line: string, p: nat, q: nat)
  {
    && Creating <= line
    && |Creating| <= p && p + 4 <= q <= |line| && WhlEnd(line, q)
    && AllTokenChars(line[p..q])
    && (p == |Creating| || !TokenChar(line[p - 1]))
    && (forall k :: |Creating| + 4 <= k < p + 4 ==> !WhlEnd(line, k))
    && (forall k :: q < k <= |line| && WhlEnd(line, k) ==> !AllTokenChars(line[p..k]))
  }

  /** Every position inside a run of token characters has the same run end. */
  lemma {:induction false} RunEndInside(line: string, p: nat, k: nat)
    requires p <= |line| && p <= k <= RunEnd(line, p)
    ensures RunEnd(line, k) == RunEnd(line, p)
    decreases k - p
  {
    if p < k {
      RunEndInside(line, p + 1, k);
    }
  }

  /** A token-character segment from `p` ends no later than the run from `p`. */
  lemma SegmentInRun(line: string, p: nat, k: nat)
    requires p <= k <= |line| && AllTokenChars(line[p..k])
    ensures k <= RunEnd(line, p)
  {
    forall i | p <= i < k
      ensures TokenChar(line[i])
    {
      assert line[i] == line[p..k][i - p];
    }
    RunEndCovers(line, p, k);
  }

  /** A line's match is exactly its reference token: `LineWheel` finds `line[p..q]` iff `WheelToken(line, p, q)`. */
  lemma LineWheelToken(line: string, p: nat, q: nat)
    ensures WheelToken(line, p, q) ==> LineWheel(line) == Some(line[p..q])
    ensures LineWheel(line).Some? ==>
              var g := FirstGroup(line, |Creating|).value;
              WheelToken(line, g.0, g.1) && LineWheel(line).value == line[g.0..g.1]
  {
    if WheelToken(line, p, q) {
      TokenGroupIsFirst(line, p, q);
    }
    if LineWheel(line).Some? {
      FirstGroupIsToken(line);
    }
  }

  lemma TokenGroupIsFirst(line: string, p: nat, q: nat)
    requires WheelToken(line, p, q)
    ensures FirstGroup(line, |Creating|) == Some((p, q))
  {
    SegmentInRun(line, p, q);
    forall k | q < k <= RunEnd(line, p) && WhlEnd(line, k)
      ensures AllTokenChars(line[p..k])
    {
      forall i | 0 <= i < k - p
        ensures TokenChar(line[p..k][i])
      {
        assert line[p..k][i] == line[p + i];
      }
    }
    assert GroupAt(line, p) == Some(q);
    assert forall k :: |Creating| <= k < p ==> GroupAt(line, k).None?;
  }

  lemma FirstGroupIsToken(line: string)
    requires LineWheel(line).Some?
    ensures var g := FirstGroup(line, |Creating|).value; WheelToken(line, g.0, g.1)
  {
    var (p, q) := FirstGroup(line, |Creating|).value;
    if p > |Creating| {
      PrevTokenGroups(line, p, q);
    }
    forall k | |Creating| + 4 <= k < p + 4 && WhlEnd(line, k)
      ensures false
    {
      GroupAtWhl(line, k);
    }
    forall k | q < k <= |line| && WhlEnd(line, k) && AllTokenChars(line[p..k])
      ensures false
    {
      SegmentInRun(line, p, k);
    }
  }

  /** A token character just before a group's start would start a group too. */
  lemma PrevTokenGroups(line: string, p: nat, q: nat)
    requires 0 < p <= |line| && GroupAt(line, p) == Some(q)
    ensures TokenChar(line[p - 1]) ==> GroupAt(line, p - 1).Some?
  {
    if TokenChar(line[p - 1]) {
      RunEndInside(line, p - 1, p);
      GroupAtCovers(line, p - 1, q);
    }
  }

  /** The group matches at `p` when ".whl" ends inside the run from `p`. */
  lemma GroupAtCovers(line: string, p: nat, q: nat)
    requires p <= |line| && p + 4 <= q <= RunEnd(line, p) && WhlEnd(line, q)
    ensures GroupAt(line, p).Some?
  {
  }

  /** The search reads the first qualifying line. */
  lemma {:induction false} FirstLineWheelAt(lines: seq<string>, i: nat)
    requires i < |lines| && Qualifies(lines[i])
    requires forall j :: 0 <= j < i ==> !Qualifies(lines[j])
    ensures FirstLineWheel(lines) == LineWheel(lines[i])
  {
    LineWheelIff(lines[i]);
    var r := FirstLineWheel(lines);
    assert r.Some? by {
      assert LineWheel(lines[i]).Some?;
    }
    var i' :| 0 <= i' < |lines| && LineWheel(lines[i']) == r && NoWheelBefore(lines, i');
    LineWheelIff(lines[i']);
    assert LineWheel(lines[i]).Some? && Qualifies(lines[i']);
    assert i' == i;
  }

  /**
   * `re.search(...).group(1)` in full: on the first output line that
   * qualifies, the name is that line's reference token.
   */
  lemma FindWheelNameIs(output: string, i: nat, p: nat, q: nat)
    requires i < |Split(output, '\n')|
    requires forall j :: 0 <= j < i ==> !Qualifies(Split(output, '\n')[j])
    requires WheelToken(Split(output, '\n')[i], p, q)
    ensures FindWheelName(output) == Some(Split(output, '\n')[i][p..q])
  {
    var lines := Split(output, '\n');
    LineWheelToken(lines[i], p, q);
    LineWheelIff(lines[i]);
    FirstLineWheelAt(lines, i);
  }

  datatype BuildError = ShellFailed(failure: Failure) | NoWheelName

  datatype BuildOutcome = BuildOutcome(sh: Subshell, result: Result<Path, BuildError>)

  /** A file name placed in a directory has that directory as parent and keeps its name. */
  lemma ChildComponent(dir: Path, name: string)
    requires IsPart(name)
    ensures Parent(Child(dir, name)) == dir && Name(Child(dir, name)) == name
  {
    ParseComponent(name);
  }

  lemma WheelNameIsComponent(name: string)
    requires |name| >= 4 && AllTokenChars(name) && EndsWith(name, ".whl")
    ensures IsPart(name)
  {
    forall i | 0 <= i < |name|
      ensures name[i] != '/'
    {
      assert TokenChar(name[i]);
    }
    assert name[|name| - 4..] == ".whl";
    assert name[|name| - 3] == 'w';
  }

  /** The wheel's path: `dist / name` for the name found in the output. */
  function WheelPath(dist: Path, output: string): (r: Result<Path, BuildError>)
    ensures r.Ok? ==> Parent(r.value) == dist && EndsWith(Name(r.value), ".whl")
    ensures r.Ok? ==> FindWheelName(output).Some? && Name(r.value) == FindWheelName(output).value && r.value.parts == dist.parts + [Name(r.value)]
    ensures r.Err? <==> FindWheelName(output).None?
    ensures r.Err? ==> r.error == NoWheelName
  {
    match FindWheelName(output)
    case None => Err(NoWheelName)
    case Some(name) =>
      WheelNameIsComponent(name);
      ChildComponent(dist, name);
      ParseComponent(name);
      Ok(Child(dist, name))
  }

  /** The wheel path is the dist directory joined with the token of the first qualifying output line. */
  lemma WheelPathIs(dist: Path, output: string, i: nat, p: nat, q: nat)
    requires i < |Split(output, '\n')|
    requires forall j :: 0 <= j < i ==> !Qualifies(Split(output, '\n')[j])
    requires WheelToken(Split(output, '\n')[i], p, q)
    ensures WheelPath(dist, output) == Ok(Path(dist.absolute, dist.parts + [Split(output, '\n')[i][p..q]]))
  {
    FindWheelNameIs(output, i, p, q);
  }

  /**
   * The shell stage of the build: the plan run in a scoped SDK shell. The
   * shell is stopped exactly when activation succeeded: a failure inside the
   * body still stops it, a failed activation leaves it running.
   */
  function RunPlan(routing: Routing, plan: seq<string>, source: Path, sdk: Path, hasEcho: bool, hasVerbose: bool, stdout: seq<string>)
    : (r: Step<string>)
    requires |plan| >= PrefixLength
    ensures !r.sh.alive <==> Persistent(routing, source, sdk, hasEcho, hasVerbose, stdout).result.Ok?
    ensures r.result.Ok? ==> Persistent(routing, source, sdk, hasEcho, hasVerbose, stdout).result.Ok?
  {
    Scoped(routing, source, sdk, hasEcho, hasVerbose, stdout, BuildBody(plan))
  }

  /**
   * The shell stage against the replies on stdout: it succeeds exactly when
   * the activation's reply and the next reply for every command of the plan
   * all end in status 0, and its output is the replies to the setup.py
   * commands, each joined with newlines, concatenated.
   */
  lemma RunPlanOutput(routing: Routing, plan: seq<string>, source: Path, sdk: Path, hasEcho: bool, hasVerbose: bool, stdout: seq<string>)
    requires |plan| >= PrefixLength
    ensures var r := RunPlan(routing, plan, source, sdk, hasEcho, hasVerbose, stdout);
            r.result.Ok? <==> AllSucceed(Blocks(stdout), 1 + |plan|)
    ensures var r := RunPlan(routing, plan, source, sdk, hasEcho, hasVerbose, stdout);
            r.result.Ok? ==> r.result.value == JoinedOutputs(Blocks(stdout)[1 + PrefixLength..1 + |plan|])
  {
    var bs := Blocks(stdout);
    var p := Persistent(routing, source, sdk, hasEcho, hasVerbose, stdout);
    PersistentReads(routing, source, sdk, hasEcho, hasVerbose, stdout);
    AllSucceedCons(bs, 1 + |plan|);
    if p.result.Ok? {
      var st := BuildSteps(p.sh, plan);
      assert RunPlan(routing, plan, source, sdk, hasEcho, hasVerbose, stdout).result == st.result;
      StepsAfterActivation(p.sh, plan, bs);
    }
  }

  /** The body's output, with the activation's reply counted in. */
  lemma StepsAfterActivation(sh: Subshell, plan: seq<string>, bs: seq<seq<string>>)
    requires |plan| >= PrefixLength && |bs| > 0 && Blocks(sh.stdout) == bs[1..]
    ensures var st := BuildSteps(sh, plan);
            st.result.Ok? ==> st.result.value == JoinedOutputs(bs[1 + PrefixLength..1 + |plan|])
  {
    var st := BuildSteps(sh, plan);
    if st.result.Ok? {
      ShiftedReplies(bs, |plan|);
    }
  }

  lemma ShiftedReplies(bs: seq<seq<string>>, n: nat)
    requires PrefixLength <= n < |bs|
    ensures bs[1..][PrefixLength..n] == bs[1 + PrefixLength..1 + n]
  {
  }

  /** Routing the callbacks either way gives the same shell stage result and the same state. */
  lemma RunPlanRoutingAgrees(plan: seq<string>, source: Path, sdk: Path, hasEcho: bool, hasVerbose: bool, stdout: seq<string>)
    requires |plan| >= PrefixLength
    ensures var a := RunPlan(SharedEcho, plan, source, sdk, hasEcho, hasVerbose, stdout);
            var b := RunPlan(OwnSinks, plan, source, sdk, hasEcho, hasVerbose, stdout);
            a.result == b.result && SameState(a.sh, b.sh)
  {
    var pa := Persistent(SharedEcho, source, sdk, hasEcho, hasVerbose, stdout);
    var pb := Persistent(OwnSinks, source, sdk, hasEcho, hasVerbose, stdout);
    PersistentRoutingAgrees(source, sdk, hasEcho, hasVerbose, stdout);
    if pa.result.Ok? {
      BuildStepsSame(pa.sh, pb.sh, plan);
    }
  }

  /** A successful shell stage sent the SDK activation and then the whole plan, in order, and nothing else. */
  lemma RunPlanSendsPlan(routing: Routing, plan: seq<string>, source: Path, sdk: Path, hasEcho: bool, hasVerbose: bool, stdout: seq<string>)
    requires |plan| >= PrefixLength
    ensures var r := RunPlan(routing, plan, source, sdk, hasEcho, hasVerbose, stdout);
            r.result.Ok? ==> r.sh.stdin == Frame(ActivationCommand(sdk)) + Concat(FramesOf(plan))
  {
    var p := Persistent(routing, source, sdk, hasEcho, hasVerbose, stdout);
    if RunPlan(routing, plan, source, sdk, hasEcho, hasVerbose, stdout).result.Ok? {
      assert p.result.Ok?;
      RunAllSendsAll(p.sh, plan, false);
    }
  }

  /** Once the shell is open, the stage is the plan's steps followed by closing the shell. */
  lemma RunPlanSteps(routing: Routing, plan: seq<string>, source: Path, sdk: Path, hasEcho: bool, hasVerbose: bool, stdout: seq<string>)
    requires |plan| >= PrefixLength
    ensures var p := Persistent(routing, source, sdk, hasEcho, hasVerbose, stdout);
            var r := RunPlan(routing, plan, source, sdk, hasEcho, hasVerbose, stdout);
            p.result.Ok? ==> r.sh == Stop(BuildSteps(p.sh, plan).sh) && r.result == BuildSteps(p.sh, plan).result
  {
  }

  /**
   * When a command of the plan fails, the commands after it are not sent:
   * after the activation, what was written is a prefix of the plan ending at
   * most with the failing command.
   */
  lemma RunPlanStopsAtFailure(routing: Routing, plan: seq<string>, source: Path, sdk: Path, hasEcho: bool, hasVerbose: bool, stdout: seq<string>)
    requires |plan| >= PrefixLength
    ensures var p := Persistent(routing, source, sdk, hasEcho, hasVerbose, stdout);
            var r := RunPlan(routing, plan, source, sdk, hasEcho, hasVerbose, stdout);
            p.result.Ok? && r.result.Err? ==>
              var n := Completed(p.sh, plan, false);
              && n < |plan|
              && (r.sh.stdin == p.sh.stdin + Concat(FramesOf(plan[..n]))
                  || r.sh.stdin == p.sh.stdin + Concat(FramesOf(plan[..n + 1])))
  {
    var p := Persistent(routing, source, sdk, hasEcho, hasVerbose, stdout);
    var r := RunPlan(routing, plan, source, sdk, hasEcho, hasVerbose, stdout);
    if p.result.Ok? && r.result.Err? {
      RunPlanSteps(routing, plan, source, sdk, hasEcho, hasVerbose, stdout);
      BuildStepsRun(p.sh, plan);
      RunAllFailureIndex(p.sh, plan, false);
      RunAllStopsAtFailure(p.sh, plan, false);
    }
  }

  /**
   * `build_with_setup_py`: in a scoped SDK shell run the plan, then take the
   * wheel name from the setup.py output and place it in `dist`.
   */
  function BuildWithSetupPy(routing: Routing, commands: seq<string>, source: Path, build: Path, dist: Path, venv: Path,
                            deps: seq<string>, sdk: Path, hasEcho: bool, hasVerbose: bool, stdout: seq<string>)
    : (r: BuildOutcome)
    ensures var st := RunPlan(routing, Plan(commands, source, build, dist, venv, deps, sdk), source, sdk, hasEcho, hasVerbose, stdout);
            && r.sh == st.sh
            && (r.result.Err? && r.result.error.ShellFailed? <==> st.result.Err?)
            && (st.result.Ok? ==> r.result == WheelPath(dist, st.result.value))
    ensures r.result.Ok? ==> Parent(r.result.value) == dist && EndsWith(Name(r.result.value), ".whl")
  {
    var st := RunPlan(routing, Plan(commands, source, build, dist, venv, deps, sdk), source, sdk, hasEcho, hasVerbose, stdout);
    match st.result
    case Err(e) => BuildOutcome(st.sh, Err(ShellFailed(e)))
    case Ok(output) => BuildOutcome(st.sh, WheelPath(dist, output))
  }

  /**
   * The build against the replies on stdout: when the activation and every
   * command of the plan succeed, the wheel is the one named in the replies to
   * the setup.py commands; otherwise the shell stage fails.
   */
  lemma BuildWithSetupPyOutput(routing: Routing, commands: seq<string>, source: Path, build: Path, dist: Path, venv: Path,
                               deps: seq<string>, sdk: Path, hasEcho: bool, hasVerbose: bool, stdout: seq<string>)
    ensures var r := BuildWithSetupPy(routing, commands, source, build, dist, venv, deps, sdk, hasEcho, hasVerbose, stdout);
            var n := 1 + PrefixLength + |commands|;
            && (AllSucceed(Blocks(stdout), n) ==> r.result == WheelPath(dist, JoinedOutputs(Blocks(stdout)[1 + PrefixLength..n])))
            && (!AllSucceed(Blocks(stdout), n) ==> r.result.Err? && r.result.error.ShellFailed?)
  {
    RunPlanOutput(routing, Plan(commands, source, build, dist, venv, deps, sdk), source, sdk, hasEcho, hasVerbose, stdout);
  }

  /** Routing the callbacks either way builds the same wheel, or fails the same way, leaving the same state. */
  lemma BuildWithSetupPyRoutingAgrees(commands: seq<string>, source: Path, build: Path, dist: Path, venv: Path,
                                      deps: seq<string>, sdk: Path, hasEcho: bool, hasVerbose: bool, stdout: seq<string>)
    ensures var a := BuildWithSetupPy(SharedEcho, commands, source, build, dist, venv, deps, sdk, hasEcho, hasVerbose, stdout);
            var b := BuildWithSetupPy(OwnSinks, commands, source, build, dist, venv, deps, sdk, hasEcho, hasVerbose, stdout);
            a.result == b.result && SameState(a.sh, b.sh)
  {
    RunPlanRoutingAgrees(Plan(commands, source, build, dist, venv, deps, sdk), source, sdk, hasEcho, hasVerbose, stdout);
  }
}

=== FILE: containers.dfy ===
/**
 * Choosing the build container on the host: the image names, the docker
 * command lines, the image-listing parse after a pull, and the decision
 * between pulling and building. Docker itself is not modelled: `Docker`
 * says how each docker command would turn out.
 */
module Containers {
  import opened Wrappers
  import opened Text
  import opened Paths
  import opened BuildTypes

  const ContainerName := "ghcr.io/opentrons/python-package-builder"
  const DefaultTag := "main"

  /** How the docker commands turn out: whether `docker pull` and `docker build` exit 0, and the output of `docker images -q` (`None` when it fails). */
  datatype Docker = Docker(pullSucceeds: bool, listing: Option<string>, buildSucceeds: bool)

  datatype ContainerError =
    | PullFailed(image: string)        // a `RuntimeError` from the pull, which `prep_container` handles
    | ListingFailed(image: string)     // `CalledProcessError` from `docker images`, which nothing handles
    | CouldNotPull(tag: string)
    | BuildFailed

  /** `_container_image_specific`: the package version without its local part after "+". */
  function ImageSpecific(version: string): (image: string)
    ensures ContainerName + ":" <= image
    ensures image[|ContainerName| + 1..] <= version && '+' !in image[|ContainerName| + 1..]
  {
    var v := Split(version, '+')[0];
    SplitFirstPrefix(version, '+');
    var image := ContainerName + ":" + v;
    assert image[..|ContainerName| + 1] == ContainerName + ":";
    assert image[|ContainerName| + 1..] == v;
    image
  }

  /** A version `v+local` is tagged `v`; a version without "+" is tagged as it is. */
  lemma ImageSpecificDropsLocalPart(v: string, local: string)
    requires '+' !in v
    ensures ImageSpecific(v + "+" + local) == ContainerName + ":" + v
    ensures ImageSpecific(v) == ContainerName + ":" + v
  {
    SplitAround(v, local, '+');
    SplitNoSeparator(v, '+');
  }

  /** `_container_image_latest`: the same repository as the specific image, tagged "latest". */
  function ImageLatest(): (image: string)
    ensures ContainerName + ":" <= image && image[|ContainerName| + 1..] == "latest"
  {
    var image := ContainerName + ":" + "latest";
    assert image[..|ContainerName| + 1] == ContainerName + ":";
    image
  }

  /** `_container_build_invoke_cmd`. */
  function BuildInvokeCmd(version: string, rootPath: string): (argv: seq<string>)
    ensures |argv| == 9 && argv[..3] == ["docker", "build", "-f"] && argv[8] == rootPath
    ensures argv[4] == "-t" && argv[5] == ImageSpecific(version) && argv[6] == "-t" && argv[7] == ImageLatest()
  {
    ["docker", "build", "-f", OsPathJoin(rootPath, "Dockerfile"), "-t", ImageSpecific(version), "-t", ImageLatest(), rootPath]
  }

  /** The Dockerfile the build reads is the one at the repository root. */
  lemma BuildReadsRootDockerfile(version: string, rootPath: string)
    ensures var f := BuildInvokeCmd(version, rootPath)[3];
            rootPath <= f && EndsWith(f, "Dockerfile")
  {
  }

  /** `os.path.realpath(os.path.join(root_path, os.path.pardir))`, given the links on disk. */
  function VolumePath(links: Links, root: Path): (v: string)
    requires root.absolute && Valid(root)
    ensures "/" <= v
    ensures Canonical(Parse(v)) && Parse(v) == Realpath(links, Child(root, ".."))
  {
    var r := Realpath(links, Child(root, ".."));
    ParseFormat(r);
    Format(r)
  }

  /** Without symbolic links in the way, the mounted volume is the repository root's parent. */
  lemma VolumeIsParent(root: Path)
    requires Canonical(root)
    ensures VolumePath(map[], root) == Format(Parent(root))
  {
    RealpathWithoutLinks(Child(root, ".."));
    NormalizeChild(root, "..");
  }

  const VolumeTarget := ":/build-environment/python-package-index:rw,delegated"

  /** `_container_run_invoke_cmd`: the fixed prefix, the container, then the forwarded arguments unchanged. */
  function RunInvokeCmd(container: string, forwarded: seq<string>, volume: string): (argv: seq<string>)
    ensures |argv| == 5 + |forwarded|
    ensures argv[..5] == ["docker", "run", "--rm", "--volume=" + volume + VolumeTarget, container]
    ensures argv[5..] == forwarded
  {
    ["docker", "run", "--rm", "--volume=" + volume + VolumeTarget, container] + forwarded
  }

  function ImageRef(tag: string): string
  {
    ContainerName + ":" + tag
  }

  /** `pull_container`: the first image id of the listing printed after a successful pull. */
  function PullContainer(tag: string, docker: Docker): (r: Result<string, ContainerError>)
    ensures !docker.pullSucceeds ==> r == Err(PullFailed(ImageRef(tag)))
    ensures docker.pullSucceeds && docker.listing.None? ==> r == Err(ListingFailed(ImageRef(tag)))
    ensures r.Ok? ==> docker.pullSucceeds && docker.listing.Some?
    ensures r.Ok? ==> '\n' !in r.value && r.value <= Strip(docker.listing.value)
  {
    if !docker.pullSucceeds then Err(PullFailed(ImageRef(tag)))
    else
      match docker.listing
      case None => Err(ListingFailed(ImageRef(tag)))
      case Some(listing) =>
        var images := Split(Strip(listing), '\n');
        SplitFirstPrefix(Strip(listing), '\n');
        assert images[0] == Split(Strip(listing), '\n')[0];
        Ok(images[0])
  }

  /** A listing of one image gives that image; the empty-listing error cannot happen, as a split is never empty. */
  lemma PullSingleImage(tag: string, docker: Docker)
    requires docker.pullSucceeds && docker.listing.Some? && '\n' !in Strip(docker.listing.value)
    ensures PullContainer(tag, docker) == Ok(Strip(docker.listing.value))
  {
    SplitNoSeparator(Strip(docker.listing.value), '\n');
  }

  /** What `prep_container` did: the docker commands it ran, in order, and the image to run. */
  datatype Prep = Prep(commands: seq<seq<string>>, result: Result<string, ContainerError>)

  /**
   * The commands `pull_container` runs: the pull, then the image listing,
   * which is reached only when the pull did not raise.
   */
  function PullCommands(tag: string, docker: Docker): (cmds: seq<seq<string>>)
    ensures 1 <= |cmds| <= 2 && cmds[0] == ["docker", "pull", ContainerName + ":" + tag]
    ensures |cmds| == 2 <==> docker.pullSucceeds
    ensures |cmds| == 2 ==> cmds[1] == ["docker", "images", "-q", ContainerName + ":" + tag]
  {
    var image := ImageRef(tag);
    [["docker", "pull", image]] + (if docker.pullSucceeds then [["docker", "images", "-q", image]] else [])
  }

  /** `build_container`. */
  function BuildContainer(version: string, rootPath: string, docker: Docker): (p: Prep)
    ensures p.commands == [BuildInvokeCmd(version, rootPath)]
    ensures p.result.Ok? <==> docker.buildSucceeds
    ensures p.result.Ok? ==> p.result.value == ImageSpecific(version)
  {
    Prep([BuildInvokeCmd(version, rootPath)], if docker.buildSucceeds then Ok(ImageSpecific(version)) else Err(BuildFailed))
  }

  /**
   * `prep_container`: unless forced to build, try the pull and use it when
   * it works; a failed pull is fatal when the tag is required, and otherwise
   * falls back to a local build.
   */
  function PrepContainer(pullTag: Option<string>, requireTag: bool, forceBuild: bool,
                         version: string, rootPath: string, docker: Docker): (p: Prep)
    ensures forceBuild ==> p.commands == [] || p.commands == [BuildInvokeCmd(version, rootPath)]
    ensures !forceBuild ==> |p.commands| >= 1 && p.commands[0] == ["docker", "pull", ImageRef(pullTag.GetOr(DefaultTag))]
    ensures !forceBuild && PullContainer(pullTag.GetOr(DefaultTag), docker).Ok? ==>
              p.result == PullContainer(pullTag.GetOr(DefaultTag), docker)
              && BuildInvokeCmd(version, rootPath) !in p.commands
    ensures forceBuild && requireTag ==> p.result.Err?
    ensures requireTag && p.result.Ok? ==> p.result == PullContainer(pullTag.GetOr(DefaultTag), docker)
    ensures !requireTag && p.result.Err? ==> p.result.error.ListingFailed? || p.result.error == BuildFailed
    ensures var pulled := PullContainer(pullTag.GetOr(DefaultTag), docker);
            forceBuild || (pulled.Err? && pulled.error.PullFailed?) ==>
              if requireTag then p.result == Err(CouldNotPull(pullTag.GetOr(DefaultTag)))
              else p.result == BuildContainer(version, rootPath, docker).result
                   && |p.commands| > 0 && p.commands[|p.commands| - 1] == BuildInvokeCmd(version, rootPath)
  {
    var tag := pullTag.GetOr(DefaultTag);
    var pulled := if forceBuild then Prep([], Err(PullFailed(ImageRef(tag))))
                  else Prep(PullCommands(tag, docker), PullContainer(tag, docker));
    if pulled.result.Ok? || (pulled.result.Err? && !pulled.result.error.PullFailed?) then pulled
    else if requireTag then Prep(pulled.commands, Err(CouldNotPull(tag)))
    else
      var b := BuildContainer(version, rootPath, docker);
      Prep(pulled.commands + b.commands, b.result)
  }
}

=== FILE: download.dfy ===
/**
 * Unpacking a fetched source archive: dispatch on the archive's file name,
 * per-member verification of tar archives against the unpack directory,
 * the sub-path filter, and the common path of what was unpacked.
 *
 * The file system is abstracted to the symlinks present on disk (`Links`);
 * an unpack plants the selected symlink members as it goes.
 */
module Download {
  import opened Wrappers
  import opened Text
  import opened Paths

  /** The type flag of a tar header. `OtherType` covers every flag but the four handled. */
  datatype MemberType = Regular | Directory | SymLink | HardLink | OtherType(flag: char)

  datatype TarMember = TarMember(name: string, kind: MemberType, linkname: string)

  datatype ZipMember = ZipMember(filename: string)

  /** What the archive file holds, as tarfile or zipfile would read it. */
  datatype Content = TarContent(members: seq<TarMember>) | ZipContent(entries: seq<ZipMember>) | Unreadable

  datatype Archive = Archive(path: Path, content: Content)

  /** The sub-path argument as passed: a `Path`, or a plain `str`. */
  datatype Subpath = PathArg(path: Path) | StrArg(text: string)

  /** Which path the tar containment check resolves: the member's final component (as written) or its whole name. */
  datatype Containment = FinalComponent | WholeName

  datatype UnpackError =
    | OutsideUnpackDir(member: string, dest: Path)
    | LinksOutside(member: string)
    | UnsupportedType(member: string)
    | CommonUnbound
    | NothingUnpacked
    | NotAnArchive

  /** One extracted tar member: where its destination is reported and where the write lands. */
  datatype Extraction = Extraction(member: TarMember, reported: Path, written: Path)

  /** The sub-path as `os.path.commonpath` and `relative_to` read it. */
  function SubpathPath(sub: Subpath): Path
  {
    match sub
    case PathArg(p) => p
    case StrArg(s) => Parse(s)
  }

  /** `Path(common) != from_archive_path` negated: a `Path` never equals a `str`. */
  predicate SubpathEquals(common: Path, sub: Subpath)
  {
    match sub
    case PathArg(p) => common == p
    case StrArg(_) => false
  }

  /** Reference definition of the filter: the member's name lies under a `Path` sub-path. */
  predicate SelectedBy(sub: Subpath, name: string)
  {
    sub.PathArg? && Under(Parse(name), sub.path)
  }

  /** The path whose real location must stay inside the unpack directory. */
  function ContainmentTarget(mode: Containment, root: Path, name: string): (p: Path)
    requires root.absolute && Valid(root)
    ensures p.absolute && Valid(p)
  {
    match mode
    case FinalComponent => Child(root, Name(Parse(name)))
    case WholeName => Child(root, name)
  }

  predicate IsLink(kind: MemberType)
  {
    kind.SymLink? || kind.HardLink?
  }

  predicate Supported(kind: MemberType)
  {
    !kind.OtherType?
  }

  /**
   * When a member passes verification: its resolved containment target is
   * inside the unpack directory, its type is handled, and a link's target,
   * resolved against the unpack directory, lies inside that containment target.
   */
  predicate Admissible(mode: Containment, root: Path, links: Links, m: TarMember)
    requires root.absolute && Valid(root)
  {
    var unpackTo := Realpath(links, ContainmentTarget(mode, root, m.name));
    && Under(unpackTo, root)
    && Supported(m.kind)
    && (IsLink(m.kind) ==> Under(Realpath(links, Child(root, m.linkname)), unpackTo))
  }

  /** `_verify_tar_member`. */
  function VerifyTarMember(mode: Containment, root: Path, links: Links, m: TarMember): (r: Result<TarMember, UnpackError>)
    requires root.absolute && Valid(root)
    ensures r.Ok? <==> Admissible(mode, root, links, m)
    ensures r.Ok? ==> r.value == m
    ensures !Supported(m.kind) ==> r.Err?
  {
    var unpackTo := Realpath(links, ContainmentTarget(mode, root, m.name));
    CommonPathPair(unpackTo, root);
    match CommonPath([unpackTo, root])
    case Err(_) => Err(CommonUnbound)
    case Ok(common) =>
      if common != root then Err(OutsideUnpackDir(m.name, unpackTo))
      else
        match m.kind
        case SymLink | HardLink =>
          var target := Realpath(links, Child(root, m.linkname));
          CommonPathPairFirst(unpackTo, target);
          var common2 := match CommonPath([unpackTo, target]) case Ok(c) => c case Err(_) => common;
          if common2 != unpackTo then Err(LinksOutside(m.name)) else Ok(m)
        case Regular | Directory => Ok(m)
        case OtherType(_) => Err(UnsupportedType(m.name))
  }

  /** The disk after extracting `m`: a symlink member becomes a link in its resolved directory. */
  function Plant(root: Path, links: Links, m: TarMember): (r: Links)
    requires root.absolute && Valid(root)
    ensures !m.kind.SymLink? ==> r == links
  {
    var full := Child(root, m.name);
    var last := Name(full);
    if m.kind.SymLink? && |full.parts| > 0 && last != ".." then
      links[Realpath(links, Parent(full)).parts + [last] := m.linkname]
    else links
  }

  /**
   * Extracting a member adds at most one link, named after the member's final
   * component in the real directory that holds it and pointing at its link
   * name; no link already on disk is dropped.
   */
  lemma PlantChanges(root: Path, links: Links, m: TarMember)
    requires root.absolute && Valid(root)
    ensures var r := Plant(root, links, m);
            && links.Keys <= r.Keys
            && (forall k :: k in r && (k !in links || r[k] != links[k]) ==>
                  m.kind.SymLink? && r[k] == m.linkname && |k| > 0 && k[|k| - 1] == Name(Child(root, m.name)))
    ensures var full := Child(root, m.name);
            m.kind.SymLink? && |full.parts| > 0 && Name(full) != ".." ==>
              var at := Realpath(links, Parent(full)).parts + [Name(full)];
              at in Plant(root, links, m) && Plant(root, links, m)[at] == m.linkname
  {
  }

  /** `_unpack_member_to`: verify, then extract only when the member lies under the sub-path. */
  function UnpackMember(mode: Containment, root: Path, links: Links, m: TarMember, sub: Subpath)
    : (r: Result<(Option<Extraction>, Links), UnpackError>)
    requires root.absolute && Valid(root)
    ensures r.Ok? ==> Admissible(mode, root, links, m)
    ensures r.Ok? ==> (r.value.0.Some? <==> SelectedBy(sub, m.name))
    ensures r.Err? <==> !Admissible(mode, root, links, m) || Parse(m.name).absolute != SubpathPath(sub).absolute
    ensures r.Ok? && r.value.0.Some? ==> r.value.0.value.member == m
    ensures r.Ok? && r.value.0.Some? ==> r.value.0.value.written == Realpath(links, Child(root, m.name))
    ensures r.Ok? && r.value.0.Some? ==> ReportsRelative(root, sub, r.value.0.value)
  {
    var verified :- VerifyTarMember(mode, root, links, m);
    var name := Parse(verified.name);
    CommonPathPair(name, SubpathPath(sub));
    SameAnchorPair(name, SubpathPath(sub));
    match CommonPath([name, SubpathPath(sub)])
    case Err(_) => Err(CommonUnbound)
    case Ok(common) =>
      if !SubpathEquals(common, sub) then Ok((None, links))
      else
        var rel := RelativeTo(name, SubpathPath(sub)).value;
        var full := Child(root, verified.name);
        var e := Extraction(verified, Join(root, rel), Realpath(links, full));
        assert e.reported.parts == root.parts + rel.parts;
        assert e.reported.parts[|root.parts|..] == rel.parts;
        Ok((Some(e), Plant(root, links, verified)))
  }

  function MembersOf(es: seq<Extraction>): (ms: seq<TarMember>)
    ensures |ms| == |es|
    ensures forall i :: 0 <= i < |es| ==> ms[i] == es[i].member
  {
    if |es| == 0 then [] else [es[0].member] + MembersOf(es[1..])
  }

  function ReportedOf(es: seq<Extraction>): (ps: seq<Path>)
    ensures |ps| == |es|
    ensures forall i :: 0 <= i < |es| ==> ps[i] == es[i].reported
  {
    if |es| == 0 then [] else [es[0].reported] + ReportedOf(es[1..])
  }

  /** The members the filter keeps, in order (reference definition). */
  function SelectedMembers(ms: seq<TarMember>, sub: Subpath): seq<TarMember>
  {
    if |ms| == 0 then []
    else (if SelectedBy(sub, ms[0].name) then [ms[0]] else []) + SelectedMembers(ms[1..], sub)
  }

  /** The reported destination, taken relative to the unpack directory and put under the sub-path, is the member's name. */
  predicate ReportsRelative(root: Path, sub: Subpath, e: Extraction)
  {
    && Under(e.reported, root)
    && Join(SubpathPath(sub), Path(false, e.reported.parts[|root.parts|..])) == Parse(e.member.name)
  }

  /**
   * Where the filter reports the members it keeps (reference definition):
   * each selected member's name, with the sub-path's components taken off
   * its front, put under the unpack directory.
   */
  function ReportedDests(root: Path, sub: Subpath, ms: seq<TarMember>): (ps: seq<Path>)
  {
    if |ms| == 0 then []
    else
      var here := if SelectedBy(sub, ms[0].name)
                  then [Join(root, Path(false, Parse(ms[0].name).parts[|sub.path.parts|..]))]
                  else [];
      here + ReportedDests(root, sub, ms[1..])
  }

  /** The members of `ms`, in order, each verified with the links planted by those before it. */
  function UnpackMembers(mode: Containment, root: Path, links: Links, ms: seq<TarMember>, sub: Subpath)
    : (r: Result<seq<Extraction>, UnpackError>)
    requires root.absolute && Valid(root)
    ensures r.Ok? ==> MembersOf(r.value) == SelectedMembers(ms, sub)
    ensures r.Ok? ==> forall i :: 0 <= i < |r.value| ==> ReportsRelative(root, sub, r.value[i])
    ensures r.Ok? && mode == WholeName ==> forall i :: 0 <= i < |r.value| ==> Under(r.value[i].written, root)
    decreases |ms|
  {
    if |ms| == 0 then Ok([])
    else
      var (first, links') :- UnpackMember(mode, root, links, ms[0], sub);
      var rest :- UnpackMembers(mode, root, links', ms[1..], sub);
      match first
      case None => Ok(rest)
      case Some(e) => Ok([e] + rest)
  }

  /** A selected member is reported under the unpack directory at its name relative to the sub-path. */
  lemma UnpackMemberReport(mode: Containment, root: Path, links: Links, m: TarMember, sub: Subpath)
    requires root.absolute && Valid(root)
    ensures var r := UnpackMember(mode, root, links, m, sub);
            r.Ok? && r.value.0.Some? ==>
              SelectedBy(sub, m.name) && r.value.0.value.reported == Join(root, Path(false, Parse(m.name).parts[|sub.path.parts|..]))
  {
  }

  lemma ReportedOfCons(e: Extraction, es: seq<Extraction>)
    ensures ReportedOf([e] + es) == [e.reported] + ReportedOf(es)
  {
    assert ([e] + es)[1..] == es;
  }

  /** The reported destinations are the reference ones, in order. */
  lemma {:induction false} UnpackMembersReports(mode: Containment, root: Path, links: Links, ms: seq<TarMember>, sub: Subpath)
    requires root.absolute && Valid(root)
    ensures var r := UnpackMembers(mode, root, links, ms, sub);
            r.Ok? ==> ReportedOf(r.value) == ReportedDests(root, sub, ms)
    decreases |ms|
  {
    var r := UnpackMembers(mode, root, links, ms, sub);
    if |ms| > 0 && r.Ok? {
      UnpackMembersStep(mode, root, links, ms, sub);
      var first := UnpackMember(mode, root, links, ms[0], sub);
      var rest := UnpackMembers(mode, root, first.value.1, ms[1..], sub);
      UnpackMembersReports(mode, root, first.value.1, ms[1..], sub);
      UnpackMemberReport(mode, root, links, ms[0], sub);
      if first.value.0.Some? {
        ReportedOfCons(first.value.0.value, rest.value);
      } else {
        assert [] + rest.value == rest.value;
      }
    }
  }

  /** One step of the member loop: a success is the first member's extraction, if any, before the rest's. */
  lemma UnpackMembersStep(mode: Containment, root: Path, links: Links, ms: seq<TarMember>, sub: Subpath)
    requires root.absolute && Valid(root) && |ms| > 0
    ensures var r := UnpackMembers(mode, root, links, ms, sub);
            var first := UnpackMember(mode, root, links, ms[0], sub);
            r.Ok? ==>
              && first.Ok?
              && var rest := UnpackMembers(mode, root, first.value.1, ms[1..], sub);
              && rest.Ok?
              && r.value == (if first.value.0.Some? then [first.value.0.value] else []) + rest.value
  {
  }

  /** Stable reverse sort by member name (`sorted(..., key=name, reverse=True)`). */
  predicate DescendingByName(ms: seq<TarMember>)
  {
    forall i, j :: 0 <= i < j < |ms| ==> LexLe(ms[j].name, ms[i].name)
  }

  function InsertByName(m: TarMember, s: seq<TarMember>): (r: seq<TarMember>)
    requires DescendingByName(s)
    ensures multiset(r) == multiset(s) + multiset{m}
    ensures DescendingByName(r)
    ensures r[0] == m || (|s| > 0 && r[0] == s[0])
  {
    if |s| == 0 then [m]
    else if LexLe(s[0].name, m.name) then
      DescendingCons(m, s);
      [m] + s
    else
      LexLeTotal(s[0].name, m.name);
      var t := InsertByName(m, s[1..]);
      assert LexLe(t[0].name, s[0].name);
      DescendingCons(s[0], t);
      assert s == [s[0]] + s[1..];
      [s[0]] + t
  }

  /** A member at or above the head of a descending list keeps it descending. */
  lemma DescendingCons(h: TarMember, t: seq<TarMember>)
    requires DescendingByName(t) && (|t| > 0 ==> LexLe(t[0].name, h.name))
    ensures DescendingByName([h] + t)
  {
    forall j | 0 <= j < |t|
      ensures LexLe(t[j].name, h.name)
    {
      if j > 0 {
        LexLeTransitive(t[j].name, t[0].name, h.name);
      }
    }
    forall i, j | 0 <= i < j < |t| + 1
      ensures LexLe(([h] + t)[j].name, ([h] + t)[i].name)
    {
      assert ([h] + t)[j] == t[j - 1];
      if i > 0 {
        assert ([h] + t)[i] == t[i - 1];
      }
    }
  }

  /** The order in which tar members are verified and extracted. */
  function SortByNameDescending(ms: seq<TarMember>): (r: seq<TarMember>)
    ensures multiset(r) == multiset(ms)
    ensures |r| == |ms|
    ensures DescendingByName(r)
  {
    if |ms| == 0 then []
    else
      assert ms == [ms[0]] + ms[1..];
      var r := InsertByName(ms[0], SortByNameDescending(ms[1..]));
      assert |r| == |multiset(r)|;
      r
  }

  /** The members named `n`, in their order in `ms`. */
  function Named(ms: seq<TarMember>, n: string): (r: seq<TarMember>)
    ensures forall i :: 0 <= i < |r| ==> r[i].name == n
  {
    if |ms| == 0 then []
    else (if ms[0].name == n then [ms[0]] else []) + Named(ms[1..], n)
  }

  /** Inserting `m` puts it ahead of the members already there with its name. */
  lemma {:induction false} InsertByNameStable(m: TarMember, s: seq<TarMember>, n: string)
    requires DescendingByName(s)
    ensures Named(InsertByName(m, s), n) == (if m.name == n then [m] else []) + Named(s, n)
    decreases |s|
  {
    if |s| == 0 {
      NamedCons(m, [], n);
    } else if LexLe(s[0].name, m.name) {
      NamedCons(m, s, n);
    } else {
      LexLeTotal(s[0].name, m.name);
      var t := InsertByName(m, s[1..]);
      assert InsertByName(m, s) == [s[0]] + t;
      InsertByNameStable(m, s[1..], n);
      NamedCons(s[0], t, n);
      assert s == [s[0]] + s[1..];
      NamedCons(s[0], s[1..], n);
    }
  }

  lemma NamedCons(x: TarMember, t: seq<TarMember>, n: string)
    ensures Named([x] + t, n) == (if x.name == n then [x] else []) + Named(t, n)
  {
    assert ([x] + t)[1..] == t;
  }

  /**
   * The sort is stable: for every name, the members with that name keep
   * their relative order, as `sorted` guarantees.
   */
  lemma {:induction false} SortByNameStable(ms: seq<TarMember>, n: string)
    ensures Named(SortByNameDescending(ms), n) == Named(ms, n)
    decreases |ms|
  {
    if |ms| > 0 {
      SortByNameStable(ms[1..], n);
      InsertByNameStable(ms[0], SortByNameDescending(ms[1..]), n);
    }
  }

  /** `_unpack_tar_to`: the common path of the reported destinations of the selected members. */
  function UnpackTar(mode: Containment, root: Path, links: Links, members: seq<TarMember>, sub: Subpath)
    : (r: Result<Path, UnpackError>)
    requires root.absolute && Valid(root)
    ensures r.Ok? ==> Under(r.value, root)
    ensures r.Ok? ==> CommonPath(ReportedDests(root, sub, SortByNameDescending(members))) == Ok(r.value)
    ensures var um := UnpackMembers(mode, root, links, SortByNameDescending(members), sub);
            && (um.Err? ==> r == Err(um.error))
            && (um.Ok? ==> (r.Ok? <==> |SelectedMembers(SortByNameDescending(members), sub)| > 0))
            && (um.Ok? && r.Err? ==> r.error == NothingUnpacked)
  {
    UnpackSorted(mode, root, links, SortByNameDescending(members), sub)
  }

  /** The body of `_unpack_tar_to` once the members are in extraction order. */
  function UnpackSorted(mode: Containment, root: Path, links: Links, ms: seq<TarMember>, sub: Subpath)
    : (r: Result<Path, UnpackError>)
    requires root.absolute && Valid(root)
    ensures r.Ok? ==> Under(r.value, root)
    ensures r.Ok? ==> CommonPath(ReportedDests(root, sub, ms)) == Ok(r.value)
    ensures var um := UnpackMembers(mode, root, links, ms, sub);
            && (um.Err? ==> r == Err(um.error))
            && (um.Ok? ==> (r.Ok? <==> |SelectedMembers(ms, sub)| > 0))
            && (um.Ok? && r.Err? ==> r.error == NothingUnpacked)
  {
    match UnpackMembers(mode, root, links, ms, sub)
    case Err(e) => Err(e)
    case Ok(es) =>
      var reported := ReportedOf(es);
      UnpackMembersReports(mode, root, links, ms, sub);
      if |reported| == 0 then Err(NothingUnpacked)
      else
        CommonPathDeepest(reported, root);
        Ok(CommonPath(reported).value)
  }

  /** The parts zipfile keeps of an entry name: no empty, ".", or ".." component. */
  function ZipArcParts(filename: string): (r: seq<string>)
    ensures CanonicalParts(r)
    ensures forall x :: x in r <==> x in Split(filename, '/') && x != "" && x != "." && x != ".."
  {
    var pieces := Split(filename, '/');
    KeepPlain(pieces)
  }

  /** The pieces that are not "", "." or "..", in their order. */
  function KeepPlain(pieces: seq<string>): (r: seq<string>)
    requires NoSlash(pieces)
    ensures CanonicalParts(r) && |r| <= |pieces|
    ensures forall x :: x in r <==> x in pieces && x != "" && x != "." && x != ".."
  {
    if |pieces| == 0 then []
    else
      var rest := KeepPlain(pieces[1..]);
      assert forall x :: x in pieces <==> x == pieces[0] || x in pieces[1..];
      if pieces[0] == "" || pieces[0] == "." || pieces[0] == ".." then rest
      else [pieces[0]] + rest
  }

  /** Components that are already plain are kept as they are. */
  lemma {:induction false} KeepPlainCanonical(xs: seq<string>)
    requires CanonicalParts(xs)
    ensures NoSlash(xs) && KeepPlain(xs) == xs
  {
    if |xs| > 0 {
      assert CanonicalParts(xs[1..]) by {
        forall i | 0 <= i < |xs[1..]|
          ensures IsPart(xs[1..][i]) && xs[1..][i] != ".."
        {
          assert xs[1..][i] == xs[i + 1];
        }
      }
      KeepPlainCanonical(xs[1..]);
      assert xs == [xs[0]] + xs[1..];
    }
  }

  /** An entry name spelled from plain components is extracted to exactly those components. */
  lemma ZipArcPartsOfCanonical(xs: seq<string>)
    requires |xs| >= 1 && CanonicalParts(xs)
    ensures ZipArcParts(JoinWith(xs, "/")) == xs
  {
    JoinSplit(xs, '/');
    KeepPlainCanonical(xs);
  }

  /** Where `ZipFile.extract(member, path=root)` writes the entry. */
  function ZipDest(root: Path, filename: string): (d: Path)
    requires root.absolute && Valid(root)
    ensures Canonical(d)
    ensures Canonical(root) ==> d == Path(true, root.parts + ZipArcParts(filename)) && Under(d, root)
  {
    var d := Normalize(Join(root, Path(false, ZipArcParts(filename))));
    if Canonical(root) then
      NormalizeDescend(root, ZipArcParts(filename));
      d
    else d
  }

  /** Whether an entry name and the sub-path are both absolute or both relative, so `commonpath` of the two is defined. */
  predicate SameAnchorAs(sub: Subpath, filename: string)
  {
    Parse(filename).absolute == SubpathPath(sub).absolute
  }

  /**
   * Reference for the zip filter: an entry with the sub-path's anchor is
   * kept when it lies under the sub-path; any other entry repeats the
   * decision made for the last entry before it (`last`).
   */
  function ZipChosen(entries: seq<ZipMember>, sub: Subpath, last: bool): (kept: seq<ZipMember>)
    ensures |kept| <= |entries|
  {
    if |entries| == 0 then []
    else
      var keep := if SameAnchorAs(sub, entries[0].filename) then SelectedBy(sub, entries[0].filename) else last;
      (if keep then [entries[0]] else []) + ZipChosen(entries[1..], sub, keep)
  }

  function ZipDests(root: Path, entries: seq<ZipMember>): (ds: seq<Path>)
    requires root.absolute && Valid(root)
    ensures |ds| == |entries|
    ensures forall i :: 0 <= i < |entries| ==> ds[i] == ZipDest(root, entries[i].filename)
  {
    if |entries| == 0 then [] else [ZipDest(root, entries[0].filename)] + ZipDests(root, entries[1..])
  }

  /** The decision the carried `common` stands for: whether it equals the sub-path. */
  predicate Decision(sub: Subpath, prev: Option<Path>)
  {
    prev.Some? && SubpathEquals(prev.value, sub)
  }

  /** `commonpath` of an entry name and the sub-path equals the sub-path exactly when the entry is selected. */
  lemma CommonWithSubpath(filename: string, sub: Subpath)
    ensures var c := CommonPath([Parse(filename), SubpathPath(sub)]);
            && (c.Ok? <==> SameAnchorAs(sub, filename))
            && (c.Ok? ==> (SubpathEquals(c.value, sub) <==> SelectedBy(sub, filename)))
  {
    SameAnchorPair(Parse(filename), SubpathPath(sub));
    CommonPathPair(Parse(filename), SubpathPath(sub));
  }

  /**
   * The loop of `_unpack_zip_to`. `prev` is the value `common` kept from the
   * previous iteration, which the loop falls back to when `commonpath` raises.
   * It fails only when the first entry's anchor differs from the sub-path's
   * and there is no previous value; otherwise it gives where the reference
   * selection lands.
   */
  function ZipSelect(root: Path, entries: seq<ZipMember>, sub: Subpath, prev: Option<Path>)
    : (r: Result<seq<Path>, UnpackError>)
    requires root.absolute && Valid(root)
    ensures r.Err? <==> |entries| > 0 && prev.None? && !SameAnchorAs(sub, entries[0].filename)
    ensures r.Err? ==> r.error == CommonUnbound
    ensures r.Ok? ==> r.value == ZipDests(root, ZipChosen(entries, sub, Decision(sub, prev)))
    decreases |entries|
  {
    if |entries| == 0 then Ok([])
    else
      var e := entries[0];
      CommonWithSubpath(e.filename, sub);
      var common := Carried(e.filename, sub, prev);
      if common.None? then Err(CommonUnbound)
      else
        ZipChosenStep(entries, sub, prev);
        ZipDestsCons(root, Decision(sub, common), e, ZipChosen(entries[1..], sub, Decision(sub, common)));
        if !SubpathEquals(common.value, sub) then ZipSelect(root, entries[1..], sub, common)
        else
          match ZipSelect(root, entries[1..], sub, common)
          case Err(err) => Err(err)
          case Ok(rest) => Ok([ZipDest(root, e.filename)] + rest)
  }

  /** The `common` the loop holds after an entry: its `commonpath` with the sub-path, or the previous value when that raises. */
  function Carried(filename: string, sub: Subpath, prev: Option<Path>): Option<Path>
  {
    match CommonPath([Parse(filename), SubpathPath(sub)])
    case Ok(c) => Some(c)
    case Err(_) => prev
  }

  /** One step of the reference selection, in terms of the `common` the loop carries. */
  lemma ZipChosenStep(entries: seq<ZipMember>, sub: Subpath, prev: Option<Path>)
    requires |entries| > 0
    ensures var common := Carried(entries[0].filename, sub, prev);
            ZipChosen(entries, sub, Decision(sub, prev))
            == (if Decision(sub, common) then [entries[0]] else []) + ZipChosen(entries[1..], sub, Decision(sub, common))
  {
    CommonWithSubpath(entries[0].filename, sub);
  }

  lemma ZipDestsCons(root: Path, keep: bool, e: ZipMember, rest: seq<ZipMember>)
    requires root.absolute && Valid(root)
    ensures ZipDests(root, (if keep then [e] else []) + rest)
            == (if keep then [ZipDest(root, e.filename)] else []) + ZipDests(root, rest)
  {
    if keep {
      assert ([e] + rest)[1..] == rest;
    } else {
      assert [] + rest == rest;
    }
  }

  /**
   * `_unpack_zip_to`: no containment check; the common path of where the
   * selected entries land, failing when none is selected.
   */
  function UnpackZip(root: Path, entries: seq<ZipMember>, sub: Subpath): (r: Result<Path, UnpackError>)
    requires root.absolute && Valid(root)
    ensures var sel := ZipSelect(root, entries, sub, None);
            && (sel.Err? ==> r == Err(sel.error))
            && (sel.Ok? ==> (r.Ok? <==> |ZipChosen(entries, sub, false)| > 0))
            && (sel.Ok? && r.Err? ==> r.error == NothingUnpacked)
    ensures r.Ok? ==> CommonPath(ZipDests(root, ZipChosen(entries, sub, false))) == Ok(r.value)
    ensures r.Ok? && Canonical(root) ==> Under(r.value, root)
  {
    match ZipSelect(root, entries, sub, None)
    case Err(e) => Err(e)
    case Ok(dests) =>
      if |dests| > 0 && Canonical(root) then
        CommonPathDeepest(dests, root);
        Ok(CommonPath(dests).value)
      else
        AllCanonicalSameAnchor(dests);
        match CommonPath(dests)
        case Err(_) => Err(NothingUnpacked)
        case Ok(p) => Ok(p)
  }

  lemma AllCanonicalSameAnchor(ps: seq<Path>)
    requires forall i :: 0 <= i < |ps| ==> Canonical(ps[i])
    ensures |ps| > 0 ==> SameAnchor(ps)
  {
  }

  /** `unpack_source`: a ".tar" anywhere in the file name selects tarfile, anything else zipfile. */
  function UnpackSource(mode: Containment, root: Path, links: Links, archive: Archive, sub: Subpath)
    : (r: Result<Path, UnpackError>)
    requires root.absolute && Valid(root)
    ensures Contains(Name(archive.path), ".tar") && archive.content.TarContent? ==>
              r == UnpackTar(mode, root, links, archive.content.members, sub)
    ensures !Contains(Name(archive.path), ".tar") && archive.content.ZipContent? ==>
              r == UnpackZip(root, archive.content.entries, sub)
    ensures Contains(Name(archive.path), ".tar") != archive.content.TarContent? ==> r == Err(NotAnArchive)
  {
    if Contains(Name(archive.path), ".tar") then
      match archive.content
      case TarContent(ms) => UnpackTar(mode, root, links, ms, sub)
      case _ => Err(NotAnArchive)
    else
      match archive.content
      case ZipContent(es) => UnpackZip(root, es, sub)
      case _ => Err(NotAnArchive)
  }

  /** A relative member name lies under ".", so the sub-path "." keeps every member. */
  lemma {:induction false} DotSelectsAll(ms: seq<TarMember>)
    requires forall i :: 0 <= i < |ms| ==> |ms[i].name| == 0 || ms[i].name[0] != '/'
    ensures SelectedMembers(ms, PathArg(Dot)) == ms
  {
    if |ms| > 0 {
      DotSelectsAll(ms[1..]);
      assert ms == [ms[0]] + ms[1..];
    }
  }

  /** A sub-path given as a `str` never equals a `Path`, so it selects nothing. */
  lemma {:induction false} TextSubpathSelectsNothing(ms: seq<TarMember>, text: string)
    ensures SelectedMembers(ms, StrArg(text)) == []
  {
    if |ms| > 0 {
      TextSubpathSelectsNothing(ms[1..], text);
    }
  }

  /** Zip entries are never selected by a `str` sub-path either. */
  lemma {:induction false} TextSubpathSelectsNoEntry(root: Path, entries: seq<ZipMember>, text: string, prev: Option<Path>)
    requires root.absolute && Valid(root)
    ensures ZipSelect(root, entries, StrArg(text), prev).Ok? ==> ZipSelect(root, entries, StrArg(text), prev).value == []
    decreases |entries|
  {
    if |entries| > 0 {
      var e := entries[0];
      var common := match CommonPath([Parse(e.filename), Parse(text)]) case Ok(c) => Some(c) case Err(_) => prev;
      TextSubpathSelectsNoEntry(root, entries[1..], text, common);
    }
  }

  /** Whatever the archive holds, unpacking with a `str` sub-path fails. */
  lemma TextSubpathFailsUnpack(mode: Containment, root: Path, links: Links, archive: Archive, text: string)
    requires root.absolute && Valid(root)
    ensures UnpackSource(mode, root, links, archive, StrArg(text)).Err?
  {
    match archive.content
    case TarContent(ms) =>
      TextSubpathSelectsNothing(SortByNameDescending(ms), text);
    case ZipContent(entries) =>
      TextSubpathSelectsNoEntry(root, entries, text, None);
    case Unreadable =>
  }

  /** A member whose final component is ".." resolves to the unpack directory's parent and is refused. */
  lemma DotDotFinalComponentRejected(root: Path, name: string, kind: MemberType, linkname: string)
    requires Canonical(root) && |root.parts| > 0
    requires Name(Parse(name)) == ".."
    ensures VerifyTarMember(FinalComponent, root, map[], TarMember(name, kind, linkname)).Err?
  {
    RealpathWithoutLinks(Child(root, ".."));
    NormalizeChild(root, "..");
  }

  /** A single member of an unhandled type aborts the whole unpack. */
  lemma {:induction false} UnsupportedMemberAborts(mode: Containment, root: Path, links: Links, ms: seq<TarMember>, sub: Subpath, k: nat)
    requires root.absolute && Valid(root)
    requires k < |ms| && !Supported(ms[k].kind)
    ensures UnpackMembers(mode, root, links, ms, sub).Err?
    decreases |ms|
  {
    var first := UnpackMember(mode, root, links, ms[0], sub);
    if k > 0 && first.Ok? {
      assert ms[1..][k - 1] == ms[k];
      UnsupportedMemberAborts(mode, root, first.value.1, ms[1..], sub, k - 1);
    }
  }

  /** Whatever order the sort puts them in, an unhandled member type makes the tar unpack fail. */
  lemma UnsupportedMemberFailsTar(mode: Containment, root: Path, links: Links, ms: seq<TarMember>, sub: Subpath, k: nat)
    requires root.absolute && Valid(root)
    requires k < |ms| && !Supported(ms[k].kind)
    ensures UnpackTar(mode, root, links, ms, sub).Err?
  {
    var sorted := SortByNameDescending(ms);
    assert ms[k] in multiset(sorted);
    var j :| 0 <= j < |sorted| && sorted[j] == ms[k];
    UnsupportedMemberAborts(mode, root, links, sorted, sub, j);
  }

  lemma ParseTraversal()
    ensures Parse("../evil") == Path(false, ["..", "evil"])
  {
    ParseAround("..", "evil");
    ParseComponent("..");
    ParseComponent("evil");
    assert ".." + "/" + "evil" == "../evil";
  }

  lemma LexResolveTraversal()
    ensures LexResolve([], ["work", "unpack", "..", "evil"]) == ["work", "evil"]
  {
    var xs := ["work", "unpack", "..", "evil"];
    assert xs[1..] == ["unpack", "..", "evil"];
    assert xs[1..][1..] == ["..", "evil"];
    assert xs[1..][1..][1..] == ["evil"];
    assert DropLast(["work", "unpack"]) == ["work"];
  }

  lemma ResolveTraversal(root: Path)
    requires root == Path(true, ["work", "unpack"])
    ensures Realpath(map[], Child(root, "../evil")) == Path(true, ["work", "evil"])
  {
    TraversalWhole();
    TraversalNormalized();
  }

  lemma TraversalNormalized()
    ensures Valid(Path(true, ["work", "unpack", "..", "evil"]))
    ensures Realpath(map[], Path(true, ["work", "unpack", "..", "evil"])) == Path(true, ["work", "evil"])
  {
    var xs := ["work", "unpack", "..", "evil"];
    assert IsPart(xs[0]) && IsPart(xs[1]) && IsPart(xs[2]) && IsPart(xs[3]);
    RealpathWithoutLinks(Path(true, xs));
    LexResolveTraversal();
  }

  lemma TraversalWhole()
    ensures Child(TraversalRoot, "../evil") == Path(true, ["work", "unpack", "..", "evil"])
  {
    ParseTraversal();
    assert ["work", "unpack"] + ["..", "evil"] == ["work", "unpack", "..", "evil"];
  }

  const TraversalRoot := Path(true, ["work", "unpack"])
  const TraversalMember := TarMember("../evil", Regular, "")

  /** Checking only the final component, "../evil" resolves to ".../unpack/evil" and is admitted. */
  lemma TraversalAdmittedByFinalComponent()
    ensures Admissible(FinalComponent, TraversalRoot, map[], TraversalMember)
  {
    TraversalFinalResolved();
    RegularAdmissible(FinalComponent, TraversalRoot, map[], TraversalMember);
  }

  /** A regular file or directory is admitted when its containment target resolves inside the unpack directory. */
  lemma RegularAdmissible(mode: Containment, root: Path, links: Links, m: TarMember)
    requires root.absolute && Valid(root)
    requires m.kind.Regular? || m.kind.Directory?
    requires Under(Realpath(links, ContainmentTarget(mode, root, m.name)), root)
    ensures Admissible(mode, root, links, m)
  {
  }

  lemma TraversalFinalResolved()
    ensures Realpath(map[], ContainmentTarget(FinalComponent, TraversalRoot, TraversalMember.name)) == Path(true, ["work", "unpack", "evil"])
  {
    TraversalFinalTarget();
    TraversalRootCanonical();
    RealpathDescend(TraversalRoot, ["evil"]);
    assert TraversalRoot.parts + ["evil"] == ["work", "unpack", "evil"];
  }

  lemma TraversalRootCanonical()
    ensures Canonical(TraversalRoot) && CanonicalParts(["evil"])
  {
    assert IsPart("evil") && IsPart("work") && IsPart("unpack");
  }

  /** Descending by resolved components from a resolved directory, with no links, involves no resolution. */
  lemma RealpathDescend(root: Path, xs: seq<string>)
    requires Canonical(root) && CanonicalParts(xs)
    ensures Realpath(map[], Join(root, Path(false, xs))) == Path(true, root.parts + xs)
  {
    RealpathWithoutLinks(Join(root, Path(false, xs)));
    NormalizeDescend(root, xs);
  }

  lemma TraversalFinalTarget()
    ensures ContainmentTarget(FinalComponent, TraversalRoot, TraversalMember.name) == Join(TraversalRoot, Path(false, ["evil"]))
  {
    ParseTraversal();
    ParseComponent("evil");
  }

  /** Checking the whole name, "../evil" resolves outside the unpack directory and is refused. */
  lemma TraversalRefusedByWholeName()
    ensures !Admissible(WholeName, TraversalRoot, map[], TraversalMember)
  {
    ResolveTraversal(TraversalRoot);
  }

  /**
   * A member named "../evil" passes the check as written: only its final
   * component is resolved, yet the extraction writes beside the unpack
   * directory. Checking the whole name rejects it.
   */
  lemma TraversalAcceptedAsWritten()
    ensures WritesOutside(UnpackMember(FinalComponent, TraversalRoot, map[], TraversalMember, PathArg(Dot)),
                          TraversalRoot, Path(true, ["work", "evil"]))
    ensures VerifyTarMember(WholeName, TraversalRoot, map[], TraversalMember).Err?
  {
    TraversalExtracted();
    TraversalOutside();
    TraversalRefusedByWholeName();
  }

  lemma TraversalExtracted()
    ensures var r := UnpackMember(FinalComponent, TraversalRoot, map[], TraversalMember, PathArg(Dot));
            r.Ok? && r.value.0.Some? && r.value.0.value.written == Path(true, ["work", "evil"])
  {
    TraversalSelected();
    TraversalAdmittedByFinalComponent();
    ResolveTraversal(TraversalRoot);
    UnpackMemberExtracts(FinalComponent, TraversalRoot, map[], TraversalMember, PathArg(Dot));
  }

  lemma TraversalSelected()
    ensures SelectedBy(PathArg(Dot), TraversalMember.name) && !Parse(TraversalMember.name).absolute
  {
    ParseTraversal();
  }

  /** An admitted member with the sub-path's anchor, lying under it, is extracted to its real location. */
  lemma UnpackMemberExtracts(mode: Containment, root: Path, links: Links, m: TarMember, sub: Subpath)
    requires root.absolute && Valid(root)
    requires Admissible(mode, root, links, m) && SelectedBy(sub, m.name)
    requires Parse(m.name).absolute == SubpathPath(sub).absolute
    ensures var r := UnpackMember(mode, root, links, m, sub);
            r.Ok? && r.value.0.Some? && r.value.0.value.written == Realpath(links, Child(root, m.name))
  {
  }

  lemma TraversalOutside()
    ensures !Under(Path(true, ["work", "evil"]), TraversalRoot)
  {
    assert TraversalRoot.parts[1] != ["work", "evil"][1];
  }

  /** The unpack step succeeded and extracted its member to `at`, which lies outside `root`. */
  predicate WritesOutside(r: Result<(Option<Extraction>, Links), UnpackError>, root: Path, at: Path)
  {
    r.Ok? && r.value.0.Some? && r.value.0.value.written == at && !Under(at, root)
  }

  /**
   * A member the two containment checks treat alike: a regular file or
   * directory whose name is relative and made only of plain components.
   */
  predicate PlainMember(m: TarMember)
  {
    && (m.kind.Regular? || m.kind.Directory?)
    && !Parse(m.name).absolute && |Parse(m.name).parts| > 0
    && CanonicalParts(Parse(m.name).parts)
  }

  /** With no links on disk, a plain member is admitted by either check. */
  lemma PlainAdmissible(mode: Containment, root: Path, m: TarMember)
    requires Canonical(root) && PlainMember(m)
    ensures Admissible(mode, root, map[], m)
  {
    var xs := Parse(m.name).parts;
    match mode
    case WholeName =>
      RealpathWithoutLinks(Child(root, m.name));
      NormalizeDescend(root, xs);
    case FinalComponent =>
      var last := Name(Parse(m.name));
      ParseComponent(last);
      RealpathWithoutLinks(Child(root, last));
      NormalizeDescend(root, [last]);
    RegularAdmissible(mode, root, map[], m);
  }

  /** For plain members and no links, checking the final component unpacks exactly what checking the whole name does. */
  lemma {:induction false} PlainMembersAgree(root: Path, ms: seq<TarMember>, sub: Subpath)
    requires Canonical(root) && forall i :: 0 <= i < |ms| ==> PlainMember(ms[i])
    ensures UnpackMembers(FinalComponent, root, map[], ms, sub) == UnpackMembers(WholeName, root, map[], ms, sub)
    decreases |ms|
  {
    if |ms| > 0 {
      PlainAdmissible(FinalComponent, root, ms[0]);
      PlainAdmissible(WholeName, root, ms[0]);
      var a := UnpackMember(FinalComponent, root, map[], ms[0], sub);
      assert a == UnpackMember(WholeName, root, map[], ms[0], sub);
      if a.Ok? {
        assert a.value.1 == map[];
      }
      PlainMembersAgree(root, ms[1..], sub);
      UnpackMembersSameSteps(root, map[], ms, sub);
    }
  }

  /** The two checks unpack a list alike when they handle its first member alike and then the rest alike. */
  lemma UnpackMembersSameSteps(root: Path, links: Links, ms: seq<TarMember>, sub: Subpath)
    requires root.absolute && Valid(root) && |ms| > 0
    requires UnpackMember(FinalComponent, root, links, ms[0], sub) == UnpackMember(WholeName, root, links, ms[0], sub)
    requires var a := UnpackMember(FinalComponent, root, links, ms[0], sub);
             a.Ok? ==> UnpackMembers(FinalComponent, root, a.value.1, ms[1..], sub) == UnpackMembers(WholeName, root, a.value.1, ms[1..], sub)
    ensures UnpackMembers(FinalComponent, root, links, ms, sub) == UnpackMembers(WholeName, root, links, ms, sub)
  {
  }

  /** Hence the two tar unpacks agree on an archive of plain members. */
  lemma PlainTarAgrees(root: Path, ms: seq<TarMember>, sub: Subpath)
    requires Canonical(root) && forall i :: 0 <= i < |ms| ==> PlainMember(ms[i])
    ensures UnpackTar(FinalComponent, root, map[], ms, sub) == UnpackTar(WholeName, root, map[], ms, sub)
  {
    var sorted := SortByNameDescending(ms);
    forall j | 0 <= j < |sorted|
      ensures PlainMember(sorted[j])
    {
      assert sorted[j] in multiset(ms);
    }
    PlainMembersAgree(root, sorted, sub);
  }

  /**
   * Archives on which the two containment checks cannot differ: anything
   * but a tar archive, or a tar archive of plain members with no links on disk.
   */
  predicate PlainContent(content: Content, links: Links)
  {
    content.TarContent? ==> links == map[] && forall i :: 0 <= i < |content.members| ==> PlainMember(content.members[i])
  }

  /** On such an archive, unpacking with either check gives the same result. */
  lemma PlainUnpackAgrees(root: Path, links: Links, archive: Archive, sub: Subpath)
    requires Canonical(root) && PlainContent(archive.content, links)
    ensures UnpackSource(FinalComponent, root, links, archive, sub) == UnpackSource(WholeName, root, links, archive, sub)
  {
    if archive.content.TarContent? {
      PlainTarAgrees(root, archive.content.members, sub);
    }
  }
}

=== FILE: host_run.dfy ===
/**
 * `run_build` on the host: the `--container-source` choice mapped to the
 * two container flags, container preparation, and the container run unless
 * only preparation was asked for.
 */
module HostRun {
  import opened Wrappers
  import opened Paths
  import opened Containers

  datatype Flags = Flags(forceBuild: bool, requireTag: bool)

  datatype RunError = UnknownContainerSource(source: string) | PrepFailed(error: ContainerError)

  /** The `container_source` cases; any other value is an error raised before any container work. */
  function ContainerFlags(source: string): (r: Result<Flags, RunError>)
    ensures source == "any" ==> r == Ok(Flags(false, false))
    ensures source == "build" ==> r == Ok(Flags(true, false))
    ensures source == "pull" ==> r == Ok(Flags(false, true))
    ensures r.Err? <==> source != "any" && source != "build" && source != "pull"
    ensures r.Err? ==> r.error == UnknownContainerSource(source)
  {
    if source == "any" then Ok(Flags(false, false))
    else if source == "build" then Ok(Flags(true, false))
    else if source == "pull" then Ok(Flags(false, true))
    else Err(UnknownContainerSource(source))
  }

  /** The command line never asks to force a build and to require the pulled tag together. */
  lemma FlagsNeverBoth(source: string)
    ensures ContainerFlags(source).Ok? ==> !(ContainerFlags(source).value.forceBuild && ContainerFlags(source).value.requireTag)
  {
  }

  /** The parsed arguments `run_build` reads. */
  datatype Args = Args(containerSource: string, containerTag: Option<string>, prepContainerOnly: bool)

  /** What `run_build` did: the preparation's docker commands, and the `docker run` command line, if any. */
  datatype RunOutcome = RunOutcome(prepCommands: seq<seq<string>>, run: Option<seq<string>>, result: Result<(), RunError>)

  /** `argv[1:]`. */
  function Forwarded(argv: seq<string>): (r: seq<string>)
    ensures |argv| > 0 ==> argv == [argv[0]] + r
    ensures |argv| == 0 ==> r == []
  {
    if |argv| == 0 then [] else argv[1..]
  }

  /**
   * `run_build`: map the container source, prepare the container, and run
   * it with the program's own arguments (without the program name) unless
   * only preparation was asked for. `root` is the repository root the
   * program locates from its own file; the image is built from it and the
   * mounted volume is its real parent, as `_container_run_invoke_cmd`
   * computes it through `links`.
   */
  function RunBuild(argv: seq<string>, args: Args, version: string, links: Links, root: Path, docker: Docker)
    : (r: RunOutcome)
    requires root.absolute && Valid(root)
    ensures ContainerFlags(args.containerSource).Err? ==> r.prepCommands == [] && r.run.None? && r.result.Err?
    ensures args.prepContainerOnly ==> r.run.None?
    ensures r.run.Some? ==>
              exists image :: r.run.value == RunInvokeCmd(image, Forwarded(argv), VolumePath(links, root))
    ensures r.result.Ok? <==> (ContainerFlags(args.containerSource).Ok? &&
                               PrepContainer(args.containerTag, ContainerFlags(args.containerSource).value.requireTag,
                                             ContainerFlags(args.containerSource).value.forceBuild,
                                             version, Format(root), docker).result.Ok?)
  {
    match ContainerFlags(args.containerSource)
    case Err(e) => RunOutcome([], None, Err(e))
    case Ok(flags) =>
      var prep := PrepContainer(args.containerTag, flags.requireTag, flags.forceBuild, version, Format(root), docker);
      match prep.result
      case Err(e) => RunOutcome(prep.commands, None, Err(PrepFailed(e)))
      case Ok(image) =>
        if args.prepContainerOnly then RunOutcome(prep.commands, None, Ok(()))
        else RunOutcome(prep.commands, Some(RunInvokeCmd(image, Forwarded(argv), VolumePath(links, root))), Ok(()))
  }

  /**
   * When the container is ready and a run is wanted, it is the prepared image
   * that runs, with the real parent of the repository root mounted.
   */
  lemma RunUsesPreparedImage(argv: seq<string>, args: Args, version: string, links: Links, root: Path, docker: Docker)
    requires root.absolute && Valid(root)
    requires ContainerFlags(args.containerSource).Ok? && !args.prepContainerOnly
    ensures var flags := ContainerFlags(args.containerSource).value;
            var prep := PrepContainer(args.containerTag, flags.requireTag, flags.forceBuild, version, Format(root), docker);
            var r := RunBuild(argv, args, version, links, root, docker);
            prep.result.Ok? ==>
              r.run == Some(RunInvokeCmd(prep.result.value, Forwarded(argv), VolumePath(links, root))) &&
              Parse(VolumePath(links, root)) == Realpath(links, Child(root, ".."))
  {
  }
}

=== FILE: index_layout.dfy ===
/**
 * The layout of the generated package index: wheels grouped by package
 * name, the slash-terminated URLs, the `simple/` directory tree and the
 * list of every path the generation writes, in order. The wheel's package
 * name is read from its metadata, which is not modelled: it is the function
 * `wheelName`.
 */
module IndexLayout {
  import opened Wrappers
  import opened Text
  import opened Paths
  import opened Urls

  predicate Distinct<T(==)>(s: seq<T>)
  {
    forall i, j :: 0 <= i < j < |s| ==> s[i] != s[j]
  }

  /** The elements of `s` at their first occurrence, in order. */
  function Dedup(s: seq<Path>): (r: seq<Path>)
    ensures Distinct(r)
    ensures forall x :: x in r <==> x in s
  {
    if |s| == 0 then []
    else
      var r := Dedup(s[..|s| - 1]);
      var x := s[|s| - 1];
      assert forall y :: y in s <==> y in s[..|s| - 1] || y == x by {
        assert s == s[..|s| - 1] + [x];
      }
      if x in r then r else r + [x]
  }

  /**
   * `collate_to_packages`: a map from each package name to the set of wheels
   * with that name.
   */
  function Collate(dists: seq<Path>, wheelName: Path -> string): (m: map<string, set<Path>>)
    ensures forall d :: d in dists ==> wheelName(d) in m && d in m[wheelName(d)]
    ensures forall k :: k in m ==> forall d :: d in m[k] ==> d in dists && wheelName(d) == k
  {
    if |dists| == 0 then map[]
    else
      var m := Collate(dists[..|dists| - 1], wheelName);
      var d := dists[|dists| - 1];
      var k := wheelName(d);
      assert forall e :: e in dists <==> e in dists[..|dists| - 1] || e == d by {
        assert dists == dists[..|dists| - 1] + [d];
      }
      m[k := (if k in m then m[k] else {}) + {d}]
  }

  /** Every wheel is in exactly its own group, no group is empty, and the groups together are the input. */
  lemma CollatePartition(dists: seq<Path>, wheelName: Path -> string)
    ensures var m := Collate(dists, wheelName);
            forall d, k :: d in dists && k in m ==> (d in m[k] <==> k == wheelName(d))
    ensures var m := Collate(dists, wheelName);
            forall k :: k in m ==> m[k] != {}
    ensures var m := Collate(dists, wheelName);
            forall d :: d in dists ==> wheelName(d) in m && d in m[wheelName(d)]
    ensures var m := Collate(dists, wheelName);
            forall d, k :: k in m && d in m[k] ==> d in dists
  {
    var m := Collate(dists, wheelName);
    forall k | k in m
      ensures m[k] != {}
    {
      CollateKeyHasWheel(dists, wheelName, k);
    }
  }

  /** Every key of the map names at least one of the wheels. */
  lemma {:induction false} CollateKeyHasWheel(dists: seq<Path>, wheelName: Path -> string, k: string)
    requires k in Collate(dists, wheelName)
    ensures exists d :: d in dists && wheelName(d) == k && d in Collate(dists, wheelName)[k]
  {
    var m0 := Collate(dists[..|dists| - 1], wheelName);
    var d := dists[|dists| - 1];
    if k != wheelName(d) {
      CollateKeyHasWheel(dists[..|dists| - 1], wheelName, k);
      var e :| e in dists[..|dists| - 1] && wheelName(e) == k && e in m0[k];
      assert e in dists;
    }
  }

  /** The package names in the order the map's keys are first inserted. */
  function NamesInOrder(dists: seq<Path>, wheelName: Path -> string): (r: seq<string>)
    ensures Distinct(r)
    ensures forall k :: k in r <==> exists d :: d in dists && wheelName(d) == k
  {
    if |dists| == 0 then []
    else
      var r := NamesInOrder(dists[..|dists| - 1], wheelName);
      var d := dists[|dists| - 1];
      assert forall e :: e in dists <==> e in dists[..|dists| - 1] || e == d by {
        assert dists == dists[..|dists| - 1] + [d];
      }
      if wheelName(d) in r then r else r + [wheelName(d)]
  }

  /** The names listed are exactly the map's keys. */
  lemma NamesAreKeys(dists: seq<Path>, wheelName: Path -> string)
    ensures forall k :: k in NamesInOrder(dists, wheelName) <==> k in Collate(dists, wheelName)
  {
    forall k | k in Collate(dists, wheelName)
      ensures k in NamesInOrder(dists, wheelName)
    {
      CollateKeyHasWheel(dists, wheelName, k);
    }
  }

  /** The wheels of one package, in input order. */
  function Filter(s: seq<Path>, wheelName: Path -> string, k: string): (r: seq<Path>)
    ensures |r| <= |s|
    ensures forall d :: d in r <==> d in s && wheelName(d) == k
  {
    if |s| == 0 then []
    else
      var rest := Filter(s[1..], wheelName, k);
      assert forall e :: e in s <==> e == s[0] || e in s[1..] by {
        assert s == [s[0]] + s[1..];
      }
      (if wheelName(s[0]) == k then [s[0]] else []) + rest
  }

  /** The wheels whose package is one of `ks`, in input order. */
  function Within(s: seq<Path>, wheelName: Path -> string, ks: set<string>): seq<Path>
  {
    if |s| == 0 then []
    else (if wheelName(s[0]) in ks then [s[0]] else []) + Within(s[1..], wheelName, ks)
  }

  lemma {:induction false} WithinAdd(s: seq<Path>, wheelName: Path -> string, ks: set<string>, k: string)
    requires k !in ks
    ensures |Within(s, wheelName, ks + {k})| == |Within(s, wheelName, ks)| + |Filter(s, wheelName, k)|
  {
    if |s| > 0 {
      WithinAdd(s[1..], wheelName, ks, k);
    }
  }

  lemma {:induction false} WithinAll(s: seq<Path>, wheelName: Path -> string, ks: set<string>)
    requires forall i :: 0 <= i < |s| ==> wheelName(s[i]) in ks
    ensures Within(s, wheelName, ks) == s
  {
    if |s| > 0 {
      WithinAll(s[1..], wheelName, ks);
      assert s == [s[0]] + s[1..];
    }
  }

  /** The total number of wheels over the packages `ks`. */
  function SumGroups(ks: seq<string>, s: seq<Path>, wheelName: Path -> string): nat
  {
    if |ks| == 0 then 0 else |Filter(s, wheelName, ks[0])| + SumGroups(ks[1..], s, wheelName)
  }

  lemma {:induction false} SumGroupsWithin(ks: seq<string>, s: seq<Path>, wheelName: Path -> string)
    requires Distinct(ks)
    ensures SumGroups(ks, s, wheelName) == |Within(s, wheelName, set k | k in ks)|
  {
    if |ks| == 0 {
      assert (set k | k in ks) == {};
      WithinNone(s, wheelName);
    } else {
      var rest := set k | k in ks[1..];
      assert ks[0] !in rest by {
        forall j | 0 <= j < |ks[1..]|
          ensures ks[1..][j] != ks[0]
        {
          assert ks[1..][j] == ks[j + 1];
        }
      }
      assert (set k | k in ks) == rest + {ks[0]} by {
        assert ks == [ks[0]] + ks[1..];
      }
      SumGroupsWithin(ks[1..], s, wheelName);
      WithinAdd(s, wheelName, rest, ks[0]);
    }
  }

  lemma {:induction false} WithinNone(s: seq<Path>, wheelName: Path -> string)
    ensures Within(s, wheelName, {}) == []
  {
    if |s| > 0 {
      WithinNone(s[1..], wheelName);
    }
  }

  /** Adds the "/" a URL lacks. */
  function EnsureTrailingSlash(url: string): (r: string)
    ensures EndsWith(r, "/")
    ensures url <= r && |r| <= |url| + 1
    ensures EndsWith(url, "/") ==> r == url
  {
    if EndsWith(url, "/") then url
    else
      assert (url + "/")[..|url|] == url;
      url + "/"
  }

  lemma EnsureTrailingSlashIdempotent(url: string)
    ensures EnsureTrailingSlash(EnsureTrailingSlash(url)) == EnsureTrailingSlash(url)
  {
  }

  /**
   * `simple_url_from_index_url`: `urljoin` of the slash-terminated index
   * URL and the reference "simple/". It fails only where `urlparse` does,
   * always ends in "simple/", and is "simple/" alone when the URL's scheme
   * is one `urljoin` does not resolve relative references under.
   */
  function SimpleUrl(indexUrl: string): (r: Result<string, UrlError>)
    ensures r.Err? <==> UrlParse(EnsureTrailingSlash(indexUrl), "").Err?
    ensures r.Ok? ==> EndsWith(r.value, "simple/")
    ensures r.Ok? && UrlParse(EnsureTrailingSlash(indexUrl), "").value.scheme !in UsesRelative ==> r.value == "simple/"
  {
    var base := EnsureTrailingSlash(indexUrl);
    JoinSimpleFacts(base);
    UrlJoin(base, "simple/")
  }

  lemma EndsWithSlash(prefix: string, segs: seq<string>)
    ensures EndsWith(prefix + "/" + DirText(segs), "/")
  {
    var u := prefix + "/" + DirText(segs);
    if |segs| > 0 {
      DirTextOfSome(segs);
      assert u == prefix + "/" + JoinWith(segs, "/") + "/";
    } else {
      assert DirText(segs) == "";
      assert u == prefix + "/";
    }
  }

  /**
   * An index URL with a scheme that resolves relative references and an
   * authority: "simple/" lands in its directory, the directory's empty
   * segments dropped.
   */
  lemma SimpleUrlUnderAuthority(scheme: string, host: string, segs: seq<string>)
    requires LowerScheme(scheme) && scheme in UsesRelative
    requires host != "" && Avoids(host, HostStops)
    requires PlainSegments(segs) && forall i :: 0 <= i < |segs| ==> Avoids(segs[i], PathStops)
    ensures SimpleUrl(scheme + "://" + host + "/" + DirText(segs))
         == Ok(scheme + "://" + host + "/" + DirText(NonEmpty(segs)) + "simple/")
  {
    EndsWithSlash(scheme + "://" + host, segs);
    AppendAssoc(scheme + "://" + host, "/", DirText(segs));
    JoinSimpleUnderAuthority(scheme, host, segs);
  }

  /**
   * An index URL with no scheme, such as a bare domain: it is a relative
   * path, and "simple/" lands in its directory the same way.
   */
  lemma SimpleUrlOfBareName(segs: seq<string>)
    requires PlainSegments(segs) && |segs| > 0 && segs[0] != "" && !C0OrSpace(segs[0][0])
    requires forall i :: 0 <= i < |segs| ==> Avoids(segs[i], NameStops)
    ensures SimpleUrl(DirText(segs)) == Ok(DirText(NonEmpty(segs)) + "simple/")
  {
    DirTextOfSome(segs);
    JoinSimpleUnderRelativePath(segs);
  }

  /**
   * An index URL whose scheme `urljoin` does not resolve relative
   * references under (a "host:port" pair reads as one) gives "simple/"
   * alone.
   */
  lemma SimpleUrlOutsideRelativeSchemes(scheme: string, rest: string)
    requires SchemeText(scheme)
    requires LowerAscii(scheme) !in UsesRelative
    requires Avoids(rest, BracketStops)
    ensures SimpleUrl(scheme + ":" + rest) == Ok("simple/")
  {
    var rest' := SlashedRest(scheme, rest);
    JoinSimpleUnderOtherScheme(scheme, rest');
  }

  /** A bare domain, as the index URL is documented to be, gains "/simple/". */
  lemma SimpleUrlOfDomain()
    ensures SimpleUrl("pypi.opentrons.com") == Ok("pypi.opentrons.com" + "/" + "simple/")
  {
    DomainSegments();
    SimpleUrlOfBareName(["pypi.opentrons.com"]);
  }

  lemma DomainSegments()
    ensures EnsureTrailingSlash("pypi.opentrons.com") == DirText(["pypi.opentrons.com"])
    ensures DirText(NonEmpty(["pypi.opentrons.com"])) + "simple/" == "pypi.opentrons.com" + "/" + "simple/"
    ensures PlainSegments(["pypi.opentrons.com"]) && Avoids("pypi.opentrons.com", NameStops)
  {
    DomainText();
    DomainNonEmpty();
    DomainPlain();
  }

  lemma DomainText()
    ensures DirText(["pypi.opentrons.com"]) == "pypi.opentrons.com" + "/"
  {
    var d := "pypi.opentrons.com";
    assert [d] + [""] == [d, ""] && [d, ""][1..] == [""];
    JoinWithCons([d, ""], "/");
  }

  lemma DomainNonEmpty()
    ensures NonEmpty(["pypi.opentrons.com"]) == ["pypi.opentrons.com"]
  {
    var d := "pypi.opentrons.com";
    assert |d| == 18 && [d][1..] == [];
  }

  lemma DomainPlain()
    ensures PlainSegments(["pypi.opentrons.com"]) && Avoids("pypi.opentrons.com", NameStops)
  {
    DomainAvoids();
  }

  lemma DomainAvoids()
    ensures Avoids("pypi.opentrons.com", NameStops) && '/' !in "pypi.opentrons.com"
  {
    var d := "pypi.opentrons.com";
    assert forall i :: 0 <= i < |d| ==> d[i] !in NameStops && d[i] != '/';
  }

  /** An "s3" URL does not resolve "simple/": the scheme is outside `uses_relative`. */
  lemma SimpleUrlOfBucket()
    ensures SimpleUrl("s3://bucket/") == Ok("simple/")
  {
    BucketParts();
    SimpleUrlOutsideRelativeSchemes("s3", "//bucket/");
  }

  lemma BucketParts()
    ensures "s3://bucket/" == "s3" + ":" + "//bucket/"
    ensures LowerAscii("s3") == "s3" && "s3" !in UsesRelative
    ensures forall i :: 0 <= i < |"s3"| ==> SchemeChar("s3"[i])
    ensures Avoids("//bucket/", BracketStops)
  {
    LowerAsciiLower("s3");
    BucketOutside();
  }

  lemma BucketOutside()
    ensures "s3" !in UsesRelative
  {
  }

  /** An empty segment in the index URL's path is dropped. */
  lemma SimpleUrlDropsEmptySegment()
    ensures SimpleUrl("http://h/a//") == Ok("http://h/a/simple/")
  {
    EmptySegmentParts();
    SimpleUrlUnderAuthority("http", "h", ["a", ""]);
  }

  lemma EmptySegmentParts()
    ensures "http://h/a//" == "http" + "://" + "h" + "/" + DirText(["a", ""])
    ensures "http://h/a/simple/" == "http" + "://" + "h" + "/" + DirText(NonEmpty(["a", ""])) + "simple/"
    ensures LowerScheme("http") && "http" in UsesRelative && Avoids("h", HostStops)
    ensures PlainSegments(["a", ""]) && Avoids("a", PathStops) && Avoids("", PathStops)
  {
    assert NonEmpty(["a", ""]) == ["a"];
    assert ["a", ""] + [""] == ["a", "", ""] && ["a", "", ""][1..] == ["", ""] && ["", ""][1..] == [""];
    assert DirText(["a", ""]) == "a" + "/" + ("" + "/" + "");
    assert ["a"] + [""] == ["a", ""] && ["a", ""][1..] == [""];
    assert DirText(["a"]) == "a" + "/" + "";
  }

  /** What follows the scheme once the URL is slash-terminated. */
  function SlashedRest(scheme: string, rest: string): (r: string)
    requires Avoids(rest, BracketStops)
    ensures EnsureTrailingSlash(scheme + ":" + rest) == scheme + ":" + r
    ensures Avoids(r, BracketStops)
  {
    if EndsWith(scheme + ":" + rest, "/") then rest
    else
      assert (scheme + ":" + rest) + "/" == scheme + ":" + (rest + "/");
      rest + "/"
  }

  /** `simple_root_from_index_root`; `SimpleRootChild` states it. */
  function SimpleRoot(indexRoot: Path): Path
  {
    Child(indexRoot, "simple")
  }

  lemma SimpleRootChild(indexRoot: Path)
    ensures SimpleRoot(indexRoot) == Path(indexRoot.absolute, indexRoot.parts + ["simple"])
  {
    ParseComponent("simple");
  }

  /** `package_dirs_from_names`: one directory per name under the simple root, in order. */
  function PackageDirs(indexRoot: Path, names: seq<string>): (r: seq<Path>)
    ensures |r| == |names|
    ensures forall i :: 0 <= i < |names| ==> r[i] == Child(SimpleRoot(indexRoot), names[i])
  {
    if |names| == 0 then [] else [Child(SimpleRoot(indexRoot), names[0])] + PackageDirs(indexRoot, names[1..])
  }

  /** Each package directory is the child of the simple root named after its package. */
  lemma PackageDirsAreChildren(indexRoot: Path, names: seq<string>, i: nat)
    requires i < |names| && IsPart(names[i])
    ensures Parent(PackageDirs(indexRoot, names)[i]) == SimpleRoot(indexRoot)
    ensures Name(PackageDirs(indexRoot, names)[i]) == names[i]
  {
    ParseComponent(names[i]);
    var sr := SimpleRoot(indexRoot);
    assert (sr.parts + [names[i]])[..|sr.parts|] == sr.parts;
  }

  /** `copy_dists_to_leaf`: the target of each copy, in order. */
  function CopyDistsToLeaf(packageDir: Path, dists: seq<Path>): (r: seq<Path>)
    ensures |r| == |dists|
    ensures forall i :: 0 <= i < |dists| ==> r[i] == Child(packageDir, Name(dists[i]))
  {
    if |dists| == 0 then [] else [Child(packageDir, Name(dists[0]))] + CopyDistsToLeaf(packageDir, dists[1..])
  }

  /** Each copy lands directly in the package directory under the wheel's own file name. */
  lemma CopyTargetsInLeaf(packageDir: Path, dists: seq<Path>, i: nat)
    requires i < |dists| && Valid(dists[i]) && |dists[i].parts| > 0
    ensures Parent(CopyDistsToLeaf(packageDir, dists)[i]) == packageDir
    ensures Name(CopyDistsToLeaf(packageDir, dists)[i]) == Name(dists[i])
  {
    var n := Name(dists[i]);
    assert IsPart(n);
    ParseComponent(n);
    assert (packageDir.parts + [n])[..|packageDir.parts|] == packageDir.parts;
  }

  /** `generate_and_fill_package_dir`: the directory, its index page, then the copied wheels. */
  function GenerateAndFillPackageDir(indexRoot: Path, packageName: string, dists: seq<Path>): (r: seq<Path>)
    ensures |r| == 2 + |dists|
    ensures r[0] == Child(SimpleRoot(indexRoot), packageName)
    ensures r[1] == Child(r[0], "index.html")
    ensures r[2..] == CopyDistsToLeaf(r[0], dists)
  {
    var dir := Child(SimpleRoot(indexRoot), packageName);
    [dir, Child(dir, "index.html")] + CopyDistsToLeaf(dir, dists)
  }

  /** The entries of every package, package after package. */
  function PackageEntries(indexRoot: Path, names: seq<string>, uniq: seq<Path>, wheelName: Path -> string): (r: seq<Path>)
    ensures |r| == 2 * |names| + SumGroups(names, uniq, wheelName)
  {
    if |names| == 0 then []
    else
      GenerateAndFillPackageDir(indexRoot, names[0], Filter(uniq, wheelName, names[0]))
      + PackageEntries(indexRoot, names[1..], uniq, wheelName)
  }

  /**
   * `generate_for_distributions`: the simple root's URL is computed before
   * anything else, so an index URL `urlparse` rejects fails the whole
   * generation; otherwise the paths of `IndexEntries`.
   */
  function GenerateForDistributions(indexUrl: string, indexRoot: Path, dists: seq<Path>, wheelName: Path -> string)
    : (r: Result<seq<Path>, UrlError>)
    ensures r.Err? <==> SimpleUrl(indexUrl).Err?
    ensures r.Ok? ==> |r.value| >= 3 && r.value[0] == indexRoot
    ensures r.Ok? ==> r.value[1] == SimpleRoot(indexRoot) && r.value[2] == Child(SimpleRoot(indexRoot), "index.html")
  {
    var simpleUrl := SimpleUrl(EnsureTrailingSlash(indexUrl));
    SimpleUrlOfSlashed(indexUrl);
    if simpleUrl.Err? then Err(simpleUrl.error) else Ok(IndexEntries(indexRoot, dists, wheelName))
  }

  /**
   * The paths of a generated index: the index root, the simple root and its
   * index page, then each package's entries. A package's set of wheels is
   * taken in input order, duplicates dropped.
   */
  function IndexEntries(indexRoot: Path, dists: seq<Path>, wheelName: Path -> string): (r: seq<Path>)
    ensures |r| >= 3 && r[0] == indexRoot
    ensures r[1] == SimpleRoot(indexRoot) && r[2] == Child(SimpleRoot(indexRoot), "index.html")
  {
    var head := [indexRoot, SimpleRoot(indexRoot), Child(SimpleRoot(indexRoot), "index.html")];
    var r := head + PackageEntries(indexRoot, NamesInOrder(dists, wheelName), Dedup(dists), wheelName);
    assert r[..3] == head;
    r
  }

  /** Terminating the index URL with "/" first, as the caller does, leaves its simple URL unchanged. */
  lemma SimpleUrlOfSlashed(indexUrl: string)
    ensures SimpleUrl(EnsureTrailingSlash(indexUrl)) == SimpleUrl(indexUrl)
  {
    EnsureTrailingSlashIdempotent(indexUrl);
  }

  /** Three fixed entries, two per package, and one per distinct wheel. */
  lemma GenerateForDistributionsLength(indexUrl: string, indexRoot: Path, dists: seq<Path>, wheelName: Path -> string)
    ensures var r := GenerateForDistributions(indexUrl, indexRoot, dists, wheelName);
            r.Ok? ==> |r.value| == 3 + 2 * |Collate(dists, wheelName)| + |set d | d in dists|
  {
    var uniq := Dedup(dists);
    var names := NamesInOrder(dists, wheelName);
    assert |IndexEntries(indexRoot, dists, wheelName)| == 3 + |PackageEntries(indexRoot, names, uniq, wheelName)|;
    EntryCounts(dists, wheelName);
  }

  /** Two entries per package name and one per distinct wheel. */
  lemma EntryCounts(dists: seq<Path>, wheelName: Path -> string)
    ensures var names := NamesInOrder(dists, wheelName);
            2 * |names| + SumGroups(names, Dedup(dists), wheelName)
            == 2 * |Collate(dists, wheelName)| + |set d | d in dists|
  {
    NameCount(dists, wheelName);
    WheelCount(dists, wheelName);
  }

  lemma NameCount(dists: seq<Path>, wheelName: Path -> string)
    ensures |NamesInOrder(dists, wheelName)| == |Collate(dists, wheelName)|
  {
    var names := NamesInOrder(dists, wheelName);
    NamesAreKeys(dists, wheelName);
    assert (set k | k in names) == Collate(dists, wheelName).Keys;
    DistinctCard(names);
  }

  lemma WheelCount(dists: seq<Path>, wheelName: Path -> string)
    ensures SumGroups(NamesInOrder(dists, wheelName), Dedup(dists), wheelName) == |set d | d in dists|
  {
    var uniq := Dedup(dists);
    var names := NamesInOrder(dists, wheelName);
    SumGroupsWithin(names, uniq, wheelName);
    forall i | 0 <= i < |uniq|
      ensures wheelName(uniq[i]) in (set k | k in names)
    {
      assert uniq[i] in dists;
    }
    WithinAll(uniq, wheelName, set k | k in names);
    DistinctCard(uniq);
    assert (set d | d in uniq) == (set d | d in dists);
  }

  /** A sequence without repeats has as many elements as its set. */
  lemma {:induction false} DistinctCard<T>(s: seq<T>)
    requires Distinct(s)
    ensures |set x | x in s| == |s|
  {
    if |s| > 0 {
      var t := s[..|s| - 1];
      DistinctCard(t);
      assert (set x | x in s) == (set x | x in t) + {s[|s| - 1]} by {
        assert s == t + [s[|s| - 1]];
      }
      assert s[|s| - 1] !in (set x | x in t) by {
        forall j | 0 <= j < |t|
          ensures t[j] != s[|s| - 1]
        {
          assert t[j] == s[j];
        }
      }
    }
  }
}

=== FILE: orchestrate.dfy ===
/**
 * Package-level orchestration: deriving each package's build and dist
 * directories from where its build.py was found, building the packages in
 * order, and `build_package`'s defaults, work directories and pipeline
 * (unpack the fetched archive, then build the wheel).
 */
module PackageOrchestrate {
  import opened Wrappers
  import opened Text
  import opened Paths
  import opened Download
  import opened Shell
  import opened BuildWheel
  import opened BuildTypes

  /** `p / ""`: appending the empty path changes nothing. */
  lemma ChildEmpty(p: Path)
    ensures Child(p, "") == p
  {
    assert Split("", '/') == [""];
    assert Parse("") == Path(false, []);
    assert p.parts + [] == p.parts;
  }

  /**
   * Where one package found at `dir` is built: `root / dir.relative_to(resolved) / ""`.
   * `MirrorPosition` and `MirrorInjective` state what it computes.
   */
  function Mirror(root: Path, resolved: Path, dir: Path): (r: Path)
    requires Under(dir, resolved)
    ensures !root.absolute || r.absolute
  {
    Child(Join(root, RelativeTo(dir, resolved).value), "")
  }

  /** The mirrored directory lies under its root at the same relative position as `dir` under `resolved`. */
  lemma MirrorPosition(root: Path, resolved: Path, dir: Path)
    requires Under(dir, resolved)
    ensures Under(Mirror(root, resolved, dir), root)
    ensures Mirror(root, resolved, dir).parts[|root.parts|..] == dir.parts[|resolved.parts|..]
  {
    ChildEmpty(Join(root, RelativeTo(dir, resolved).value));
  }

  /** Distinct package directories are mirrored to distinct directories. */
  lemma MirrorInjective(root: Path, resolved: Path, a: Path, b: Path)
    requires Under(a, resolved) && Under(b, resolved)
    requires a != b
    ensures Mirror(root, resolved, a) != Mirror(root, resolved, b)
  {
    MirrorPosition(root, resolved, a);
    MirrorPosition(root, resolved, b);
    assert a.parts == resolved.parts + a.parts[|resolved.parts|..];
    assert b.parts == resolved.parts + b.parts[|resolved.parts|..];
  }

  /**
   * `discover_packages`: one `BuildPaths` per build.py found below the
   * resolved package root (`dirs` are those files' directories, in the
   * order the search yields them).
   */
  function DiscoverPackages(resolved: Path, buildRoot: Path, distRoot: Path, dirs: seq<Path>): (r: seq<BuildPaths>)
    requires forall i :: 0 <= i < |dirs| ==> Under(dirs[i], resolved)
    ensures |r| == |dirs|
    ensures forall i :: 0 <= i < |dirs| ==>
              r[i].source == dirs[i]
              && r[i].build == Mirror(buildRoot, resolved, dirs[i])
              && r[i].dist == Mirror(distRoot, resolved, dirs[i])
  {
    if |dirs| == 0 then []
    else
      [BuildPaths(dirs[0], Mirror(buildRoot, resolved, dirs[0]), Mirror(distRoot, resolved, dirs[0]))]
      + DiscoverPackages(resolved, buildRoot, distRoot, dirs[1..])
  }

  /** Packages in distinct directories never share a build or a dist directory. */
  lemma DiscoveredPathsDistinct(resolved: Path, buildRoot: Path, distRoot: Path, dirs: seq<Path>, i: nat, j: nat)
    requires forall k :: 0 <= k < |dirs| ==> Under(dirs[k], resolved)
    requires i < |dirs| && j < |dirs| && dirs[i] != dirs[j]
    ensures DiscoverPackages(resolved, buildRoot, distRoot, dirs)[i].build != DiscoverPackages(resolved, buildRoot, distRoot, dirs)[j].build
    ensures DiscoverPackages(resolved, buildRoot, distRoot, dirs)[i].dist != DiscoverPackages(resolved, buildRoot, distRoot, dirs)[j].dist
  {
    MirrorInjective(buildRoot, resolved, dirs[i], dirs[j]);
    MirrorInjective(distRoot, resolved, dirs[i], dirs[j]);
  }

  /** The result of building packages one after another until one fails. */
  datatype Progress<E> = Progress(built: nat, failure: Option<E>)

  /**
   * `build_packages`: each package's build in discovery order; there is no
   * handler, so the first failure ends the run. `build` stands for executing
   * the package's build.py.
   */
  function BuildPackages<E>(packages: seq<BuildPaths>, build: BuildPaths -> Result<Path, E>): (r: Progress<E>)
    ensures r.built <= |packages|
    ensures forall i :: 0 <= i < r.built ==> build(packages[i]).Ok?
    ensures r.failure.None? <==> r.built == |packages|
    ensures r.failure.Some? ==> build(packages[r.built]) == Err(r.failure.value)
  {
    if |packages| == 0 then Progress(0, None)
    else
      match build(packages[0])
      case Err(e) => Progress(0, Some(e))
      case Ok(_) =>
        var rest := BuildPackages(packages[1..], build);
        Progress(rest.built + 1, rest.failure)
  }

  /** Only packages before a failure are built: the run never goes past the first failing package. */
  lemma {:induction false} BuildPackagesStopsAtFirstFailure<E>(packages: seq<BuildPaths>, build: BuildPaths -> Result<Path, E>, k: nat)
    requires k < |packages| && build(packages[k]).Err?
    ensures BuildPackages(packages, build).built <= k
    ensures BuildPackages(packages, build).failure.Some?
  {
    if k > 0 && build(packages[0]).Ok? {
      assert packages[1..][k - 1] == packages[k];
      BuildPackagesStopsAtFirstFailure(packages[1..], build, k - 1);
    }
  }

  /** `build_package`'s work directories. */
  datatype WorkDirs = WorkDirs(download: Path, build: Path, unpack: Path, venv: Path)

  /** The four work directories are the children "download", "build", "unpack" and "venv" of the package's build directory. */
  function WorkDirsOf(buildPath: Path): (w: WorkDirs)
    ensures w.download == Path(buildPath.absolute, buildPath.parts + ["download"])
    ensures w.build == Path(buildPath.absolute, buildPath.parts + ["build"])
    ensures w.unpack == Path(buildPath.absolute, buildPath.parts + ["unpack"])
    ensures w.venv == Path(buildPath.absolute, buildPath.parts + ["venv"])
  {
    WorkDirNamesArePlain();
    DirChild(buildPath, "download");
    assert "download" + "/" == "download/";
    DirChild(buildPath, "build");
    assert "build" + "/" == "build/";
    DirChild(buildPath, "unpack");
    assert "unpack" + "/" == "unpack/";
    FileChild(buildPath, "venv");
    WorkDirs(Child(buildPath, "download/"), Child(buildPath, "build/"), Child(buildPath, "unpack/"), Child(buildPath, "venv"))
  }

  /** `p / "name/"` is the child `name` of `p`: the trailing separator adds no component. */
  lemma DirChild(p: Path, name: string)
    requires IsPart(name)
    ensures Child(p, name + "/") == Path(p.absolute, p.parts + [name])
  {
    ParseComponent(name);
    ParseTrailingSlash(name);
  }

  lemma FileChild(p: Path, name: string)
    requires IsPart(name)
    ensures Child(p, name) == Path(p.absolute, p.parts + [name])
  {
    ParseComponent(name);
  }

  lemma ChildCanonical(p: Path, c: string)
    requires Canonical(p) && IsPart(c) && c != ".."
    ensures Canonical(Path(true, p.parts + [c]))
  {
    assert (p.parts + [c])[|p.parts|] == c;
  }

  lemma WorkDirNamesArePlain()
    ensures IsPart("download") && IsPart("build") && IsPart("unpack") && IsPart("venv")
  {
  }

  /** Hence they have the build directory as parent, keep their names, and are pairwise distinct. */
  lemma WorkDirsDistinctChildren(buildPath: Path)
    ensures var w := WorkDirsOf(buildPath);
            && Parent(w.download) == buildPath && Name(w.download) == "download"
            && Parent(w.build) == buildPath && Name(w.build) == "build"
            && Parent(w.unpack) == buildPath && Name(w.unpack) == "unpack"
            && Parent(w.venv) == buildPath && Name(w.venv) == "venv"
    ensures var w := WorkDirsOf(buildPath);
            && w.download != w.build && w.download != w.unpack && w.download != w.venv
            && w.build != w.unpack && w.build != w.venv && w.unpack != w.venv
  {
    ChildrenDiffer(buildPath, "download", "build");
    ChildrenDiffer(buildPath, "download", "unpack");
    ChildrenDiffer(buildPath, "download", "venv");
    ChildrenDiffer(buildPath, "build", "unpack");
    ChildrenDiffer(buildPath, "build", "venv");
    ChildrenDiffer(buildPath, "unpack", "venv");
    ParentOfChild(buildPath, "download");
    ParentOfChild(buildPath, "build");
    ParentOfChild(buildPath, "unpack");
    ParentOfChild(buildPath, "venv");
  }

  lemma ParentOfChild(p: Path, x: string)
    ensures Parent(Path(p.absolute, p.parts + [x])) == p && Name(Path(p.absolute, p.parts + [x])) == x
  {
    assert (p.parts + [x])[..|p.parts|] == p.parts;
  }

  lemma ChildrenDiffer(p: Path, x: string, y: string)
    requires x != y
    ensures Path(p.absolute, p.parts + [x]) != Path(p.absolute, p.parts + [y])
  {
    assert (p.parts + [x])[|p.parts|] == x;
    assert (p.parts + [y])[|p.parts|] == y;
  }

  /** `setup_py_commands or ["bdist_wheel"]`. */
  function DefaultCommands(commands: Option<seq<string>>): (r: seq<string>)
    ensures |r| > 0
    ensures commands.Some? && commands.value != [] ==> r == commands.value
    ensures commands.None? || commands.value == [] ==> r == ["bdist_wheel"]
  {
    if commands.Some? && commands.value != [] then commands.value else ["bdist_wheel"]
  }

  /** `build_dependencies or []`. */
  function DefaultDependencies(deps: Option<seq<string>>): (r: seq<string>)
    ensures deps.Some? ==> r == deps.value
    ensures deps.None? ==> r == []
  {
    if deps.Some? then deps.value else []
  }

  /**
   * `getattr(source, "package_source_path", None) or Path(".")` as written: a
   * release source has no such attribute and a missing or empty path falls
   * back to `Path(".")`, but a given path is passed on as a plain `str`.
   */
  function UnpackArgAsWritten(source: Source): (sub: Subpath)
    ensures source.Dev? && Truthy(source.sourcePath) ==> sub == StrArg(source.sourcePath.value)
    ensures !(source.Dev? && Truthy(source.sourcePath)) ==> sub == PathArg(Dot)
  {
    match source
    case Dev(_, _, _, _, path) => if Truthy(path) then StrArg(path.value) else PathArg(Dot)
    case ReleaseSDist(_, _, _, _, _) => PathArg(Dot)
  }

  /** The sub-path as a `Path`, as the unpacking code compares it. */
  function UnpackArg(source: Source): (sub: Subpath)
    ensures sub.PathArg?
    ensures source.Dev? && Truthy(source.sourcePath) ==> sub == PathArg(Parse(source.sourcePath.value))
    ensures !(source.Dev? && Truthy(source.sourcePath)) ==> sub == PathArg(Dot)
  {
    match source
    case Dev(_, _, _, _, path) => if Truthy(path) then PathArg(Parse(path.value)) else PathArg(Dot)
    case ReleaseSDist(_, _, _, _, _) => PathArg(Dot)
  }

  /** As written, a repository archive with a sub-directory never unpacks, whatever it contains. */
  lemma DevSourcePathNeverUnpacksAsWritten(source: Source, mode: Containment, root: Path, links: Links, archive: Archive)
    requires root.absolute && Valid(root)
    requires source.Dev? && Truthy(source.sourcePath)
    ensures UnpackSource(mode, root, links, archive, UnpackArgAsWritten(source)).Err?
  {
    TextSubpathFailsUnpack(mode, root, links, archive, source.sourcePath.value);
  }

  /** The two arguments agree everywhere except on that case, where the corrected one selects the sub-directory. */
  lemma UnpackArgAgrees(source: Source)
    ensures !(source.Dev? && Truthy(source.sourcePath)) ==> UnpackArg(source) == UnpackArgAsWritten(source)
    ensures source.Dev? && Truthy(source.sourcePath) ==>
              UnpackArgAsWritten(source).StrArg? && SubpathPath(UnpackArg(source)) == SubpathPath(UnpackArgAsWritten(source))
  {
  }

  datatype PackageError = UnpackFailed(unpack: UnpackError) | BuildFailed(build: BuildError)

  /** The archive as fetched: `download_dir / source.archive_name()`. */
  function FetchedArchive(source: Source, w: WorkDirs, content: Content): (a: Archive)
    ensures a.path == Child(w.download, ArchiveName(source)) && a.content == content
  {
    Archive(Child(w.download, ArchiveName(source)), content)
  }

  /**
   * `build_package`'s pipeline: unpack the fetched archive into the unpack
   * directory, then build the wheel from the unpacked tree into the
   * package's dist directory. Fetching is left out: `content` is what the
   * download holds; `links` are the symbolic links already present under the
   * unpack directory. The pipeline is given the three points where the code
   * as written and the corrected code part: how tar members are checked, the
   * sub-path argument, and how the shell routes its callbacks.
   * `BuildPackageAsWritten` and `BuildPackage` are its two instances and
   * carry its contract; `BuildPackageAgrees` relates them.
   */
  function Pipeline(mode: Containment, sub: Subpath, routing: Routing,
                    source: Source, setupPyCommands: Option<seq<string>>, buildDependencies: Option<seq<string>>,
                    paths: BuildPaths, ctx: Context, content: Content, links: Links,
                    hasEcho: bool, hasVerbose: bool, stdout: seq<string>): (r: Result<Path, PackageError>)
    requires paths.build.absolute && Valid(paths.build)
    ensures r.Ok? ==> Parent(r.value) == paths.dist && EndsWith(Name(r.value), ".whl")
  {
    var w := WorkDirsOf(paths.build);
    var unpacked := UnpackSource(mode, w.unpack, links, FetchedArchive(source, w, content), sub);
    Finish(unpacked, routing, setupPyCommands, buildDependencies, w, paths.dist, ctx.sdk, hasEcho, hasVerbose, stdout)
  }

  /**
   * The build that follows the unpack, or the unpack's failure. Its results
   * are stated through `BuildPackage` and `FinishRoutingAgrees`.
   */
  function Finish(unpacked: Result<Path, UnpackError>, routing: Routing,
                  setupPyCommands: Option<seq<string>>, buildDependencies: Option<seq<string>>,
                  w: WorkDirs, dist: Path, sdk: Path, hasEcho: bool, hasVerbose: bool, stdout: seq<string>)
    : (r: Result<Path, PackageError>)
    ensures r.Ok? ==> Parent(r.value) == dist && EndsWith(Name(r.value), ".whl")
    ensures unpacked.Err? ==> r == Err(UnpackFailed(unpacked.error))
    ensures unpacked.Ok? ==>
              var b := BuildWithSetupPy(routing, DefaultCommands(setupPyCommands), unpacked.value, w.build, dist, w.venv,
                                        DefaultDependencies(buildDependencies), sdk, hasEcho, hasVerbose, stdout);
              && (r.Ok? <==> b.result.Ok?)
              && (r.Ok? ==> r.value == b.result.value)
  {
    match unpacked
    case Err(e) => Err(UnpackFailed(e))
    case Ok(dir) =>
      var b := BuildWithSetupPy(routing, DefaultCommands(setupPyCommands), dir, w.build, dist, w.venv,
                                DefaultDependencies(buildDependencies), sdk, hasEcho, hasVerbose, stdout);
      match b.result
      case Err(e) => Err(BuildFailed(e))
      case Ok(wheel) => Ok(wheel)
  }

  /** The routing of the callbacks changes only what is logged, never the build's result. */
  lemma FinishRoutingAgrees(unpacked: Result<Path, UnpackError>,
                            setupPyCommands: Option<seq<string>>, buildDependencies: Option<seq<string>>,
                            w: WorkDirs, dist: Path, sdk: Path, hasEcho: bool, hasVerbose: bool, stdout: seq<string>)
    ensures Finish(unpacked, SharedEcho, setupPyCommands, buildDependencies, w, dist, sdk, hasEcho, hasVerbose, stdout)
            == Finish(unpacked, OwnSinks, setupPyCommands, buildDependencies, w, dist, sdk, hasEcho, hasVerbose, stdout)
  {
    if unpacked.Ok? {
      BuildWithSetupPyRoutingAgrees(DefaultCommands(setupPyCommands), unpacked.value, w.build, dist, w.venv,
                                    DefaultDependencies(buildDependencies), sdk, hasEcho, hasVerbose, stdout);
    }
  }

  /**
   * `build_package` as written: tar members checked by their final component
   * only, the sub-path passed on as given, and the shell's verbose callback
   * taken from `echo`.
   */
  function BuildPackageAsWritten(source: Source, setupPyCommands: Option<seq<string>>, buildDependencies: Option<seq<string>>,
                                 paths: BuildPaths, ctx: Context, content: Content, links: Links,
                                 hasEcho: bool, hasVerbose: bool, stdout: seq<string>): (r: Result<Path, PackageError>)
    requires paths.build.absolute && Valid(paths.build)
    ensures r.Ok? ==> Parent(r.value) == paths.dist && EndsWith(Name(r.value), ".whl")
    ensures var w := WorkDirsOf(paths.build);
            var unpacked := UnpackSource(FinalComponent, w.unpack, links, FetchedArchive(source, w, content), UnpackArgAsWritten(source));
            && (unpacked.Err? ==> r == Err(UnpackFailed(unpacked.error)))
            && (unpacked.Ok? ==>
                  var b := BuildWithSetupPy(SharedEcho, DefaultCommands(setupPyCommands), unpacked.value, w.build, paths.dist, w.venv,
                                            DefaultDependencies(buildDependencies), ctx.sdk, hasEcho, hasVerbose, stdout);
                  && (r.Ok? <==> b.result.Ok?)
                  && (r.Ok? ==> r.value == b.result.value))
  {
    Pipeline(FinalComponent, UnpackArgAsWritten(source), SharedEcho,
             source, setupPyCommands, buildDependencies, paths, ctx, content, links, hasEcho, hasVerbose, stdout)
  }

  /** As written, a repository source with a sub-directory never builds: unpacking it always fails. */
  lemma SubdirectorySourceFailsAsWritten(source: Source, setupPyCommands: Option<seq<string>>, buildDependencies: Option<seq<string>>,
                                         paths: BuildPaths, ctx: Context, content: Content, links: Links,
                                         hasEcho: bool, hasVerbose: bool, stdout: seq<string>)
    requires paths.build.absolute && Valid(paths.build)
    requires source.Dev? && Truthy(source.sourcePath)
    ensures var r := BuildPackageAsWritten(source, setupPyCommands, buildDependencies, paths, ctx, content, links, hasEcho, hasVerbose, stdout);
            r.Err? && r.error.UnpackFailed?
  {
    var w := WorkDirsOf(paths.build);
    DevSourcePathNeverUnpacksAsWritten(source, FinalComponent, w.unpack, links, FetchedArchive(source, w, content));
  }

  /**
   * `build_package` as intended: every tar member checked by its whole name,
   * the sub-path read as a path, and each callback on its own sink.
   */
  function BuildPackage(source: Source, setupPyCommands: Option<seq<string>>, buildDependencies: Option<seq<string>>,
                        paths: BuildPaths, ctx: Context, content: Content, links: Links,
                        hasEcho: bool, hasVerbose: bool, stdout: seq<string>): (r: Result<Path, PackageError>)
    requires paths.build.absolute && Valid(paths.build)
    ensures r.Ok? ==> Parent(r.value) == paths.dist && EndsWith(Name(r.value), ".whl")
    ensures var w := WorkDirsOf(paths.build);
            var unpacked := UnpackSource(WholeName, w.unpack, links, FetchedArchive(source, w, content), UnpackArg(source));
            && (unpacked.Err? ==> r == Err(UnpackFailed(unpacked.error)))
            && (unpacked.Ok? ==>
                  var b := BuildWithSetupPy(OwnSinks, DefaultCommands(setupPyCommands), unpacked.value, w.build, paths.dist, w.venv,
                                            DefaultDependencies(buildDependencies), ctx.sdk, hasEcho, hasVerbose, stdout);
                  && (r.Ok? <==> b.result.Ok?)
                  && (r.Ok? ==> r.value == b.result.value))
  {
    Pipeline(WholeName, UnpackArg(source), OwnSinks,
             source, setupPyCommands, buildDependencies, paths, ctx, content, links, hasEcho, hasVerbose, stdout)
  }

  /**
   * The corrected pipeline builds what the code as written builds wherever
   * the written code is not at fault: a source without a sub-directory, and
   * an archive the containment checks treat alike.
   */
  lemma BuildPackageAgrees(source: Source, setupPyCommands: Option<seq<string>>, buildDependencies: Option<seq<string>>,
                           paths: BuildPaths, ctx: Context, content: Content, links: Links,
                           hasEcho: bool, hasVerbose: bool, stdout: seq<string>)
    requires Canonical(paths.build)
    ensures !(source.Dev? && Truthy(source.sourcePath)) && PlainContent(content, links) ==>
              BuildPackageAsWritten(source, setupPyCommands, buildDependencies, paths, ctx, content, links, hasEcho, hasVerbose, stdout)
              == BuildPackage(source, setupPyCommands, buildDependencies, paths, ctx, content, links, hasEcho, hasVerbose, stdout)
  {
    if !(source.Dev? && Truthy(source.sourcePath)) && PlainContent(content, links) {
      var w := WorkDirsOf(paths.build);
      WorkDirNamesArePlain();
      ChildCanonical(paths.build, "unpack");
      UnpackArgAgrees(source);
      var archive := FetchedArchive(source, w, content);
      PlainUnpackAgrees(w.unpack, links, archive, UnpackArg(source));
      var unpacked := UnpackSource(WholeName, w.unpack, links, archive, UnpackArg(source));
      FinishRoutingAgrees(unpacked, setupPyCommands, buildDependencies, w, paths.dist, ctx.sdk, hasEcho, hasVerbose, stdout);
    }
  }

  /** The wheel is built from a directory inside the package's unpack directory. */
  lemma BuildPackageUnpacksUnderWorkDir(source: Source, content: Content, links: Links, buildPath: Path)
    requires buildPath.absolute && Valid(buildPath)
    ensures var w := WorkDirsOf(buildPath);
            var unpacked := UnpackSource(WholeName, w.unpack, links, FetchedArchive(source, w, content), UnpackArg(source));
            unpacked.Ok? && content.TarContent? ==> Under(unpacked.value, w.unpack) && Under(unpacked.value, buildPath)
  {
    var w := WorkDirsOf(buildPath);
    assert buildPath.parts <= w.unpack.parts && w.unpack.absolute;
    var archive := FetchedArchive(source, w, content);
    var unpacked := UnpackSource(WholeName, w.unpack, links, archive, UnpackArg(source));
    if unpacked.Ok? && content.TarContent? {
      assert Contains(Name(archive.path), ".tar");
      assert unpacked == UnpackTar(WholeName, w.unpack, links, content.members, UnpackArg(source));
      assert Under(unpacked.value, w.unpack);
    }
  }
}

=== FILE: paths.dfy ===
/**
 * POSIX paths as pathlib and os.path see them: a flag for a leading "/" and
 * the list of components. Parsing drops empty and "." components and keeps
 * ".." (pathlib never collapses it); `Normalize` and `Realpath` are the
 * lexical and the symlink-following resolutions.
 */
module Paths {
  import opened Wrappers
  import opened Text

  datatype Path = Path(absolute: bool, parts: seq<string>)

  /** `Path(".")`. */
  const Dot := Path(false, [])

  /** A component pathlib can hold: non-empty, not ".", no separator. */
  predicate IsPart(c: string)
  {
    c != "" && c != "." && '/' !in c
  }

  predicate Valid(p: Path)
  {
    forall i :: 0 <= i < |p.parts| ==> IsPart(p.parts[i])
  }

  /** Components of a resolved path: valid and free of "..". */
  predicate CanonicalParts(xs: seq<string>)
  {
    forall i :: 0 <= i < |xs| ==> IsPart(xs[i]) && xs[i] != ".."
  }

  /** What `os.path.realpath` can return: absolute, with no "." or ".." left. */
  predicate Canonical(p: Path)
  {
    p.absolute && CanonicalParts(p.parts)
  }

  predicate NoSlash(xs: seq<string>)
  {
    forall i :: 0 <= i < |xs| ==> '/' !in xs[i]
  }

  /** The pieces of a split path string that pathlib keeps: all but "" and ".". */
  function Clean(pieces: seq<string>): (r: seq<string>)
    ensures NoSlash(pieces) ==> forall i :: 0 <= i < |r| ==> IsPart(r[i])
    ensures |r| <= |pieces|
  {
    if |pieces| == 0 then []
    else if pieces[0] == "" || pieces[0] == "." then Clean(pieces[1..])
    else [pieces[0]] + Clean(pieces[1..])
  }

  lemma {:induction false} CleanAppend(a: seq<string>, b: seq<string>)
    ensures Clean(a + b) == Clean(a) + Clean(b)
  {
    if |a| > 0 {
      CleanAppend(a[1..], b);
      assert (a + b)[1..] == a[1..] + b;
    } else {
      assert a + b == b;
    }
  }

  lemma {:induction false} CleanValid(xs: seq<string>)
    requires forall i :: 0 <= i < |xs| ==> IsPart(xs[i])
    ensures Clean(xs) == xs
  {
    if |xs| > 0 {
      CleanValid(xs[1..]);
    }
  }

  /**
   * `Path(s)`: pathlib's reading of a path string. `ParseFormat` states that
   * it reads back what `Format` writes.
   */
  function Parse(s: string): (p: Path)
    ensures Valid(p)
    ensures p.absolute <==> |s| > 0 && s[0] == '/'
  {
    Path(|s| > 0 && s[0] == '/', Clean(Split(s, '/')))
  }

  /** `str(p)`. */
  function Format(p: Path): string
  {
    if p.absolute then "/" + JoinWith(p.parts, "/")
    else if |p.parts| == 0 then "."
    else JoinWith(p.parts, "/")
  }

  lemma JoinWithFirst(parts: seq<string>, sep: string)
    requires |parts| >= 1 && |parts[0]| >= 1
    ensures |JoinWith(parts, sep)| >= 1 && JoinWith(parts, sep)[0] == parts[0][0]
  {
  }

  /** Reading back the text of a valid path gives the same path. */
  lemma ParseFormat(p: Path)
    requires Valid(p)
    ensures Parse(Format(p)) == p
  {
    var s := Format(p);
    if p.absolute {
      var j := JoinWith(p.parts, "/");
      if |p.parts| == 0 {
        SplitAround("", "", '/');
        assert s == "" + ['/'] + "";
        assert Split(s, '/') == ["", ""];
        assert Clean(["", ""]) == [];
      } else {
        JoinSplit(p.parts, '/');
        SplitAround("", j, '/');
        assert s == "" + ['/'] + j;
        assert Split(s, '/') == [""] + p.parts;
        CleanAppend([""], p.parts);
        CleanValid(p.parts);
      }
    } else if |p.parts| == 0 {
      assert Format(p) == ".";
      SplitNoSeparator(".", '/');
      assert Split(".", '/') == ["."];
      assert Clean(["."]) == [];
    } else {
      JoinSplit(p.parts, '/');
      CleanValid(p.parts);
      JoinWithFirst(p.parts, "/");
      assert p.parts[0][0] != '/' by {
        assert '/' !in p.parts[0];
      }
    }
  }

  /** A single valid component reads as a one-component relative path. */
  lemma ParseComponent(c: string)
    requires IsPart(c)
    ensures Parse(c) == Path(false, [c])
  {
    SplitNoSeparator(c, '/');
    assert c[0] in c;
  }

  /** Parsing text joined by a separator joins the parsed components. */
  lemma ParseAround(a: string, b: string)
    requires |a| > 0
    ensures Parse(a + "/" + b) == Path(Parse(a).absolute, Parse(a).parts + Parse(b).parts)
  {
    SplitAround(a, b, '/');
    CleanAppend(Split(a, '/'), Split(b, '/'));
    assert (a + "/" + b)[0] == a[0];
  }

  /** `p / q`: an absolute right operand replaces the left one. */
  function Join(p: Path, q: Path): (r: Path)
    ensures Valid(p) && Valid(q) ==> Valid(r)
    ensures r.absolute == (p.absolute || q.absolute)
  {
    if q.absolute then q else Path(p.absolute, p.parts + q.parts)
  }

  /** `p / name` for a string operand. */
  function Child(p: Path, name: string): Path
  {
    Join(p, Parse(name))
  }

  /** `p.name`: the final component, "" when there is none. */
  function Name(p: Path): string
  {
    if |p.parts| == 0 then "" else p.parts[|p.parts| - 1]
  }

  /** `p.parent`: the path without its final component. */
  function Parent(p: Path): Path
  {
    if |p.parts| == 0 then p else Path(p.absolute, p.parts[..|p.parts| - 1])
  }

  /** A valid path is its parent joined with its name. */
  lemma ParentJoinName(p: Path)
    requires Valid(p) && |p.parts| > 0
    ensures Child(Parent(p), Name(p)) == p
  {
    ParseComponent(Name(p));
  }

  /** `p` is `root` or lies below it (same anchor, `root`'s components lead `p`'s). */
  predicate Under(p: Path, root: Path)
  {
    p.absolute == root.absolute && root.parts <= p.parts
  }

  datatype PathError = EmptySequence | MixedAbsolute | NotRelative

  /** Longest common prefix of two component lists. */
  function Lcp(a: seq<string>, b: seq<string>): (r: seq<string>)
    ensures r <= a && r <= b
    ensures |r| == |a| || |r| == |b| || a[|r|] != b[|r|]
  {
    if |a| == 0 || |b| == 0 || a[0] != b[0] then []
    else [a[0]] + Lcp(a[1..], b[1..])
  }

  lemma {:induction false} LcpOfPrefix(a: seq<string>, b: seq<string>)
    requires b <= a
    ensures Lcp(a, b) == b
  {
    if |a| > 0 && |b| > 0 {
      LcpOfPrefix(a[1..], b[1..]);
      assert b == [b[0]] + b[1..];
    }
  }

  /** Longest common prefix of the component lists of all `ps`. */
  function LcpAll(ps: seq<Path>): (r: seq<string>)
    requires |ps| >= 1
    ensures forall i :: 0 <= i < |ps| ==> r <= ps[i].parts
  {
    if |ps| == 1 then ps[0].parts
    else
      var rest := LcpAll(ps[1..]);
      assert forall i :: 1 <= i < |ps| ==> ps[i] == ps[1..][i - 1];
      Lcp(ps[0].parts, rest)
  }

  predicate SameAnchor(ps: seq<Path>)
    requires |ps| >= 1
  {
    forall i :: 0 <= i < |ps| ==> ps[i].absolute == ps[0].absolute
  }

  /** Two paths share an anchor exactly when both are absolute or both relative. */
  lemma SameAnchorPair(a: Path, b: Path)
    ensures SameAnchor([a, b]) <==> a.absolute == b.absolute
  {
    assert [a, b][1] == b;
  }

  /**
   * `os.path.commonpath(ps)`: raises on an empty list and on a mix of absolute
   * and relative paths; otherwise the longest common component prefix. Its
   * contract is what the `Download.UnpackTar` and `Download.UnpackZip` rows use.
   */
  function CommonPath(ps: seq<Path>): (r: Result<Path, PathError>)
    ensures |ps| == 0 ==> r == Err(EmptySequence)
    ensures |ps| > 0 && !SameAnchor(ps) ==> r == Err(MixedAbsolute)
    ensures |ps| > 0 && SameAnchor(ps) ==> r.Ok? && forall i :: 0 <= i < |ps| ==> Under(ps[i], r.value)
  {
    if |ps| == 0 then Err(EmptySequence)
    else if !SameAnchor(ps) then Err(MixedAbsolute)
    else Ok(Path(ps[0].absolute, LcpAll(ps)))
  }

  /** Every common prefix of two lists is a prefix of their longest common prefix. */
  lemma {:induction false} LcpMaximal(a: seq<string>, b: seq<string>, c: seq<string>)
    requires c <= a && c <= b
    ensures c <= Lcp(a, b)
  {
    if |c| > 0 {
      LcpMaximal(a[1..], b[1..], c[1..]);
      assert c == [c[0]] + c[1..];
    }
  }

  lemma {:induction false} LcpAllMaximal(ps: seq<Path>, c: seq<string>)
    requires |ps| >= 1
    requires forall i :: 0 <= i < |ps| ==> c <= ps[i].parts
    ensures c <= LcpAll(ps)
  {
    if |ps| > 1 {
      assert forall i :: 0 <= i < |ps[1..]| ==> ps[1..][i] == ps[i + 1];
      LcpAllMaximal(ps[1..], c);
      LcpMaximal(ps[0].parts, LcpAll(ps[1..]), c);
    }
  }

  /** The common path is the deepest one: any directory all paths lie under lies above it. */
  lemma CommonPathDeepest(ps: seq<Path>, root: Path)
    requires |ps| > 0
    requires forall i :: 0 <= i < |ps| ==> Under(ps[i], root)
    ensures CommonPath(ps).Ok? && Under(CommonPath(ps).value, root)
  {
    LcpAllMaximal(ps, root.parts);
  }

  /** The common path of a pair is its second element exactly when the first lies under it. */
  lemma CommonPathPair(a: Path, b: Path)
    ensures CommonPath([a, b]) == Ok(b) <==> Under(a, b)
  {
    var ps := [a, b];
    assert ps[1..] == [b];
    assert LcpAll(ps) == Lcp(a.parts, b.parts);
    if Under(a, b) {
      LcpOfPrefix(a.parts, b.parts);
      assert SameAnchor(ps);
    }
  }

  lemma {:induction false} LcpOfPrefixLeft(a: seq<string>, b: seq<string>)
    requires a <= b
    ensures Lcp(a, b) == a
  {
    if |a| > 0 && |b| > 0 {
      LcpOfPrefixLeft(a[1..], b[1..]);
      assert a == [a[0]] + a[1..];
    }
  }

  /** The common path of a pair is its first element exactly when the second lies under it. */
  lemma CommonPathPairFirst(b: Path, a: Path)
    ensures CommonPath([b, a]) == Ok(b) <==> Under(a, b)
  {
    var ps := [b, a];
    assert ps[1..] == [a];
    assert LcpAll(ps) == Lcp(b.parts, a.parts);
    if Under(a, b) {
      LcpOfPrefixLeft(b.parts, a.parts);
      assert SameAnchor(ps);
    }
  }

  /** `p.relative_to(base)`: the components of `p` after those of `base`. */
  function RelativeTo(p: Path, base: Path): (r: Result<Path, PathError>)
    ensures r.Ok? <==> Under(p, base)
    ensures r.Ok? ==> !r.value.absolute && Join(base, r.value) == p
    ensures r.Err? ==> r.error == NotRelative
  {
    if Under(p, base) then
      assert p.parts == base.parts + p.parts[|base.parts|..];
      Ok(Path(false, p.parts[|base.parts|..]))
    else Err(NotRelative)
  }

  function DropLast(xs: seq<string>): seq<string>
  {
    if |xs| == 0 then xs else xs[..|xs| - 1]
  }

  /** Lexical resolution of `rest` against the resolved components `base`. */
  function LexResolve(base: seq<string>, rest: seq<string>): (r: seq<string>)
    requires CanonicalParts(base) && NoSlash(rest)
    ensures CanonicalParts(r)
    decreases |rest|
  {
    if |rest| == 0 then base
    else if rest[0] == "" || rest[0] == "." then LexResolve(base, rest[1..])
    else if rest[0] == ".." then LexResolve(DropLast(base), rest[1..])
    else LexResolve(base + [rest[0]], rest[1..])
  }

  /** `os.path.normpath` of an absolute path. */
  function Normalize(p: Path): (r: Path)
    requires p.absolute && Valid(p)
    ensures Canonical(r)
  {
    Path(true, LexResolve([], p.parts))
  }

  /** Components already resolved pass through lexical resolution unchanged. */
  lemma {:induction false} LexResolvePlain(base: seq<string>, xs: seq<string>, ys: seq<string>)
    requires CanonicalParts(base) && CanonicalParts(xs) && NoSlash(ys)
    ensures NoSlash(xs + ys)
    ensures LexResolve(base, xs + ys) == LexResolve(base + xs, ys)
    decreases |xs|
  {
    assert NoSlash(xs + ys) by {
      forall i | 0 <= i < |xs + ys| ensures '/' !in (xs + ys)[i] {
        if i < |xs| { assert IsPart(xs[i]); } else { assert (xs + ys)[i] == ys[i - |xs|]; }
      }
    }
    if |xs| > 0 {
      assert (xs + ys)[0] == xs[0] && (xs + ys)[1..] == xs[1..] + ys;
      assert IsPart(xs[0]) && xs[0] != "..";
      LexResolvePlain(base + [xs[0]], xs[1..], ys);
      assert base + [xs[0]] + xs[1..] == base + xs;
    } else {
      assert xs + ys == ys;
      assert base + xs == base;
    }
  }

  /** Normalising a canonical directory joined with resolved components only descends. */
  lemma NormalizeDescend(root: Path, xs: seq<string>)
    requires Canonical(root) && CanonicalParts(xs)
    ensures Normalize(Join(root, Path(false, xs))) == Path(true, root.parts + xs)
  {
    LexResolvePlain([], root.parts, xs);
    assert [] + root.parts == root.parts;
    LexResolvePlain(root.parts, xs, []);
    assert xs + [] == xs;
  }

  /** Normalising a canonical directory joined with one component: ".." steps up, anything else descends. */
  lemma NormalizeChild(root: Path, c: string)
    requires Canonical(root) && IsPart(c)
    ensures Normalize(Join(root, Parse(c))) == if c == ".." then Parent(root) else Path(true, root.parts + [c])
  {
    ParseComponent(c);
    LexResolvePlain([], root.parts, [c]);
    assert [] + root.parts == root.parts;
  }

  /** Symlinks present on disk: resolved location of the link ↦ the link's text. */
  type Links = map<seq<string>, string>

  /** The model's bound on nested symlink expansion; past it a link is read as a plain directory. */
  const MaxLinkDepth: nat := 40

  /**
   * `os.path._joinrealpath`: resolve `rest` against `base`, replacing every
   * component that names a planted link by the resolution of its text
   * (relative to the link's directory, or to "/" when the text is absolute).
   */
  function Resolve(links: Links, base: seq<string>, rest: seq<string>, fuel: nat): (r: seq<string>)
    requires CanonicalParts(base) && NoSlash(rest)
    ensures CanonicalParts(r)
    decreases fuel, |rest|
  {
    if |rest| == 0 then base
    else
      var c := rest[0];
      if c == "" || c == "." then Resolve(links, base, rest[1..], fuel)
      else if c == ".." then Resolve(links, DropLast(base), rest[1..], fuel)
      else
        var next := base + [c];
        if next in links && fuel > 0 then
          var text := links[next];
          var start := if |text| > 0 && text[0] == '/' then [] else base;
          var resolved := Resolve(links, start, Split(text, '/'), fuel - 1);
          Resolve(links, resolved, rest[1..], fuel)
        else Resolve(links, next, rest[1..], fuel)
  }

  /**
   * `os.path.realpath` of an absolute path, given the symlinks on disk. Its
   * contract is what the `Download.VerifyTarMember` and `Containers.VolumePath`
   * rows use.
   */
  function Realpath(links: Links, p: Path): (r: Path)
    requires p.absolute && Valid(p)
    ensures Canonical(r)
  {
    Path(true, Resolve(links, [], p.parts, MaxLinkDepth))
  }

  lemma {:induction false} ResolveWithoutLinks(base: seq<string>, rest: seq<string>, fuel: nat)
    requires CanonicalParts(base) && NoSlash(rest)
    ensures Resolve(map[], base, rest, fuel) == LexResolve(base, rest)
    decreases |rest|
  {
    if |rest| > 0 {
      var c := rest[0];
      if c == "" || c == "." {
        ResolveWithoutLinks(base, rest[1..], fuel);
      } else if c == ".." {
        ResolveWithoutLinks(DropLast(base), rest[1..], fuel);
      } else {
        ResolveWithoutLinks(base + [c], rest[1..], fuel);
      }
    }
  }

  /** With no symlinks on disk, `realpath` is `normpath`. */
  lemma RealpathWithoutLinks(p: Path)
    requires p.absolute && Valid(p)
    ensures Realpath(map[], p) == Normalize(p)
  {
    ResolveWithoutLinks([], p.parts, MaxLinkDepth);
  }
}

=== FILE: shell.dfy ===
/**
 * The SDK subshell: a long-running `bash -i` whose commands are framed so
 * that each one prints a sentinel line carrying its exit status, and whose
 * output is read line by line up to that sentinel.
 *
 * The process is reduced to an alive flag, everything written to its stdin,
 * and the lines its stdout will still yield. The echo callbacks are reduced
 * to a log of which callback received which text.
 */
module Shell {
  import opened Wrappers
  import opened Text
  import opened Paths

  const SentinelPrefix := "xxxresultxxx:xxx"
  const SentinelSuffix := "xxx"
  /** What framing appends to every command: report `$?` on a line of its own. */
  const FrameSuffix := " ; echo \"xxxresultxxx:xxx$?xxx\"\n"

  /** `echo_wrap_prevent_double_newlines`, and the first step of framing: drop one trailing newline. */
  function StripOneNewline(s: string): (r: string)
    ensures EndsWith(s, "\n") ==> r + "\n" == s
    ensures !EndsWith(s, "\n") ==> r == s
  {
    if |s| > 0 && s[|s| - 1] == '\n' then s[..|s| - 1] else s
  }

  /** The text written to the shell's stdin for `cmd`. */
  function Frame(cmd: string): (f: string)
    ensures EndsWith(f, FrameSuffix)
    ensures |f| == |StripOneNewline(cmd)| + |FrameSuffix|
  {
    StripOneNewline(cmd) + FrameSuffix
  }

  /** The command a frame carries, with the framing removed. */
  function Unframe(f: string): string
  {
    if |f| >= |FrameSuffix| then f[..|f| - |FrameSuffix|] else f
  }

  lemma UnframeFrame(cmd: string)
    ensures Unframe(Frame(cmd)) == StripOneNewline(cmd)
    ensures Frame(cmd + "\n") == Frame(cmd) <==> !EndsWith(cmd, "\n")
  {
    var s := StripOneNewline(cmd);
    assert (s + FrameSuffix)[..|s|] == s;
    assert StripOneNewline(cmd + "\n") == cmd by {
      assert (cmd + "\n")[..|cmd|] == cmd;
    }
    if Frame(cmd + "\n") == Frame(cmd) {
      assert cmd + FrameSuffix == s + FrameSuffix;
      assert |cmd| == |s|;
    }
  }

  /** The line `echo` prints for exit status `n`, as `readline` returns it. */
  function SentinelLine(n: int): string
  {
    SentinelPrefix + IntText(n) + SentinelSuffix + "\n"
  }

  /** A single line (no newline inside) that is exactly `xxxresultxxx:xxx(-?\d+)xxx`, and the status it carries. */
  function LineStatus(l: string): (r: Option<int>)
    ensures r.Some? ==> SentinelPrefix <= l && EndsWith(l, SentinelSuffix)
  {
    if |l| >= |SentinelPrefix| + |SentinelSuffix| && SentinelPrefix <= l && EndsWith(l, SentinelSuffix)
    then ParseInt(l[|SentinelPrefix|..|l| - |SentinelSuffix|])
    else None
  }

  function FirstStatus(pieces: seq<string>): (r: Option<int>)
    ensures r.None? <==> forall i :: 0 <= i < |pieces| ==> LineStatus(pieces[i]).None?
  {
    if |pieces| == 0 then None
    else if LineStatus(pieces[0]).Some? then LineStatus(pieces[0])
    else FirstStatus(pieces[1..])
  }

  /**
   * `_result_re.search(text)` with `re.MULTILINE`: `^` and `$` match at line
   * boundaries and nothing in the pattern matches a newline, so the first
   * whole line of the required shape matches. `SentinelRoundTrip` states
   * that it reads back every status line `Frame` makes the shell print.
   */
  function SentinelStatus(text: string): (r: Option<int>)
  {
    FirstStatus(Split(text, '\n'))
  }

  lemma IntTextNoNewline(n: int)
    ensures '\n' !in IntText(n)
  {
    if '\n' in IntText(n) {
      var i :| 0 <= i < |IntText(n)| && IntText(n)[i] == '\n';
      IntTextChars(n, i);
    }
  }

  lemma IntTextChars(n: int, i: int)
    requires 0 <= i < |IntText(n)|
    ensures IntText(n)[i] == '-' || IsDigit(IntText(n)[i])
  {
    if n < 0 {
      assert IntText(n) == "-" + NatText(-n);
      if i > 0 {
        assert IntText(n)[i] == NatText(-n)[i - 1];
      }
    }
  }

  /** The sentinel body for status `n` is recognised with status `n`. */
  lemma LineStatusRoundTrip(n: int)
    ensures LineStatus(SentinelPrefix + IntText(n) + SentinelSuffix) == Some(n)
  {
    var body := SentinelPrefix + IntText(n) + SentinelSuffix;
    assert body[..|SentinelPrefix|] == SentinelPrefix;
    assert body[|body| - |SentinelSuffix|..] == SentinelSuffix;
    assert body[|SentinelPrefix|..|body| - |SentinelSuffix|] == IntText(n);
    IntTextRoundTrip(n);
  }

  /** The sentinel the framed command makes the shell print is read back as the same status. */
  lemma SentinelRoundTrip(n: int)
    ensures SentinelStatus(SentinelLine(n)) == Some(n)
  {
    var body := SentinelPrefix + IntText(n) + SentinelSuffix;
    assert SentinelLine(n) == body + "\n" + "";
    assert '\n' !in body by {
      IntTextNoNewline(n);
      assert '\n' !in SentinelPrefix && '\n' !in SentinelSuffix;
    }
    SplitAround(body, "", '\n');
    SplitNoSeparator(body, '\n');
    assert Split("", '\n') == [""];
    LineStatusRoundTrip(n);
  }

  /** Which callback a message reaches. */
  datatype Sink = EchoSink | VerboseSink | NoSink

  datatype Echoed = Echoed(sink: Sink, text: string)

  datatype Subshell = Subshell(
    alive: bool,
    directory: Path,
    stdin: string,
    stdout: seq<string>,
    echoTo: Sink,
    verboseTo: Sink,
    log: seq<Echoed>)

  function Emit(sink: Sink, text: string, log: seq<Echoed>): (r: seq<Echoed>)
    ensures sink == NoSink ==> r == log
    ensures sink != NoSink ==> r == log + [Echoed(sink, text)]
  {
    if sink == NoSink then log else log + [Echoed(sink, text)]
  }

  function EmitAll(sink: Sink, texts: seq<string>, log: seq<Echoed>): (r: seq<Echoed>)
    ensures sink == NoSink ==> r == log
    ensures sink != NoSink ==> |r| == |log| + |texts| && r[..|log|] == log
    ensures sink != NoSink ==> forall i :: 0 <= i < |texts| ==> r[|log| + i] == Echoed(sink, texts[i])
    decreases |texts|
  {
    if |texts| == 0 then log else EmitAll(sink, texts[1..], Emit(sink, texts[0], log))
  }

  /** The constructor, as written: the verbose callback is taken from `echo`, and `echo_verbose` is ignored. */
  function NewSubshellAsWritten(dir: Path, hasEcho: bool, hasVerbose: bool, stdout: seq<string>): (sh: Subshell)
    ensures sh.alive && sh.stdin == "" && sh.log == []
    ensures sh.verboseTo == sh.echoTo
    ensures sh.verboseTo != VerboseSink
  {
    var echo := if hasEcho then EchoSink else NoSink;
    Subshell(true, dir, "", stdout, echo, echo, [])
  }

  /** The constructor with each callback routed to its own sink. */
  function NewSubshell(dir: Path, hasEcho: bool, hasVerbose: bool, stdout: seq<string>): (sh: Subshell)
    ensures sh.alive && sh.stdin == "" && sh.log == [] && sh.stdout == stdout && sh.directory == dir
    ensures sh.echoTo == EchoSink <==> hasEcho
    ensures sh.verboseTo == VerboseSink <==> hasVerbose
    ensures sh.echoTo != VerboseSink && sh.verboseTo != EchoSink
  {
    Subshell(true, dir, "", stdout,
             if hasEcho then EchoSink else NoSink,
             if hasVerbose then VerboseSink else NoSink, [])
  }

  /** Why a shell call did not return lines. `Blocked`: no sentinel ever arrives, so the read loop never ends. */
  datatype Failure = Runtime(message: string) | CommandFailed(command: string, returncode: int, output: string) | Blocked

  datatype Step<T> = Step(sh: Subshell, result: Result<T, Failure>)

  /** Index of the first line carrying a sentinel. */
  function FirstSentinel(lines: seq<string>): (r: Option<nat>)
    ensures r.Some? ==> r.value < |lines| && SentinelStatus(lines[r.value]).Some?
    ensures r.Some? ==> forall j :: 0 <= j < r.value ==> SentinelStatus(lines[j]).None?
    ensures r.None? ==> forall j :: 0 <= j < |lines| ==> SentinelStatus(lines[j]).None?
  {
    if |lines| == 0 then None
    else if SentinelStatus(lines[0]).Some? then Some(0)
    else
      var t := lines[1..];
      assert forall j :: 0 < j < |lines| ==> lines[j] == t[j - 1];
      match FirstSentinel(t) case None => None case Some(k) => Some(k + 1)
  }

  /**
   * What a call consumed: `lines` are removed from the front of the pending
   * output `before`, leaving `after`; the last of them is the first sentinel
   * and carries `status`.
   */
  predicate ReadThrough(before: seq<string>, after: seq<string>, lines: seq<string>, status: int)
  {
    && lines + after == before && |lines| > 0
    && SentinelStatus(lines[|lines| - 1]) == Some(status)
    && forall j :: 0 <= j < |lines| - 1 ==> SentinelStatus(lines[j]).None?
  }

  /** `_shellcall`: write the framed command, then read lines up to and including the first sentinel. */
  function ShellCall(sh: Subshell, cmd: string, verboseEcho: bool): (r: Step<(int, seq<string>)>)
    ensures r.sh.stdin == sh.stdin + Frame(cmd)
    ensures r.sh.alive == sh.alive && r.sh.echoTo == sh.echoTo && r.sh.verboseTo == sh.verboseTo
    ensures r.result.Ok? ==> |r.result.value.1| > 0
  {
    ReadReply(Send(sh, cmd, verboseEcho))
  }

  /**
   * What a call reads: without a sentinel it blocks after consuming every
   * pending line; otherwise it returns the lines through the first sentinel,
   * removed from the front of stdout, and that sentinel's status.
   */
  lemma ShellCallReads(sh: Subshell, cmd: string, verboseEcho: bool)
    ensures var r := ShellCall(sh, cmd, verboseEcho);
            && (r.result.Err? ==> r.result.error == Blocked && r.sh.stdout == []
                                  && forall j :: 0 <= j < |sh.stdout| ==> SentinelStatus(sh.stdout[j]).None?)
            && (r.result.Ok? ==>
                  var (status, lines) := r.result.value;
                  && lines == LinesRead(sh.stdout)
                  && ReadThrough(sh.stdout, r.sh.stdout, lines, status))
  {
    ReadReplyReads(Send(sh, cmd, verboseEcho));
  }

  /** The writing half of `_shellcall`: the framed command goes to stdin and to the echo (or verbose) sink. */
  function Send(sh: Subshell, cmd: string, verboseEcho: bool): (r: Subshell)
    ensures r.stdin == sh.stdin + Frame(cmd) && r.stdout == sh.stdout
    ensures r.alive == sh.alive && r.echoTo == sh.echoTo && r.verboseTo == sh.verboseTo
    ensures r.log == Emit(if verboseEcho then sh.verboseTo else sh.echoTo, Frame(cmd), sh.log)
  {
    var framed := Frame(cmd);
    sh.(stdin := sh.stdin + framed, log := Emit(if verboseEcho then sh.verboseTo else sh.echoTo, framed, sh.log))
  }

  /**
   * The reading loop of `_shellcall`: read a line, pass it to the verbose
   * sink, keep it, and stop after the first one that carries a sentinel.
   */
  function ReadReply(sh: Subshell): (r: Step<(int, seq<string>)>)
    ensures r.sh.stdin == sh.stdin
    ensures r.sh.alive == sh.alive && r.sh.echoTo == sh.echoTo && r.sh.verboseTo == sh.verboseTo
    ensures r.result.Ok? ==> |r.result.value.1| > 0
    decreases |sh.stdout|
  {
    if |sh.stdout| == 0 then Step(sh, Err(Blocked))
    else
      var line := sh.stdout[0];
      var next := sh.(stdout := sh.stdout[1..], log := Emit(sh.verboseTo, line, sh.log));
      match SentinelStatus(line)
      case Some(status) => Step(next, Ok((status, [line])))
      case None =>
        var r := ReadReply(next);
        match r.result
        case Err(e) => Step(r.sh, Err(e))
        case Ok((status, lines)) => Step(r.sh, Ok((status, [line] + lines)))
  }

  /**
   * The reading loop logs every line it reads on the verbose sink, blocks
   * only when no line carries a sentinel, and otherwise returns exactly the
   * lines through the first sentinel.
   */
  lemma {:induction false} ReadReplyReads(sh: Subshell)
    ensures var r := ReadReply(sh);
            && r.sh.log == EmitAll(sh.verboseTo, LinesRead(sh.stdout), sh.log)
            && (r.result.Err? ==> r.result.error == Blocked && r.sh.stdout == []
                                  && forall j :: 0 <= j < |sh.stdout| ==> SentinelStatus(sh.stdout[j]).None?)
            && (r.result.Ok? ==>
                  var (status, lines) := r.result.value;
                  && lines == LinesRead(sh.stdout)
                  && ReadThrough(sh.stdout, r.sh.stdout, lines, status))
    decreases |sh.stdout|
  {
    if |sh.stdout| > 0 {
      var line := sh.stdout[0];
      var next := sh.(stdout := sh.stdout[1..], log := Emit(sh.verboseTo, line, sh.log));
      LinesReadCons(sh.stdout);
      EmitAllCons(sh.verboseTo, LinesRead(sh.stdout), sh.log);
      if SentinelStatus(line).Some? {
        ReadThroughOne(sh.stdout, SentinelStatus(line).value);
      } else {
        var r := ReadReply(next);
        ReadReplyReads(next);
        if r.result.Err? {
          NoSentinelCons(sh.stdout);
        } else {
          ReadThroughCons(sh.stdout, r.sh.stdout, r.result.value.1, r.result.value.0);
        }
      }
    }
  }

  /** The lines read from output starting with `stdout[0]`: that line alone if it is a sentinel, else it and those read after it. */
  lemma LinesReadCons(stdout: seq<string>)
    requires |stdout| > 0
    ensures SentinelStatus(stdout[0]).Some? ==> LinesRead(stdout) == [stdout[0]]
    ensures SentinelStatus(stdout[0]).None? ==> LinesRead(stdout) == [stdout[0]] + LinesRead(stdout[1..])
  {
    if SentinelStatus(stdout[0]).None? {
      var tail := stdout[1..];
      assert FirstSentinel(stdout) == match FirstSentinel(tail) case None => None case Some(k) => Some(k + 1);
      match FirstSentinel(tail)
      case None =>
        assert LinesRead(tail) == tail;
        ConsPrefix(stdout, |stdout|);
      case Some(k) =>
        assert LinesRead(tail) == tail[..k + 1];
        ConsPrefix(stdout, k + 2);
    } else {
      assert FirstSentinel(stdout) == Some(0);
    }
  }

  lemma EmitAllCons(sink: Sink, texts: seq<string>, log: seq<Echoed>)
    requires |texts| > 0
    ensures EmitAll(sink, texts, log) == EmitAll(sink, texts[1..], Emit(sink, texts[0], log))
  {
  }

  lemma ReadThroughOne(stdout: seq<string>, status: int)
    requires |stdout| > 0 && SentinelStatus(stdout[0]) == Some(status)
    ensures ReadThrough(stdout, stdout[1..], [stdout[0]], status)
  {
    assert [stdout[0]] + stdout[1..] == stdout;
  }

  lemma ReadThroughCons(stdout: seq<string>, after: seq<string>, lines: seq<string>, status: int)
    requires |stdout| > 0 && SentinelStatus(stdout[0]).None?
    requires ReadThrough(stdout[1..], after, lines, status)
    ensures ReadThrough(stdout, after, [stdout[0]] + lines, status)
  {
    var all := [stdout[0]] + lines;
    assert all + after == [stdout[0]] + (lines + after);
    assert all[|all| - 1] == lines[|lines| - 1];
    forall j | 0 <= j < |all| - 1
      ensures SentinelStatus(all[j]).None?
    {
      if j > 0 {
        assert all[j] == lines[j - 1];
      }
    }
  }

  lemma NoSentinelCons(stdout: seq<string>)
    requires |stdout| > 0 && SentinelStatus(stdout[0]).None?
    requires forall j :: 0 <= j < |stdout| - 1 ==> SentinelStatus(stdout[1..][j]).None?
    ensures forall j :: 0 <= j < |stdout| ==> SentinelStatus(stdout[j]).None?
  {
    forall j | 0 <= j < |stdout|
      ensures SentinelStatus(stdout[j]).None?
    {
      if j > 0 {
        assert stdout[j] == stdout[1..][j - 1];
      }
    }
  }

  /** `_guarded_shellcall`: refuse a dead shell, and turn a non-zero status into `ShellCommandFailed`. */
  function GuardedShellCall(sh: Subshell, cmd: string, verboseEcho: bool): (r: Step<seq<string>>)
    ensures !sh.alive ==> r == Step(sh, Err(Runtime("Subshell closed")))
    ensures sh.alive ==> r.sh.stdin == sh.stdin + Frame(cmd) && r.sh.alive
    ensures r.sh.echoTo == sh.echoTo && r.sh.verboseTo == sh.verboseTo
  {
    if !sh.alive then Step(sh, Err(Runtime("Subshell closed")))
    else
      var st := ShellCall(sh, cmd, verboseEcho);
      match st.result
      case Err(e) => Step(st.sh, Err(e))
      case Ok((status, lines)) =>
        if status != 0 then
          Step(st.sh, Err(CommandFailed(cmd, status, Concat(lines[..|lines| - 1]))))
        else Step(st.sh, Ok(lines))
  }

  /** Success means the lines read through the first sentinel, and that sentinel's status is 0. */
  lemma GuardedReads(sh: Subshell, cmd: string, verboseEcho: bool)
    ensures var r := GuardedShellCall(sh, cmd, verboseEcho);
            r.result.Ok? ==> r.result.value == LinesRead(sh.stdout) && ReadThrough(sh.stdout, r.sh.stdout, r.result.value, 0)
  {
    if sh.alive {
      ShellCallReads(sh, cmd, verboseEcho);
    }
  }

  /** The guarded call against the replies pending on stdout. */
  lemma GuardedReplies(sh: Subshell, cmd: string, verboseEcho: bool)
    ensures CallReplies(GuardedShellCall(sh, cmd, verboseEcho), sh)
  {
    if sh.alive {
      var st := ShellCall(sh, cmd, verboseEcho);
      ShellCallReads(sh, cmd, verboseEcho);
      match st.result
      case Err(_) =>
        assert FirstSentinel(sh.stdout).None?;
      case Ok((status, lines)) =>
        BlocksReadThrough(sh.stdout, st.sh.stdout, lines, status);
    }
  }

  /** A failed command is reported with the unframed command, its status, and all output read before the sentinel. */
  lemma GuardedFailureReport(sh: Subshell, cmd: string, verboseEcho: bool)
    ensures var r := GuardedShellCall(sh, cmd, verboseEcho);
            r.result.Err? && r.result.error.CommandFailed? ==>
              var e := r.result.error;
              var lines := LinesRead(sh.stdout);
              && ReadThrough(sh.stdout, r.sh.stdout, lines, e.returncode)
              && e.command == cmd && e.returncode != 0
              && e.output + lines[|lines| - 1] == Concat(lines)
  {
    var r := GuardedShellCall(sh, cmd, verboseEcho);
    if !sh.alive {
      assert r.result.error.Runtime?;
    } else {
      var st := ShellCall(sh, cmd, verboseEcho);
      ShellCallReads(sh, cmd, verboseEcho);
      if st.result.Err? {
        assert r.result.error == st.result.error == Blocked;
      } else if st.result.value.0 == 0 {
        assert r.result.Ok?;
      } else {
        var lines := st.result.value.1;
        assert r == Step(st.sh, Err(CommandFailed(cmd, st.result.value.0, Concat(lines[..|lines| - 1]))));
        assert lines == LinesRead(sh.stdout);
        assert r.result.error.output == Concat(lines[..|lines| - 1]);
        FailureReportOf(cmd, st.result.value.0, lines);
      }
    }
  }

  /** The report built from lines read through a non-zero sentinel. */
  lemma FailureReportOf(cmd: string, status: int, lines: seq<string>)
    requires |lines| > 0
    ensures CommandFailed(cmd, status, Concat(lines[..|lines| - 1])).output + lines[|lines| - 1] == Concat(lines)
  {
    ConcatSnoc(lines);
  }

  /** The lines a call reads: up to the first sentinel, or everything when none arrives. */
  function LinesRead(stdout: seq<string>): seq<string>
  {
    match FirstSentinel(stdout)
    case None => stdout
    case Some(k) => stdout[..k + 1]
  }

  /**
   * The replies in a stream of output lines, in order: each block runs up to
   * and including the next sentinel line. Trailing lines with no sentinel
   * after them form no block.
   */
  function Blocks(stdout: seq<string>): (bs: seq<seq<string>>)
    decreases |stdout|
  {
    match FirstSentinel(stdout)
    case None => []
    case Some(k) => [stdout[..k + 1]] + Blocks(stdout[k + 1..])
  }

  /** A reply whose sentinel reports status 0. */
  predicate Succeeded(block: seq<string>)
  {
    |block| > 0 && SentinelStatus(block[|block| - 1]) == Some(0)
  }

  /** The first sentinel is the one at `k` when none comes before it. */
  lemma FirstSentinelAt(lines: seq<string>, k: nat)
    requires k < |lines| && SentinelStatus(lines[k]).Some?
    requires forall j :: 0 <= j < k ==> SentinelStatus(lines[j]).None?
    ensures FirstSentinel(lines) == Some(k)
  {
    var r := FirstSentinel(lines);
    assert r.Some?;
    assert SentinelStatus(lines[r.value]).Some?;
    assert r.value == k;
  }

  lemma ConsPrefix<T>(s: seq<T>, n: nat)
    requires 0 < n <= |s|
    ensures s[..n] == [s[0]] + s[1..][..n - 1]
  {
  }

  /** Consuming one reply removes exactly the first block. */
  lemma BlocksReadThrough(before: seq<string>, after: seq<string>, lines: seq<string>, status: int)
    requires ReadThrough(before, after, lines, status)
    ensures Blocks(before) == [lines] + Blocks(after)
  {
    var k := |lines| - 1;
    assert before[..k + 1] == lines && before[k + 1..] == after;
    forall j | 0 <= j < k
      ensures SentinelStatus(before[j]).None?
    {
      assert before[j] == lines[j];
    }
    assert before[k] == lines[k];
    FirstSentinelAt(before, k);
  }

  /**
   * What a call does with the replies pending on stdout: it succeeds exactly
   * when the shell is alive and the first reply ends in status 0, and then it
   * returns that reply, consumes it, and leaves the shell alive.
   */
  predicate CallReplies(r: Step<seq<string>>, sh: Subshell)
  {
    && (r.result.Ok? <==> sh.alive && |Blocks(sh.stdout)| > 0 && Succeeded(Blocks(sh.stdout)[0]))
    && (r.result.Ok? ==> r.result.value == Blocks(sh.stdout)[0] && Blocks(r.sh.stdout) == Blocks(sh.stdout)[1..] && r.sh.alive)
  }

  ghost predicate Replies(call: Call)
  {
    forall sh: Subshell, cmd: string :: CallReplies(call(sh, cmd), sh)
  }

  lemma ShellCallLog(sh: Subshell, cmd: string, verboseEcho: bool)
    ensures ShellCall(sh, cmd, verboseEcho).sh.log
            == EmitAll(sh.verboseTo, LinesRead(sh.stdout), Emit(if verboseEcho then sh.verboseTo else sh.echoTo, Frame(cmd), sh.log))
  {
    ReadReplyReads(Send(sh, cmd, verboseEcho));
  }

  /** `log` keeps `before` as a prefix and ends with each of `lines` passed to `sink`, in order. */
  predicate EchoesAfter(log: seq<Echoed>, before: seq<Echoed>, sink: Sink, lines: seq<string>)
  {
    && before <= log && |log| >= |lines|
    && forall i :: 0 <= i < |lines| ==> log[|log| - |lines| + i] == Echoed(sink, lines[i])
  }

  /** Every line read is passed to the verbose sink, in order, after what was logged before. */
  lemma ShellCallEchoesLines(sh: Subshell, cmd: string, verboseEcho: bool)
    requires sh.verboseTo != NoSink
    ensures EchoesAfter(ShellCall(sh, cmd, verboseEcho).sh.log, sh.log, sh.verboseTo, LinesRead(sh.stdout))
  {
    ShellCallLog(sh, cmd, verboseEcho);
    EmitAllAfter(sh.log, if verboseEcho then sh.verboseTo else sh.echoTo, Frame(cmd), sh.verboseTo, LinesRead(sh.stdout));
  }

  lemma PrefixOfPrefix(a: seq<Echoed>, b: seq<Echoed>, c: seq<Echoed>)
    requires |a| <= |b| <= |c| && b[..|a|] == a && c[..|b|] == b
    ensures a <= c
  {
    assert c[..|a|] == c[..|b|][..|a|];
  }

  /** Lines emitted after one more entry keep the old log as a prefix and end the log. */
  lemma EmitAllAfter(log: seq<Echoed>, first: Sink, text: string, sink: Sink, lines: seq<string>)
    requires sink != NoSink
    ensures EchoesAfter(EmitAll(sink, lines, Emit(first, text, log)), log, sink, lines)
  {
    var log1 := Emit(first, text, log);
    var r := EmitAll(sink, lines, log1);
    assert |r| == |log1| + |lines|;
    PrefixOfPrefix(log, log1, r);
    forall i | 0 <= i < |lines|
      ensures r[|r| - |lines| + i] == Echoed(sink, lines[i])
    {
      assert |r| - |lines| + i == |log1| + i;
    }
  }

  /** As written, nothing ever reaches the verbose callback: output read from the shell goes to `echo` or nowhere. */
  lemma VerboseNeverReachedAsWritten(sh: Subshell, cmd: string, verboseEcho: bool)
    requires sh.echoTo != VerboseSink && sh.verboseTo == sh.echoTo
    requires forall i :: 0 <= i < |sh.log| ==> sh.log[i].sink != VerboseSink
    ensures var r := GuardedShellCall(sh, cmd, verboseEcho);
            forall i :: 0 <= i < |r.sh.log| ==> r.sh.log[i].sink != VerboseSink
  {
    var r := GuardedShellCall(sh, cmd, verboseEcho);
    if sh.alive {
      ShellCallLog(sh, cmd, verboseEcho);
      var log1 := Emit(if verboseEcho then sh.verboseTo else sh.echoTo, Frame(cmd), sh.log);
      assert forall i :: 0 <= i < |log1| ==> log1[i].sink != VerboseSink;
      var log2 := EmitAll(sh.verboseTo, LinesRead(sh.stdout), log1);
      assert r.sh.log == log2;
      EmitAllSinks(sh.verboseTo, LinesRead(sh.stdout), log1);
    }
  }

  /** Logging only adds entries for the sink it is given. */
  lemma {:induction false} EmitAllSinks(sink: Sink, texts: seq<string>, log: seq<Echoed>)
    ensures var r := EmitAll(sink, texts, log);
            forall i :: 0 <= i < |r| ==> (i < |log| && r[i] == log[i]) || r[i].sink == sink
    decreases |texts|
  {
    if |texts| > 0 {
      EmitAllSinks(sink, texts[1..], Emit(sink, texts[0], log));
    }
  }

  /**
   * With only a verbose callback given, a successful command's output never
   * reaches it as written; routing `echo_verbose` to its own sink delivers it.
   */
  lemma VerboseOutputLostAsWritten(dir: Path)
    ensures var r := GuardedShellCall(NewSubshellAsWritten(dir, false, true, [SentinelLine(0)]), "true", false);
            r.result.Ok? && r.sh.log == []
    ensures var r := GuardedShellCall(NewSubshell(dir, false, true, [SentinelLine(0)]), "true", false);
            r.result.Ok? && r.sh.log == [Echoed(VerboseSink, SentinelLine(0))]
  {
    SentinelRoundTrip(0);
    var lines := [SentinelLine(0)];
    assert lines[..0 + 1] == lines;
    assert lines[1..] == [];
  }

  lemma {:induction false} ConcatSnoc(lines: seq<string>)
    requires |lines| > 0
    ensures Concat(lines[..|lines| - 1]) + lines[|lines| - 1] == Concat(lines)
  {
    if |lines| > 1 {
      ConcatSnoc(lines[1..]);
      assert lines[1..][..|lines[1..]| - 1] == lines[..|lines| - 1][1..];
      assert lines[1..][|lines[1..]| - 1] == lines[|lines| - 1];
    } else {
      assert lines[..0] == [];
    }
  }

  /** Characters `shlex.quote` leaves unquoted: ASCII word characters and `@%+=:,./-`. */
  predicate ShellSafe(c: char)
  {
    ('a' <= c <= 'z') || ('A' <= c <= 'Z') || ('0' <= c <= '9') || c == '_'
    || c == '@' || c == '%' || c == '+' || c == '=' || c == ':' || c == ',' || c == '.' || c == '/' || c == '-'
  }

  /** Each `'` of the text closed, emitted inside double quotes, and reopened. */
  function EscapeQuotes(s: string): (r: string)
    ensures |r| >= |s|
  {
    if |s| == 0 then ""
    else (if s[0] == '\'' then "'\"'\"'" else [s[0]]) + EscapeQuotes(s[1..])
  }

  /** `shlex.quote`. */
  function ShlexQuote(s: string): (r: string)
    ensures |r| > 0
    ensures (|s| > 0 && forall i :: 0 <= i < |s| ==> ShellSafe(s[i])) ==> r == s
    ensures !(|s| > 0 && forall i :: 0 <= i < |s| ==> ShellSafe(s[i])) ==> r[0] == '\'' && r[|r| - 1] == '\''
  {
    if |s| == 0 then "''"
    else if forall i :: 0 <= i < |s| ==> ShellSafe(s[i]) then s
    else "'" + EscapeQuotes(s) + "'"
  }

  /**
   * How a POSIX shell reads one word made only of unquoted characters,
   * single-quoted runs and double-quoted runs without `$`, backquote or
   * backslash. `None` for an unterminated quote.
   */
  function ReadWord(w: string): Option<string>
    decreases |w|
  {
    if |w| == 0 then Some("")
    else if w[0] == '\'' then ReadQuoted(w[1..], '\'')
    else if w[0] == '"' then ReadQuoted(w[1..], '"')
    else match ReadWord(w[1..]) case None => None case Some(t) => Some([w[0]] + t)
  }

  function ReadQuoted(w: string, q: char): Option<string>
    decreases |w|, 0
  {
    if |w| == 0 then None
    else if w[0] == q then ReadWord(w[1..])
    else match ReadQuoted(w[1..], q) case None => None case Some(t) => Some([w[0]] + t)
  }

  /** `p` put in front of a successful read. */
  function Prepend(p: string, o: Option<string>): Option<string>
  {
    match o
    case None => None
    case Some(t) => Some(p + t)
  }

  /** Reading inside quotes, a character other than the quote is kept. */
  lemma ReadQuotedChar(c: char, tail: string, q: char)
    requires c != q
    ensures ReadQuoted([c] + tail, q) == Prepend([c], ReadQuoted(tail, q))
  {
    assert ([c] + tail)[1..] == tail;
  }

  /** Reading inside single quotes, the escape of one `'` yields that `'`. */
  lemma ReadEscapedQuote(tail: string)
    ensures ReadQuoted("'\"'\"'" + tail, '\'') == Prepend("'", ReadQuoted(tail, '\''))
  {
    var w4 := ['\''] + tail;
    var w3 := ['"'] + w4;
    var w2 := ['\''] + w3;
    var w1 := ['"'] + w2;
    EscapeSpelling(tail);
    QuotedClose('\'', w1);
    WordOpen('"', w2);
    ReadQuotedChar('\'', w3, '"');
    QuotedClose('"', w4);
    WordOpen('\'', tail);
  }

  lemma EscapeSpelling(tail: string)
    ensures "'\"'\"'" + tail == ['\''] + (['"'] + (['\''] + (['"'] + (['\''] + tail))))
  {
  }

  /** Inside quotes, the closing quote returns to reading a word. */
  lemma QuotedClose(q: char, tail: string)
    ensures ReadQuoted([q] + tail, q) == ReadWord(tail)
  {
    assert ([q] + tail)[1..] == tail;
  }

  /** A quote character opens a quoted read. */
  lemma WordOpen(q: char, tail: string)
    requires q == '\'' || q == '"'
    ensures ReadWord([q] + tail) == ReadQuoted(tail, q)
  {
    assert ([q] + tail)[1..] == tail;
  }

  lemma {:induction false} ReadEscaped(s: string, rest: string)
    ensures ReadQuoted(EscapeQuotes(s) + "'" + rest, '\'') == Prepend(s, ReadWord(rest))
  {
    if |s| == 0 {
      assert EscapeQuotes(s) + "'" + rest == "'" + rest;
      assert ("'" + rest)[1..] == rest;
      match ReadWord(rest)
      case None =>
      case Some(t) => assert s + t == t;
    } else {
      ReadEscaped(s[1..], rest);
      ReadEscapedStep(s, rest);
    }
  }

  /** One character more in front: its escape is read back as that character. */
  lemma ReadEscapedStep(s: string, rest: string)
    requires |s| > 0
    requires ReadQuoted(EscapeQuotes(s[1..]) + "'" + rest, '\'') == Prepend(s[1..], ReadWord(rest))
    ensures ReadQuoted(EscapeQuotes(s) + "'" + rest, '\'') == Prepend(s, ReadWord(rest))
  {
    var tail := EscapeQuotes(s[1..]) + "'" + rest;
    var head := if s[0] == '\'' then "'\"'\"'" else [s[0]];
    AppendAssoc(head, EscapeQuotes(s[1..]), "'");
    AppendAssoc(head, EscapeQuotes(s[1..]) + "'", rest);
    assert EscapeQuotes(s) + "'" + rest == head + tail;
    if s[0] == '\'' {
      ReadEscapedQuote(tail);
      assert "'" == [s[0]];
    } else {
      ReadQuotedChar(s[0], tail, '\'');
    }
    PrependTwice(s[0], s[1..], ReadWord(rest));
    HeadTail(s);
  }

  lemma HeadTail(s: string)
    requires |s| > 0
    ensures [s[0]] + s[1..] == s
  {
  }

  lemma PrependTwice(c: char, t: string, o: Option<string>)
    ensures Prepend([c], Prepend(t, o)) == Prepend([c] + t, o)
  {
    match o
    case None =>
    case Some(x) => AppendAssoc([c], t, x);
  }

  lemma {:induction false} ReadPlain(s: string)
    requires forall i :: 0 <= i < |s| ==> ShellSafe(s[i])
    ensures ReadWord(s) == Some(s)
  {
    if |s| > 0 {
      ReadPlain(s[1..]);
      assert [s[0]] + s[1..] == s;
    }
  }

  /** The shell reads a quoted word back as the original text. */
  lemma ShlexQuoteRoundTrip(s: string)
    ensures ReadWord(ShlexQuote(s)) == Some(s)
  {
    if |s| == 0 {
      assert ShlexQuote(s) == "''";
      assert "''"[1..] == "'";
      assert "'"[1..] == "";
    } else if forall i :: 0 <= i < |s| ==> ShellSafe(s[i]) {
      ReadPlain(s);
    } else {
      var w := "'" + EscapeQuotes(s) + "'";
      assert w[1..] == EscapeQuotes(s) + "'" + "";
      ReadEscaped(s, "");
      assert ReadWord("") == Some("");
      assert s + "" == s;
    }
  }

  /** `shlex.join`. */
  function ShlexJoin(argv: seq<string>): (r: string)
    ensures |argv| == 1 ==> r == ShlexQuote(argv[0])
  {
    if |argv| == 0 then ""
    else if |argv| == 1 then ShlexQuote(argv[0])
    else ShlexQuote(argv[0]) + " " + ShlexJoin(argv[1..])
  }

  /** `run`: the guarded call of the quoted argv, its lines joined with newlines. */
  function Run(sh: Subshell, argv: seq<string>): (r: Step<string>)
    ensures !sh.alive ==> r == Step(sh, Err(Runtime("Subshell closed")))
    ensures sh.alive ==> r.sh.stdin == sh.stdin + Frame(ShlexJoin(argv)) && r.sh.alive
    ensures r.result.Ok? ==> r.result.value == JoinWith(LinesRead(sh.stdout), "\n")
  {
    var st := GuardedShellCall(sh, ShlexJoin(argv), false);
    GuardedReads(sh, ShlexJoin(argv), false);
    match st.result
    case Err(e) => Step(st.sh, Err(e))
    case Ok(lines) => Step(st.sh, Ok(JoinWith(lines, "\n")))
  }

  /**
   * `run` against the output stream: it succeeds exactly when the shell is
   * alive and the first reply pending on stdout ends in status 0, and then it
   * returns that reply's lines joined with newlines and consumes them.
   */
  lemma RunReads(sh: Subshell, argv: seq<string>)
    ensures var r := Run(sh, argv);
            r.result.Ok? <==> sh.alive && |Blocks(sh.stdout)| > 0 && Succeeded(Blocks(sh.stdout)[0])
    ensures var r := Run(sh, argv);
            r.result.Ok? ==> r.result.value == JoinWith(Blocks(sh.stdout)[0], "\n") && Blocks(r.sh.stdout) == Blocks(sh.stdout)[1..]
  {
    GuardedReplies(sh, ShlexJoin(argv), false);
  }

  /**
   * `stop`, as its docstring intends: the shell is closed afterwards. The
   * process is not modelled, so neither is the terminate-and-poll loop.
   */
  function Stop(sh: Subshell): (r: Subshell)
    ensures !r.alive
    ensures r.stdin == sh.stdin && r.stdout == sh.stdout && r.log == sh.log
  {
    sh.(alive := false)
  }

  function ActivationCommand(sdk: Path): string
  {
    "source " + Format(sdk) + "/environment-setup"
  }

  /**
   * How a new shell routes its two callbacks: as the constructor is written
   * (the verbose sink taken from `echo`), or each to its own sink.
   */
  datatype Routing = SharedEcho | OwnSinks

  function OpenSubshell(routing: Routing, dir: Path, hasEcho: bool, hasVerbose: bool, stdout: seq<string>): (sh: Subshell)
    ensures sh.alive && sh.stdin == "" && sh.log == [] && sh.stdout == stdout && sh.directory == dir
  {
    match routing
    case SharedEcho => NewSubshellAsWritten(dir, hasEcho, hasVerbose, stdout)
    case OwnSinks => NewSubshell(dir, hasEcho, hasVerbose, stdout)
  }

  /** `persistent`: the first thing a new shell runs is the SDK's environment setup, echoed as verbose. */
  function Persistent(routing: Routing, dir: Path, sdk: Path, hasEcho: bool, hasVerbose: bool, stdout: seq<string>)
    : (r: Step<Subshell>)
    ensures r.sh.stdin == Frame(ActivationCommand(sdk))
    ensures r.result.Ok? ==> r.result.value == r.sh && r.sh.alive
  {
    var sh := OpenSubshell(routing, dir, hasEcho, hasVerbose, stdout);
    var st := GuardedShellCall(sh, ActivationCommand(sdk), true);
    match st.result
    case Err(e) => Step(st.sh, Err(e))
    case Ok(_) => Step(st.sh, Ok(st.sh))
  }

  /**
   * Activation succeeds exactly when the first reply on stdout ends in
   * status 0, and consumes that reply.
   */
  lemma PersistentReads(routing: Routing, dir: Path, sdk: Path, hasEcho: bool, hasVerbose: bool, stdout: seq<string>)
    ensures var r := Persistent(routing, dir, sdk, hasEcho, hasVerbose, stdout);
            && (r.result.Ok? <==> |Blocks(stdout)| > 0 && Succeeded(Blocks(stdout)[0]))
            && (r.result.Ok? ==> Blocks(r.sh.stdout) == Blocks(stdout)[1..])
  {
    var sh := OpenSubshell(routing, dir, hasEcho, hasVerbose, stdout);
    var cmd := ActivationCommand(sdk);
    var st := ShellCall(sh, cmd, true);
    ShellCallReads(sh, cmd, true);
    GuardedReads(sh, cmd, true);
    match st.result
    case Err(_) =>
      assert FirstSentinel(stdout).None?;
    case Ok((status, lines)) =>
      BlocksReadThrough(stdout, st.sh.stdout, lines, status);
  }

  /**
   * `scoped`: a persistent shell handed to `body`, stopped when `body` is done.
   * When activation itself fails, the exception leaves before the `try`, and the shell is not stopped.
   */
  function Scoped<T>(routing: Routing, dir: Path, sdk: Path, hasEcho: bool, hasVerbose: bool, stdout: seq<string>,
                     body: Subshell -> Step<T>): (r: Step<T>)
    ensures Persistent(routing, dir, sdk, hasEcho, hasVerbose, stdout).result.Ok? ==>
              var sh := Persistent(routing, dir, sdk, hasEcho, hasVerbose, stdout).sh;
              r.result == body(sh).result && r.sh == Stop(body(sh).sh)
    ensures Persistent(routing, dir, sdk, hasEcho, hasVerbose, stdout).result.Err? ==>
              r.result.Err? && r.sh.alive
  {
    var p := Persistent(routing, dir, sdk, hasEcho, hasVerbose, stdout);
    match p.result
    case Err(e) => Step(p.sh, Err(e))
    case Ok(sh) =>
      var b := body(sh);
      Step(Stop(b.sh), b.result)
  }

  /**
   * Two shells in the same state apart from their sinks and what those have
   * logged: the routing of the callbacks decides only what is logged where.
   */
  predicate SameState(a: Subshell, b: Subshell)
  {
    a.alive == b.alive && a.directory == b.directory && a.stdin == b.stdin && a.stdout == b.stdout
  }

  lemma {:induction false} ReadReplySame(a: Subshell, b: Subshell)
    requires SameState(a, b)
    ensures ReadReply(a).result == ReadReply(b).result && SameState(ReadReply(a).sh, ReadReply(b).sh)
    decreases |a.stdout|
  {
    if |a.stdout| > 0 {
      var line := a.stdout[0];
      var na := a.(stdout := a.stdout[1..], log := Emit(a.verboseTo, line, a.log));
      var nb := b.(stdout := b.stdout[1..], log := Emit(b.verboseTo, line, b.log));
      if SentinelStatus(line).None? {
        ReadReplySame(na, nb);
      }
    }
  }

  lemma GuardedSame(a: Subshell, b: Subshell, cmd: string, verboseEcho: bool)
    requires SameState(a, b)
    ensures var ra := GuardedShellCall(a, cmd, verboseEcho);
            var rb := GuardedShellCall(b, cmd, verboseEcho);
            ra.result == rb.result && SameState(ra.sh, rb.sh)
  {
    if a.alive {
      ReadReplySame(Send(a, cmd, verboseEcho), Send(b, cmd, verboseEcho));
    }
  }

  /** Routing agreement: opening the shell either way gives the same activation result and the same state. */
  lemma PersistentRoutingAgrees(dir: Path, sdk: Path, hasEcho: bool, hasVerbose: bool, stdout: seq<string>)
    ensures var a := Persistent(SharedEcho, dir, sdk, hasEcho, hasVerbose, stdout);
            var b := Persistent(OwnSinks, dir, sdk, hasEcho, hasVerbose, stdout);
            a.result.Ok? == b.result.Ok? && (a.result.Err? ==> a.result == b.result) && SameState(a.sh, b.sh)
  {
    GuardedSame(OpenSubshell(SharedEcho, dir, hasEcho, hasVerbose, stdout),
                OpenSubshell(OwnSinks, dir, hasEcho, hasVerbose, stdout), ActivationCommand(sdk), true);
  }

  const ComplexFlags := "-D_Complex_I=I -D_GNU_SOURCE -std=gnu99"

  function Sysroot(sdk: Path): Path
  {
    Join(sdk, Path(false, ["arm-buildroot-linux-gnueabihf", "sysroot"]))
  }

  function SysrootPythonPath(sdk: Path): Path
  {
    Join(Sysroot(sdk), Path(false, ["usr", "lib", "python3.10"]))
  }

  function Export(assignment: string): (c: string)
    ensures "export " <= c
  {
    "export " + assignment
  }

  /** The commands of `initiate_python_environment`, in the order they are issued. */
  function PythonEnvCommands(sdk: Path): (cmds: seq<string>)
    ensures |cmds| == 10
    ensures forall i :: 0 <= i < |cmds| ==> "export " <= cmds[i]
  {
    [ Export("_PYTHON_HOST_PLATFORM=linux-x86_64-linux-gnu"),
      Export("_PYTHON_SYSCONFIGDATA_NAME=_sysconfigdata__linux_arm-linux-gnueabihf"),
      Export("PYTHONPATH=" + Format(SysrootPythonPath(sdk))),
      Export("SETUPTOOLS_USE_DISTUTILS=stdlib"),
      Export("_python_sysroot=" + Format(Sysroot(sdk))),
      Export("_python_prefix=/usr"),
      Export("_python_exec_prefix=/usr"),
      Export("PYTHONNOUSERSITE=1"),
      Export("CFLAGS=\"$CFLAGS " + ComplexFlags + "\""),
      Export("CPPFLAGS=\"$CPPFLAGS " + ComplexFlags + "\"") ]
  }

  /** The python path exported for the build lies inside the exported sysroot. */
  lemma PythonPathInSysroot(sdk: Path)
    ensures Under(SysrootPythonPath(sdk), Sysroot(sdk))
    ensures |SysrootPythonPath(sdk).parts| == |Sysroot(sdk).parts| + 3
  {
  }

  function FramesOf(cmds: seq<string>): (fs: seq<string>)
    ensures |fs| == |cmds|
    ensures forall i :: 0 <= i < |cmds| ==> fs[i] == Frame(cmds[i])
  {
    if |cmds| == 0 then [] else [Frame(cmds[0])] + FramesOf(cmds[1..])
  }

  lemma {:induction false} ConcatAppend(a: seq<string>, b: seq<string>)
    ensures Concat(a + b) == Concat(a) + Concat(b)
  {
    if |a| > 0 {
      ConcatAppend(a[1..], b);
      assert (a + b)[1..] == a[1..] + b;
    } else {
      assert a + b == b;
    }
  }

  lemma ConcatFramesCons(cmds: seq<string>, k: nat)
    requires k < |cmds|
    ensures Concat(FramesOf(cmds[..k + 1])) == Frame(cmds[0]) + Concat(FramesOf(cmds[1..][..k]))
  {
    assert cmds[..k + 1][1..] == cmds[1..][..k];
  }

  /** One call on a shell; the sequencing below is stated for any call that behaves like a guarded one. */
  type Call = (Subshell, string) -> Step<seq<string>>

  /** The guarded call, with command echoes on the given sink. */
  function Guarded(verboseEcho: bool): Call
  {
    (s: Subshell, c: string) => GuardedShellCall(s, c, verboseEcho)
  }

  /** What a guarded call does to the shell: the echo routing is kept, and the frame is written, or nothing; on success, the frame. */
  predicate CallStep(r: Step<seq<string>>, sh: Subshell, cmd: string)
  {
    && r.sh.echoTo == sh.echoTo && r.sh.verboseTo == sh.verboseTo
    && (r.sh.stdin == sh.stdin || r.sh.stdin == sh.stdin + Frame(cmd))
    && (r.result.Ok? ==> r.sh.stdin == sh.stdin + Frame(cmd))
  }

  ghost predicate Behaves(call: Call)
  {
    forall sh: Subshell, cmd: string :: CallStep(call(sh, cmd), sh, cmd)
  }

  /**
   * Calls of `cmds` in order, each on the shell the previous one left;
   * the first error propagates and nothing after it is sent.
   */
  function RunEach(call: Call, sh: Subshell, cmds: seq<string>): (r: Step<seq<seq<string>>>)
    ensures r.result.Ok? ==> |r.result.value| == |cmds|
    ensures Behaves(call) ==> r.sh.echoTo == sh.echoTo && r.sh.verboseTo == sh.verboseTo
    decreases |cmds|
  {
    if |cmds| == 0 then Step(sh, Ok([]))
    else
      var first := call(sh, cmds[0]);
      match first.result
      case Err(e) => Step(first.sh, Err(e))
      case Ok(lines) =>
        var rest := RunEach(call, first.sh, cmds[1..]);
        match rest.result
        case Err(e) => Step(rest.sh, Err(e))
        case Ok(outs) => Step(rest.sh, Ok([lines] + outs))
  }

  /** Guarded calls of `cmds` in order: the loop over a build's commands. */
  function RunAll(sh: Subshell, cmds: seq<string>, verboseEcho: bool): (r: Step<seq<seq<string>>>)
    ensures r.sh.echoTo == sh.echoTo && r.sh.verboseTo == sh.verboseTo
    ensures r.result.Ok? ==> |r.result.value| == |cmds|
  {
    GuardedBehaves(verboseEcho);
    RunEach(Guarded(verboseEcho), sh, cmds)
  }

  /** What one guarded call writes: its frame, or nothing when the shell is already closed. */
  lemma GuardedWrites(sh: Subshell, cmd: string, verboseEcho: bool)
    ensures var r := GuardedShellCall(sh, cmd, verboseEcho);
            && (r.sh.stdin == sh.stdin || r.sh.stdin == sh.stdin + Frame(cmd))
            && (r.result.Ok? ==> r.sh.stdin == sh.stdin + Frame(cmd) && r.sh.alive && sh.alive)
  {
  }

  lemma GuardedBehaves(verboseEcho: bool)
    ensures Behaves(Guarded(verboseEcho))
  {
    forall sh: Subshell, cmd: string
      ensures CallStep(Guarded(verboseEcho)(sh, cmd), sh, cmd)
    {
      GuardedWrites(sh, cmd, verboseEcho);
    }
  }

  lemma GuardedRepliesAll(verboseEcho: bool)
    ensures Replies(Guarded(verboseEcho))
  {
    forall sh: Subshell, cmd: string
      ensures CallReplies(Guarded(verboseEcho)(sh, cmd), sh)
    {
      GuardedReplies(sh, cmd, verboseEcho);
    }
  }

  /** The first `n` replies are all there and all end in status 0. */
  predicate AllSucceed(bs: seq<seq<string>>, n: nat)
  {
    n <= |bs| && forall i :: 0 <= i < n ==> Succeeded(bs[i])
  }

  /**
   * A sequence of calls against the replies pending on stdout: it succeeds
   * exactly when there are no commands, or the shell is alive and the next
   * replies, one per command, all end in status 0; the outputs are those
   * replies, in order, and they are consumed.
   */
  lemma {:induction false} RunEachReplies(call: Call, sh: Subshell, cmds: seq<string>)
    requires Replies(call)
    ensures var r := RunEach(call, sh, cmds);
            r.result.Ok? <==> |cmds| == 0 || (sh.alive && AllSucceed(Blocks(sh.stdout), |cmds|))
    ensures var r := RunEach(call, sh, cmds);
            r.result.Ok? ==>
              && |cmds| <= |Blocks(sh.stdout)|
              && r.result.value == Blocks(sh.stdout)[..|cmds|]
              && Blocks(r.sh.stdout) == Blocks(sh.stdout)[|cmds|..]
    decreases |cmds|
  {
    if |cmds| > 0 {
      var bs := Blocks(sh.stdout);
      var first := call(sh, cmds[0]);
      assert CallReplies(first, sh);
      AllSucceedCons(bs, |cmds|);
      if first.result.Ok? {
        var rest := RunEach(call, first.sh, cmds[1..]);
        RunEachReplies(call, first.sh, cmds[1..]);
        if rest.result.Ok? {
          RepliesStep(bs, first.result.value, |cmds|, rest.result.value);
          assert RunEach(call, sh, cmds) == Step(rest.sh, Ok([first.result.value] + rest.result.value));
        } else {
          assert RunEach(call, sh, cmds).result.Err?;
        }
      } else {
        assert RunEach(call, sh, cmds).result.Err?;
      }
    }
  }

  lemma RepliesStep(bs: seq<seq<string>>, head: seq<string>, n: nat, outs: seq<seq<string>>)
    requires n > 0 && |bs| > 0 && head == bs[0] && n - 1 <= |bs[1..]| && outs == bs[1..][..n - 1]
    ensures n <= |bs| && [head] + outs == bs[..n] && bs[1..][n - 1..] == bs[n..]
  {
  }

  lemma AllSucceedCons(bs: seq<seq<string>>, n: nat)
    requires n > 0
    ensures AllSucceed(bs, n) <==> |bs| > 0 && Succeeded(bs[0]) && AllSucceed(bs[1..], n - 1)
  {
    if |bs| > 0 && Succeeded(bs[0]) && AllSucceed(bs[1..], n - 1) {
      forall i | 0 < i < n
        ensures Succeeded(bs[i])
      {
        assert bs[i] == bs[1..][i - 1];
      }
    }
    if AllSucceed(bs, n) {
      forall i | 0 <= i < n - 1
        ensures Succeeded(bs[1..][i])
      {
        assert bs[1..][i] == bs[i + 1];
      }
    }
  }

  /** `RunAll` against the replies pending on stdout. */
  lemma RunAllReplies(sh: Subshell, cmds: seq<string>, verboseEcho: bool)
    ensures var r := RunAll(sh, cmds, verboseEcho);
            r.result.Ok? <==> |cmds| == 0 || (sh.alive && AllSucceed(Blocks(sh.stdout), |cmds|))
    ensures var r := RunAll(sh, cmds, verboseEcho);
            r.result.Ok? ==>
              && |cmds| <= |Blocks(sh.stdout)|
              && r.result.value == Blocks(sh.stdout)[..|cmds|]
              && Blocks(r.sh.stdout) == Blocks(sh.stdout)[|cmds|..]
  {
    GuardedRepliesAll(verboseEcho);
    RunEachReplies(Guarded(verboseEcho), sh, cmds);
  }

  /** A call whose result and resulting state depend only on the shell's state, not on its sinks. */
  ghost predicate Uniform(call: Call)
  {
    forall a: Subshell, b: Subshell, cmd: string :: SameState(a, b) ==>
      call(a, cmd).result == call(b, cmd).result && SameState(call(a, cmd).sh, call(b, cmd).sh)
  }

  lemma GuardedUniform(verboseEcho: bool)
    ensures Uniform(Guarded(verboseEcho))
  {
    forall a: Subshell, b: Subshell, cmd: string | SameState(a, b)
      ensures Guarded(verboseEcho)(a, cmd).result == Guarded(verboseEcho)(b, cmd).result
      ensures SameState(Guarded(verboseEcho)(a, cmd).sh, Guarded(verboseEcho)(b, cmd).sh)
    {
      GuardedSame(a, b, cmd, verboseEcho);
    }
  }

  lemma {:induction false} RunEachSame(call: Call, a: Subshell, b: Subshell, cmds: seq<string>)
    requires Uniform(call) && SameState(a, b)
    ensures RunEach(call, a, cmds).result == RunEach(call, b, cmds).result
    ensures SameState(RunEach(call, a, cmds).sh, RunEach(call, b, cmds).sh)
    decreases |cmds|
  {
    if |cmds| > 0 {
      var fa := call(a, cmds[0]);
      var fb := call(b, cmds[0]);
      assert fa.result == fb.result && SameState(fa.sh, fb.sh);
      if fa.result.Ok? {
        RunEachSame(call, fa.sh, fb.sh, cmds[1..]);
      }
    }
  }

  /** Running the same commands in two shells in the same state gives the same outputs and the same state. */
  lemma RunAllSame(a: Subshell, b: Subshell, cmds: seq<string>, verboseEcho: bool)
    requires SameState(a, b)
    ensures RunAll(a, cmds, verboseEcho).result == RunAll(b, cmds, verboseEcho).result
    ensures SameState(RunAll(a, cmds, verboseEcho).sh, RunAll(b, cmds, verboseEcho).sh)
  {
    GuardedUniform(verboseEcho);
    RunEachSame(Guarded(verboseEcho), a, b, cmds);
  }

  /** On success every command was written, framed, in order. */
  lemma {:induction false} RunEachSendsAll(call: Call, sh: Subshell, cmds: seq<string>)
    requires Behaves(call)
    ensures var r := RunEach(call, sh, cmds);
            r.result.Ok? ==> r.sh.stdin == sh.stdin + Concat(FramesOf(cmds))
    decreases |cmds|
  {
    if |cmds| > 0 {
      var first := call(sh, cmds[0]);
      assert CallStep(first, sh, cmds[0]);
      if first.result.Ok? {
        var rest := RunEach(call, first.sh, cmds[1..]);
        if rest.result.Ok? {
          RunEachSendsAll(call, first.sh, cmds[1..]);
          FramesOfCons(cmds);
          AppendAssoc(sh.stdin, Frame(cmds[0]), Concat(FramesOf(cmds[1..])));
        }
      }
    }
  }

  /** On success every guarded command was written, framed, in order. */
  lemma RunAllSendsAll(sh: Subshell, cmds: seq<string>, verboseEcho: bool)
    ensures var r := RunAll(sh, cmds, verboseEcho);
            r.result.Ok? ==> r.sh.stdin == sh.stdin + Concat(FramesOf(cmds))
  {
    GuardedBehaves(verboseEcho);
    RunEachSendsAll(Guarded(verboseEcho), sh, cmds);
  }

  lemma FramesOfCons(cmds: seq<string>)
    requires |cmds| > 0
    ensures Concat(FramesOf(cmds)) == Frame(cmds[0]) + Concat(FramesOf(cmds[1..]))
  {
    assert FramesOf(cmds)[1..] == FramesOf(cmds[1..]);
  }

  /** Frames written after the first command's, seen from before the first command. */
  lemma StdinAfterFirst(before: string, mid: string, after: string, cmds: seq<string>, k: nat)
    requires k + 1 < |cmds| && mid == before + Frame(cmds[0])
    requires after == mid + Concat(FramesOf(cmds[1..][..k])) || after == mid + Concat(FramesOf(cmds[1..][..k + 1]))
    ensures after == before + Concat(FramesOf(cmds[..k + 1])) || after == before + Concat(FramesOf(cmds[..k + 2]))
  {
    ConcatFramesCons(cmds, k);
    ConcatFramesCons(cmds, k + 1);
    var f0 := Frame(cmds[0]);
    AppendAssoc(before, f0, Concat(FramesOf(cmds[1..][..k])));
    AppendAssoc(before, f0, Concat(FramesOf(cmds[1..][..k + 1])));
  }

  /** How many leading commands of `cmds` succeed before the first failure. */
  function CompletedEach(call: Call, sh: Subshell, cmds: seq<string>): (n: nat)
    ensures n <= |cmds|
    decreases |cmds|
  {
    if |cmds| == 0 then 0
    else
      var first := call(sh, cmds[0]);
      if first.result.Err? then 0 else 1 + CompletedEach(call, first.sh, cmds[1..])
  }

  /** How many leading guarded commands succeed before the first failure. */
  function Completed(sh: Subshell, cmds: seq<string>, verboseEcho: bool): (n: nat)
    ensures n <= |cmds|
  {
    CompletedEach(Guarded(verboseEcho), sh, cmds)
  }

  /** A failure comes from one of the commands. */
  lemma {:induction false} RunEachFailureIndex(call: Call, sh: Subshell, cmds: seq<string>)
    ensures RunEach(call, sh, cmds).result.Err? ==> CompletedEach(call, sh, cmds) < |cmds|
    decreases |cmds|
  {
    if |cmds| > 0 {
      var first := call(sh, cmds[0]);
      if first.result.Ok? {
        RunEachFailureIndex(call, first.sh, cmds[1..]);
      }
    }
  }

  /** A failure of the guarded calls comes from one of the commands. */
  lemma RunAllFailureIndex(sh: Subshell, cmds: seq<string>, verboseEcho: bool)
    ensures RunAll(sh, cmds, verboseEcho).result.Err? ==> Completed(sh, cmds, verboseEcho) < |cmds|
  {
    RunEachFailureIndex(Guarded(verboseEcho), sh, cmds);
  }

  /**
   * On failure the commands before the failing one were all written, the
   * failing one too unless the shell was already closed, and none after it.
   */
  lemma {:induction false} RunEachStopsAtFailure(call: Call, sh: Subshell, cmds: seq<string>)
    requires Behaves(call)
    ensures var r := RunEach(call, sh, cmds);
            var n := CompletedEach(call, sh, cmds);
            r.result.Err? && n < |cmds| ==>
              (r.sh.stdin == sh.stdin + Concat(FramesOf(cmds[..n])) || r.sh.stdin == sh.stdin + Concat(FramesOf(cmds[..n + 1])))
    decreases |cmds|
  {
    if |cmds| > 0 {
      var first := call(sh, cmds[0]);
      assert CallStep(first, sh, cmds[0]);
      if first.result.Ok? {
        var rest := RunEach(call, first.sh, cmds[1..]);
        RunEachStopsAtFailure(call, first.sh, cmds[1..]);
        var k := CompletedEach(call, first.sh, cmds[1..]);
        assert CompletedEach(call, sh, cmds) == 1 + k;
        if rest.result.Err? && k < |cmds| - 1 {
          assert RunEach(call, sh, cmds) == Step(rest.sh, Err(rest.result.error));
          StdinAfterFirst(sh.stdin, first.sh.stdin, rest.sh.stdin, cmds, k);
        }
      } else {
        assert RunEach(call, sh, cmds) == Step(first.sh, Err(first.result.error));
        assert CompletedEach(call, sh, cmds) == 0;
        ConcatFramesCons(cmds, 0);
        assert cmds[..0] == [];
      }
    }
  }

  /** On failure of the guarded calls, the commands up to the failing one were written and none after it. */
  lemma RunAllStopsAtFailure(sh: Subshell, cmds: seq<string>, verboseEcho: bool)
    ensures var r := RunAll(sh, cmds, verboseEcho);
            var n := Completed(sh, cmds, verboseEcho);
            r.result.Err? && n < |cmds| ==>
              (r.sh.stdin == sh.stdin + Concat(FramesOf(cmds[..n])) || r.sh.stdin == sh.stdin + Concat(FramesOf(cmds[..n + 1])))
  {
    GuardedBehaves(verboseEcho);
    RunEachStopsAtFailure(Guarded(verboseEcho), sh, cmds);
  }

  /** `initiate_python_environment`. */
  function InitiatePythonEnvironment(sh: Subshell, sdk: Path): (r: Step<seq<seq<string>>>)
    ensures r.result.Ok? ==> r.sh.stdin == sh.stdin + Concat(FramesOf(PythonEnvCommands(sdk)))
  {
    RunAllSendsAll(sh, PythonEnvCommands(sdk), false);
    RunAll(sh, PythonEnvCommands(sdk), false)
  }
}

=== FILE: text.dfy ===
/**
 * String helpers with Python's semantics: `str.split(sep)`, `sep.join`,
 * `str.strip()`, `in` on strings, code-point ordering of `str` and decimal
 * integer text.
 */
module Text {
  import opened Wrappers

  /** `s.split(sep)` for a one-character separator: never empty, pieces hold no separator. */
  function Split(s: string, sep: char): (parts: seq<string>)
    ensures |parts| >= 1
    ensures forall i :: 0 <= i < |parts| ==> sep !in parts[i]
  {
    if |s| == 0 then [""]
    else
      var rest := Split(s[1..], sep);
      if s[0] == sep then [""] + rest
      else [[s[0]] + rest[0]] + rest[1..]
  }

  /** `sep.join(parts)`. */
  function JoinWith(parts: seq<string>, sep: string): string
  {
    if |parts| == 0 then ""
    else if |parts| == 1 then parts[0]
    else parts[0] + sep + JoinWith(parts[1..], sep)
  }

  /** `"".join(parts)`. */
  function Concat(parts: seq<string>): string
  {
    if |parts| == 0 then "" else parts[0] + Concat(parts[1..])
  }

  lemma JoinWithCons(parts: seq<string>, sep: string)
    requires |parts| >= 1
    ensures JoinWith(parts, sep) == parts[0] + (if |parts| == 1 then "" else sep + JoinWith(parts[1..], sep))
  {
  }

  /** Joining the pieces of a split with the same separator gives the string back. */
  lemma {:induction false} SplitJoin(s: string, sep: char)
    ensures JoinWith(Split(s, sep), [sep]) == s
  {
    if |s| == 0 {
    } else {
      var rest := Split(s[1..], sep);
      SplitJoin(s[1..], sep);
      if s[0] == sep {
        assert Split(s, sep) == [""] + rest;
        assert ([""] + rest)[1..] == rest;
        assert JoinWith([""] + rest, [sep]) == "" + [sep] + JoinWith(rest, [sep]);
        assert s == [s[0]] + s[1..];
      } else {
        var parts := [[s[0]] + rest[0]] + rest[1..];
        assert Split(s, sep) == parts;
        JoinWithCons(rest, [sep]);
        JoinWithCons(parts, [sep]);
        assert parts[1..] == rest[1..];
        assert s == [s[0]] + s[1..];
      }
    }
  }

  /** One step of `Split`: how the first character extends the pieces of the rest. */
  lemma SplitCons(c: char, t: string, sep: char)
    ensures c == sep ==> Split([c] + t, sep) == [""] + Split(t, sep)
    ensures c != sep ==> Split([c] + t, sep) == [[c] + Split(t, sep)[0]] + Split(t, sep)[1..]
  {
    assert ([c] + t)[1..] == t;
  }

  /** Splitting distributes over a separator placed between two strings. */
  lemma {:induction false} SplitAround(a: string, b: string, sep: char)
    ensures Split(a + [sep] + b, sep) == Split(a, sep) + Split(b, sep)
  {
    if |a| == 0 {
      assert a + [sep] + b == [sep] + b;
      SplitCons(sep, b, sep);
    } else {
      var t := a[1..];
      ConsAround(a, sep, b);
      SplitAround(t, b, sep);
      SplitCons(a[0], t + [sep] + b, sep);
      SplitCons(a[0], t, sep);
      var rt := Split(t, sep);
      var rb := Split(b, sep);
      if a[0] != sep {
        HeadAppend([a[0]] + rt[0], rt, rb);
      } else {
        assert [""] + (rt + rb) == [""] + rt + rb;
      }
    }
  }

  lemma ConsAround(a: string, sep: char, b: string)
    requires |a| > 0
    ensures a == [a[0]] + a[1..] && a + [sep] + b == [a[0]] + (a[1..] + [sep] + b)
  {
  }

  /** Replacing the head of `x`, then appending `y`, in either order. */
  lemma HeadAppend<T>(h: T, x: seq<T>, y: seq<T>)
    requires |x| > 0
    ensures (x + y)[0] == x[0] && [h] + (x + y)[1..] == [h] + x[1..] + y
  {
    assert (x + y)[1..] == x[1..] + y;
  }

  /** A string without the separator splits into itself alone. */
  lemma {:induction false} SplitNoSeparator(s: string, sep: char)
    requires sep !in s
    ensures Split(s, sep) == [s]
  {
    if |s| > 0 {
      SplitNoSeparator(s[1..], sep);
      SplitCons(s[0], s[1..], sep);
      assert s == [s[0]] + s[1..];
    }
  }

  /** Splitting a join of separator-free pieces recovers the pieces. */
  lemma {:induction false} JoinSplit(parts: seq<string>, sep: char)
    requires |parts| >= 1
    requires forall i :: 0 <= i < |parts| ==> sep !in parts[i]
    ensures Split(JoinWith(parts, [sep]), sep) == parts
  {
    if |parts| == 1 {
      SplitNoSeparator(parts[0], sep);
    } else {
      SplitNoSeparator(parts[0], sep);
      JoinSplit(parts[1..], sep);
      SplitAround(parts[0], JoinWith(parts[1..], [sep]), sep);
      assert JoinWith(parts, [sep]) == parts[0] + [sep] + JoinWith(parts[1..], [sep]);
      assert parts == [parts[0]] + parts[1..];
    }
  }

  /** The first piece of a split is a prefix of the string. */
  lemma {:induction false} SplitFirstPrefix(s: string, sep: char)
    ensures Split(s, sep)[0] <= s
  {
    if |s| > 0 && s[0] != sep {
      SplitFirstPrefix(s[1..], sep);
      assert s == [s[0]] + s[1..];
    }
  }

  lemma AppendAssoc(x: string, y: string, z: string)
    ensures x + (y + z) == (x + y) + z
  {
  }

  /** Python's `sub in s`. */
  predicate Contains(s: string, sub: string)
  {
    sub <= s || (|s| > 0 && Contains(s[1..], sub))
  }

  predicate EndsWith(s: string, suffix: string)
  {
    |suffix| <= |s| && s[|s| - |suffix|..] == suffix
  }

  /** Characters for which Python's `str.isspace()` holds. */
  predicate IsSpace(c: char)
  {
    var n := c as int;
    n == 0x20 || (0x09 <= n <= 0x0D) || (0x1C <= n <= 0x1F) || n == 0x85 || n == 0xA0
    || n == 0x1680 || (0x2000 <= n <= 0x200A) || n == 0x2028 || n == 0x2029
    || n == 0x202F || n == 0x205F || n == 0x3000
  }

  function StripLeft(s: string): (r: string)
    ensures |r| <= |s|
    ensures |r| > 0 ==> !IsSpace(r[0])
    ensures forall k :: 0 <= k < |s| - |r| ==> IsSpace(s[k])
    ensures r == s[|s| - |r|..]
  {
    if |s| > 0 && IsSpace(s[0]) then StripLeft(s[1..]) else s
  }

  function StripRight(s: string): (r: string)
    ensures |r| <= |s|
    ensures r == s[..|r|]
    ensures |r| > 0 ==> !IsSpace(r[|r| - 1])
    ensures forall k :: |r| <= k < |s| ==> IsSpace(s[k])
  {
    if |s| > 0 && IsSpace(s[|s| - 1]) then StripRight(s[..|s| - 1]) else s
  }

  /** `s.strip()`: the slice of `s` without leading and trailing whitespace. */
  function Strip(s: string): (r: string)
    ensures |r| > 0 ==> !IsSpace(r[0]) && !IsSpace(r[|r| - 1])
    ensures exists k {:trigger s[k..]} :: 0 <= k <= |s| && r <= s[k..]
  {
    var l := StripLeft(s);
    var r := StripRight(l);
    var k := |s| - |l|;
    assert l == s[k..];
    assert r <= s[k..];
    r
  }

  /** Python's `a <= b` on `str`: code-point lexicographic order. */
  predicate LexLe(a: string, b: string)
  {
    if |a| == 0 then true
    else if |b| == 0 then false
    else if a[0] != b[0] then a[0] < b[0]
    else LexLe(a[1..], b[1..])
  }

  lemma {:induction false} LexLeTotal(a: string, b: string)
    ensures LexLe(a, b) || LexLe(b, a)
  {
    if |a| > 0 && |b| > 0 && a[0] == b[0] {
      LexLeTotal(a[1..], b[1..]);
    }
  }

  lemma {:induction false} LexLeTransitive(a: string, b: string, c: string)
    requires LexLe(a, b) && LexLe(b, c)
    ensures LexLe(a, c)
  {
    if |a| > 0 && |b| > 0 && |c| > 0 && a[0] == b[0] && b[0] == c[0] {
      LexLeTransitive(a[1..], b[1..], c[1..]);
    }
  }

  lemma {:induction false} LexLeAntisymmetric(a: string, b: string)
    requires LexLe(a, b) && LexLe(b, a)
    ensures a == b
  {
    if |a| > 0 && |b| > 0 {
      LexLeAntisymmetric(a[1..], b[1..]);
      assert a == [a[0]] + a[1..];
      assert b == [b[0]] + b[1..];
    }
  }

  predicate IsDigit(c: char)
  {
    '0' <= c <= '9'
  }

  predicate AllDigits(s: string)
  {
    forall i :: 0 <= i < |s| ==> IsDigit(s[i])
  }

  /** The value of a decimal digit string, as Python's `int` reads it. */
  function DigitsValue(s: string): nat
    requires AllDigits(s)
  {
    if |s| == 0 then 0
    else DigitsValue(s[..|s| - 1]) * 10 + (s[|s| - 1] as int - '0' as int)
  }

  /** The decimal text of a natural number, as `str(n)` writes it. */
  function NatText(n: nat): (s: string)
    ensures |s| >= 1 && AllDigits(s)
  {
    var d := [('0' as int + n % 10) as char];
    if n < 10 then d else NatText(n / 10) + d
  }

  lemma {:induction false} NatTextValue(n: nat)
    ensures DigitsValue(NatText(n)) == n
  {
    var s := NatText(n);
    if n >= 10 {
      NatTextValue(n / 10);
      assert s[..|s| - 1] == NatText(n / 10);
    }
  }

  /** The decimal text of an integer, as `str(i)` writes it. */
  function IntText(i: int): string
  {
    if i < 0 then "-" + NatText(-i) else NatText(i)
  }

  /** `int(s)` restricted to the shape `-?[0-9]+`; `None` for any other text. */
  function ParseInt(s: string): Option<int>
  {
    if |s| >= 2 && s[0] == '-' && AllDigits(s[1..]) then Some(0 - DigitsValue(s[1..]) as int)
    else if |s| >= 1 && AllDigits(s) then Some(DigitsValue(s))
    else None
  }

  /** Reading back the text of an integer gives the integer. */
  lemma IntTextRoundTrip(i: int)
    ensures ParseInt(IntText(i)) == Some(i)
  {
    if i < 0 {
      NatTextValue(-i);
      assert IntText(i)[1..] == NatText(-i);
    } else {
      NatTextValue(i);
    }
  }
}

=== FILE: types.dfy ===
/**
 * The build's value types: where a package's source comes from and how its
 * URL and archive name are formed, the `github_source` constructor choice,
 * `SetupPyBuild.command`, the per-package paths and the global context's
 * two log writers.
 */
module BuildTypes {
  import opened Wrappers
  import opened Text
  import opened Paths

  /** The two ways a package is fetched from GitHub. */
  datatype Source =
    | ReleaseSDist(name: string, org: string, repo: string, tag: string, packageName: string)
    | Dev(name: string, org: string, repo: string, tag: string, sourcePath: Option<string>)

  const GithubRoot := "https://github.com/"

  /** `archive_name()`: the file name the download is saved under. */
  function ArchiveName(s: Source): string
  {
    match s
    case ReleaseSDist(_, _, _, _, packageName) => packageName
    case Dev(_, _, _, tag, _) => tag + ".zip"
  }

  /** `url()`: the release asset's address, or the tag's repository archive. */
  function Url(s: Source): (u: string)
    ensures GithubRoot <= u
  {
    var u := match s
      case ReleaseSDist(_, org, repo, tag, packageName) =>
        GithubRoot + org + "/" + repo + "/releases/download/" + tag + "/" + packageName
      case Dev(_, org, repo, tag, _) =>
        GithubRoot + org + "/" + repo + "/archive/refs/tags/" + tag + ".zip";
    assert u[..|GithubRoot|] == GithubRoot;
    u
  }

  lemma EndsWithAppend(x: string, y: string)
    ensures EndsWith(x + y, y)
  {
    assert (x + y)[|x + y| - |y|..] == y;
  }

  /** For both kinds the URL's last segment is the archive name the file is saved as. */
  lemma UrlEndsWithArchiveName(s: Source)
    ensures EndsWith(Url(s), "/" + ArchiveName(s))
  {
    var repoUrl := GithubRoot + s.org + "/" + s.repo;
    match s
    case ReleaseSDist(_, org, repo, tag, packageName) =>
      var x := repoUrl + "/releases/download/" + tag;
      assert Url(s) == x + "/" + packageName;
      AppendAssoc(x, "/", packageName);
      EndsWithAppend(x, "/" + packageName);
    case Dev(_, org, repo, tag, _) =>
      var y := repoUrl + "/archive/refs/tags";
      assert "/archive/refs/tags/" == "/archive/refs/tags" + "/";
      AppendAssoc(repoUrl, "/archive/refs/tags", "/");
      assert Url(s) == y + "/" + tag + ".zip";
      AppendAssoc(y + "/", tag, ".zip");
      AppendAssoc(y, "/", tag + ".zip");
      EndsWithAppend(y, "/" + (tag + ".zip"));
  }

  /** Python's truthiness of an optional string: `None` and `""` are false. */
  predicate Truthy(s: Option<string>)
  {
    s.Some? && s.value != ""
  }

  /**
   * `github_source`: a (truthy) sdist archive name selects the release
   * download, anything else the repository archive; the name falls back to
   * the repository.
   */
  function GithubSource(org: string, repo: string, tag: string, sdistArchive: Option<string>,
                        name: Option<string>, path: Option<string>): (s: Source)
    ensures s.ReleaseSDist? <==> Truthy(sdistArchive)
    ensures s.ReleaseSDist? ==> s.packageName == sdistArchive.value
    ensures s.Dev? ==> s.sourcePath == path
    ensures s.name == (if Truthy(name) then name.value else repo)
    ensures s.name != "" || repo == ""
    ensures s.org == org && s.repo == repo && s.tag == tag
  {
    var sourceName := if Truthy(name) then name.value else repo;
    if Truthy(sdistArchive) then ReleaseSDist(sourceName, org, repo, tag, sdistArchive.value)
    else Dev(sourceName, org, repo, tag, path)
  }

  /** A given `path` plays no part when an sdist archive is named. */
  lemma PathIgnoredForSDist(org: string, repo: string, tag: string, archive: string, name: Option<string>,
                            p1: Option<string>, p2: Option<string>)
    requires archive != ""
    ensures GithubSource(org, repo, tag, Some(archive), name, p1) == GithubSource(org, repo, tag, Some(archive), name, p2)
  {
  }

  /** `os.path.join(a, b)` for two pieces. */
  function OsPathJoin(a: string, b: string): (r: string)
    ensures |b| > 0 && b[0] == '/' ==> r == b
    ensures !(|b| > 0 && b[0] == '/') ==> a <= r && EndsWith(r, b)
  {
    if |b| > 0 && b[0] == '/' then b
    else if |a| == 0 || a[|a| - 1] == '/' then
      assert (a + b)[|a + b| - |b|..] == b;
      a + b
    else
      assert (a + "/" + b)[|a + "/" + b| - |b|..] == b;
      a + "/" + b
  }

  /** `SetupPyBuild.command`. */
  function SetupPyCommand(subcommand: string, pathToUnpacked: string): (argv: seq<string>)
    ensures |argv| == 3 && argv[0] == "python" && argv[2] == subcommand
  {
    ["python", OsPathJoin(pathToUnpacked, "setup.py"), subcommand]
  }

  /** Parsing a string that ends in a separator ignores the separator. */
  lemma ParseTrailingSlash(a: string)
    requires |a| > 0
    ensures Parse(a + "/") == Parse(a)
  {
    SplitAround(a, "", '/');
    assert a + "/" + "" == a + "/";
    assert Split("", '/') == [""];
    CleanAppend(Split(a, '/'), [""]);
    assert Clean([""]) == [];
    assert (a + "/")[0] == a[0];
  }

  /** The script `SetupPyBuild.command` names is `setup.py` inside the unpacked directory. */
  lemma SetupPyCommandPath(subcommand: string, pathToUnpacked: string)
    ensures Parse(SetupPyCommand(subcommand, pathToUnpacked)[1]) == Child(Parse(pathToUnpacked), "setup.py")
  {
    var a := pathToUnpacked;
    if |a| == 0 {
      ParseComponent("setup.py");
      assert OsPathJoin(a, "setup.py") == "setup.py";
    } else if a[|a| - 1] == '/' {
      SetupPathAfterSlash(a);
    } else {
      ParseComponent("setup.py");
      ParseJoinSlash(a);
    }
  }

  lemma SetupPathAfterSlash(a: string)
    requires |a| > 0 && a[|a| - 1] == '/'
    ensures Parse(a + "setup.py") == Child(Parse(a), "setup.py")
  {
    var a0 := a[..|a| - 1];
    assert a == a0 + "/";
    ParseComponent("setup.py");
    ParseJoinSlash(a0);
    assert a0 + "/" + "setup.py" == a + "setup.py";
    if |a0| == 0 {
      assert Split("/", '/') == ["", ""];
      assert Parse(a) == Path(true, []);
    } else {
      ParseTrailingSlash(a0);
    }
  }

  /** `Parse(a + "/" + "setup.py")` is `Parse(a)` with the component appended. */
  lemma ParseJoinSlash(a: string)
    ensures Parse(a + "/" + "setup.py") == Path(|a| == 0 || a[0] == '/', Parse(a).parts + ["setup.py"])
  {
    var s := a + "/" + "setup.py";
    SplitAround(a, "setup.py", '/');
    CleanAppend(Split(a, '/'), Split("setup.py", '/'));
    ParseComponent("setup.py");
    if |a| > 0 {
      assert s[0] == a[0];
    }
  }

  /** The directories of one package build. */
  datatype BuildPaths = BuildPaths(source: Path, build: Path, dist: Path)

  /**
   * `GlobalBuildContext`: the output stream (absent when `None`), whose text
   * so far is kept, the verbosity flag and the SDK path.
   */
  datatype Context = Context(output: Option<string>, verbose: bool, sdk: Path)

  /** `write`: one line to the output when there is one. */
  function Write(ctx: Context, line: string): (r: Context)
    ensures r.verbose == ctx.verbose && r.sdk == ctx.sdk
    ensures r.output.Some? <==> ctx.output.Some?
    ensures ctx.output.Some? ==> r.output.value == ctx.output.value + line + "\n"
  {
    match ctx.output
    case None => ctx
    case Some(text) => ctx.(output := Some(text + line + "\n"))
  }

  /** `write_verbose`: the same line, only in verbose mode. */
  function WriteVerbose(ctx: Context, line: string): (r: Context)
    ensures r.verbose == ctx.verbose && r.sdk == ctx.sdk
    ensures r.output.Some? <==> ctx.output.Some?
    ensures ctx.output.Some? && ctx.verbose ==> r.output.value == ctx.output.value + line + "\n"
    ensures !ctx.verbose ==> r == ctx
  {
    if !ctx.verbose then ctx else Write(ctx, line)
  }

  /** Whatever `write_verbose` emits, `write` emits too; without an output neither emits anything. */
  lemma VerboseImpliesWrite(ctx: Context, line: string)
    ensures WriteVerbose(ctx, line) != ctx ==> Write(ctx, line) == WriteVerbose(ctx, line)
    ensures ctx.output.None? ==> Write(ctx, line) == ctx && WriteVerbose(ctx, line) == ctx
  {
  }
}

=== FILE: urls.dfy ===
/**
 * `urllib.parse.urljoin` with the parsing it rests on (`urlsplit`,
 * `urlparse`, `urlunsplit`, `urlunparse`), as Python 3.12 writes them:
 * leading C0 controls and spaces are stripped and tabs and line breaks
 * removed, the scheme is recognised only before the first ":", a relative
 * reference is resolved only under the schemes of `uses_relative`, and the
 * merged path has its empty inner segments dropped and its dot segments
 * removed.
 */
module Urls {
  import opened Wrappers
  import opened Text

  /** `urllib.parse.uses_relative`: the schemes a relative reference is resolved under. */
  const UsesRelative: set<string> :=
    {"", "ftp", "http", "gopher", "nntp", "imap", "wais", "file", "https", "shttp", "mms",
     "prospero", "rtsp", "rtsps", "rtspu", "sftp", "svn", "svn+ssh", "ws", "wss"}

  /** `urllib.parse.uses_netloc`: the schemes whose URLs carry an authority. */
  const UsesNetloc: set<string> :=
    {"", "ftp", "http", "gopher", "nntp", "telnet", "imap", "wais", "file", "mms", "https",
     "shttp", "snews", "prospero", "rtsp", "rtsps", "rtspu", "rsync", "svn", "svn+ssh", "sftp",
     "nfs", "git", "git+ssh", "ws", "wss", "itms-services"}

  /** `urllib.parse.uses_params`: the schemes whose last path segment may carry `;params`. */
  const UsesParams: set<string> :=
    {"", "ftp", "hdl", "prospero", "http", "imap", "https", "shttp", "rtsp", "rtsps", "rtspu",
     "sip", "sips", "mms", "sftp", "tel"}

  /** The ValueError `urlsplit` raises for an authority with one kind of square bracket only. */
  datatype UrlError = InvalidIPv6

  /** A URL taken apart as `urlparse` does; `urlsplit` leaves `params` empty. */
  datatype Parts = Parts(scheme: string, netloc: string, path: string, params: string, query: string, fragment: string)

  /** `_WHATWG_C0_CONTROL_OR_SPACE`: U+0000 through U+0020. */
  predicate C0OrSpace(c: char)
  {
    c <= ' '
  }

  /** `_UNSAFE_URL_BYTES_TO_REMOVE`. */
  predicate Unsafe(c: char)
  {
    c == '\t' || c == '\r' || c == '\n'
  }

  predicate AsciiLetter(c: char)
  {
    ('a' <= c <= 'z') || ('A' <= c <= 'Z')
  }

  /** `urllib.parse.scheme_chars`. */
  predicate SchemeChar(c: char)
  {
    AsciiLetter(c) || ('0' <= c <= '9') || c == '+' || c == '-' || c == '.'
  }

  /** `s.lstrip(_WHATWG_C0_CONTROL_OR_SPACE)`. */
  function LStripC0(s: string): (r: string)
    ensures |r| <= |s| && r == s[|s| - |r|..]
    ensures forall i :: 0 <= i < |s| - |r| ==> C0OrSpace(s[i])
    ensures |r| > 0 ==> !C0OrSpace(r[0])
  {
    if |s| > 0 && C0OrSpace(s[0]) then LStripC0(s[1..]) else s
  }

  /** Removing each of `_UNSAFE_URL_BYTES_TO_REMOVE` with `str.replace`. */
  function RemoveUnsafe(s: string): (r: string)
    ensures |r| <= |s|
    ensures forall c :: c in r <==> c in s && !Unsafe(c)
  {
    if |s| == 0 then ""
    else
      var rest := RemoveUnsafe(s[1..]);
      assert forall c :: c in s <==> c == s[0] || c in s[1..] by {
        assert s == [s[0]] + s[1..];
      }
      if Unsafe(s[0]) then rest else [s[0]] + rest
  }

  lemma {:induction false} RemoveUnsafeNone(s: string)
    requires forall c :: c in s ==> !Unsafe(c)
    ensures RemoveUnsafe(s) == s
  {
    if |s| > 0 {
      assert s[0] in s;
      assert forall c :: c in s[1..] ==> c in s;
      RemoveUnsafeNone(s[1..]);
    }
  }

  /** The index of the first character of `s` in `stops`, or `|s|` when there is none. */
  function FirstOf(s: string, stops: set<char>): (n: nat)
    ensures n <= |s|
    ensures forall i :: 0 <= i < n ==> s[i] !in stops
    ensures n < |s| ==> s[n] in stops
  {
    if |s| == 0 || s[0] in stops then 0 else 1 + FirstOf(s[1..], stops)
  }

  /** The text before the first `stop`, and the text after it, if there is one: `s.split(stop, 1)`. */
  function SplitOnce(s: string, stop: char): (r: (string, Option<string>))
    ensures stop !in r.0
    ensures r.1.None? ==> r.0 == s
    ensures r.1.Some? ==> s == r.0 + [stop] + r.1.value
  {
    var n := FirstOf(s, {stop});
    if n == |s| then (s, None)
    else
      assert s == s[..n] + [stop] + s[n + 1..];
      (s[..n], Some(s[n + 1..]))
  }

  /** `str.lower()` on ASCII text. */
  function LowerAscii(s: string): (r: string)
    ensures |r| == |s|
    ensures forall i :: 0 <= i < |s| ==> if 'A' <= s[i] <= 'Z' then r[i] as int == s[i] as int + 32 else r[i] == s[i]
  {
    if |s| == 0 then ""
    else
      var c := s[0];
      [if 'A' <= c <= 'Z' then (c as int + 32) as char else c] + LowerAscii(s[1..])
  }

  /** Where `urlsplit` takes the scheme to end: the first ":", when what precedes it starts with a letter and is all scheme characters. */
  function SchemeEnd(url: string): (r: Option<nat>)
    ensures r.Some? <==> (var n := FirstOf(url, {':'});
                          0 < n < |url| && AsciiLetter(url[0]) && forall i :: 0 <= i < n ==> SchemeChar(url[i]))
    ensures r.Some? ==> r.value == FirstOf(url, {':'})
  {
    var n := FirstOf(url, {':'});
    if 0 < n < |url| && AsciiLetter(url[0]) && forall i :: 0 <= i < n ==> SchemeChar(url[i]) then Some(n)
    else None
  }

  /** The URL text `urlsplit` reads: leading C0 controls and spaces stripped, tabs and line breaks removed. */
  function Clean(url: string): string
  {
    RemoveUnsafe(LStripC0(url))
  }

  /** What follows "//", up to the first "/", "?" or "#", and the rest; no authority when the text does not start with "//". */
  function SplitAuthority(s: string): (r: (string, string))
    ensures forall c :: c in r.0 ==> c != '/' && c != '?' && c != '#'
    ensures r.0 == "" || s == "//" + r.0 + r.1
  {
    if |s| >= 2 && s[..2] == "//" then
      var n := 2 + FirstOf(s[2..], {'/', '?', '#'});
      assert s == "//" + s[2..n] + s[n..];
      (s[2..n], s[n..])
    else ("", s)
  }

  /** The authority check of `urlsplit`: a "[" without a "]", or a "]" without a "[". */
  predicate BracketMismatch(netloc: string)
  {
    ('[' in netloc) != (']' in netloc)
  }

  /**
   * `urlsplit(url, scheme)`: the scheme before the first ":" (lower-cased)
   * or the default; then an authority after "//" up to the first "/", "?"
   * or "#"; then the fragment after the first "#" and the query after the
   * first "?" of what remains.
   */
  function UrlSplit(url: string, defaultScheme: string): (r: Result<Parts, UrlError>)
    ensures r.Err? <==> BracketMismatch(SplitAuthority(SplitScheme(Clean(url), defaultScheme).1).0)
    ensures r.Ok? ==> r.value.params == "" && r.value.netloc == SplitAuthority(SplitScheme(Clean(url), defaultScheme).1).0
    ensures r.Ok? ==> '?' !in r.value.path && '#' !in r.value.path && '#' !in r.value.query
  {
    var (scheme, afterScheme) := SplitScheme(Clean(url), defaultScheme);
    var (netloc, rest) := SplitAuthority(afterScheme);
    if BracketMismatch(netloc) then Err(InvalidIPv6)
    else
      var (beforeFragment, fragment) := SplitOnce(rest, '#');
      var (path, query) := SplitOnce(beforeFragment, '?');
      assert '#' !in path by {
        assert beforeFragment == path || beforeFragment == path + ['?'] + query.value;
      }
      Ok(Parts(scheme, netloc, path, "", query.GetOr(""), fragment.GetOr("")))
  }

  /** The scheme and the text after it, or the default scheme and the whole text. */
  function SplitScheme(url: string, defaultScheme: string): (string, string)
  {
    match SchemeEnd(url)
    case Some(n) => (LowerAscii(url[..n]), url[n + 1..])
    case None => (defaultScheme, url)
  }

  /** `_splitparams`: the parameters after the ";" in the last path segment, or after the first ";" when there is no "/". */
  function SplitParams(path: string): (r: (string, string))
    ensures r.0 <= path
  {
    if '/' in path then
      var last := LastIndex(path, '/');
      var k := FirstOf(path[last..], {';'});
      if last + k == |path| then (path, "") else (path[..last + k], path[last + k + 1..])
    else
      var k := FirstOf(path, {';'});
      if k == |path| then (path, "")  // not reached: the caller checks for ";" first
      else (path[..k], path[k + 1..])
  }

  /** `s.rfind(c)`: the index of the last `c`, or -1. */
  function LastIndex(s: string, c: char): (n: int)
    ensures -1 <= n < |s|
    ensures n == -1 <==> c !in s
    ensures n >= 0 ==> s[n] == c
    ensures forall i :: n < i < |s| ==> s[i] != c
  {
    if |s| == 0 then -1
    else if s[|s| - 1] == c then |s| - 1
    else
      assert s == s[..|s| - 1] + [s[|s| - 1]];
      LastIndex(s[..|s| - 1], c)
  }

  /** `urlparse(url, scheme)`: `urlsplit`, then `;params` split off the path under the schemes that use them. */
  function UrlParse(url: string, defaultScheme: string): (r: Result<Parts, UrlError>)
    ensures r.Ok? <==> UrlSplit(url, defaultScheme).Ok?
    ensures r.Ok? ==> r.value.(path := "", params := "") == UrlSplit(url, defaultScheme).value.(path := "")
    ensures r.Ok? && ';' !in UrlSplit(url, defaultScheme).value.path ==> r.value == UrlSplit(url, defaultScheme).value
  {
    var s :- UrlSplit(url, defaultScheme);
    if s.scheme in UsesParams && ';' in s.path then
      var (path, params) := SplitParams(s.path);
      Ok(s.(path := path, params := params))
    else Ok(s)
  }

  /** `urlunsplit`: the parts put back together, with "//" before a non-empty authority. */
  function UrlUnsplit(p: Parts): (r: string)
    ensures p.query == "" && p.fragment == "" ==> EndsWith(r, p.path)
  {
    var url := AuthorityAndPath(p.scheme, p.netloc, p.path);
    var withScheme := if p.scheme != "" then p.scheme + ":" + url else url;
    EndsAfter(p.scheme + ":", url, p.path);
    var withQuery := if p.query != "" then withScheme + "?" + p.query else withScheme;
    if p.fragment != "" then withQuery + "#" + p.fragment else withQuery
  }

  /** The authority part of `urlunsplit`: "//" and the authority before the path when there is one, or when the scheme uses one and the path is empty or absolute. */
  function AuthorityAndPath(scheme: string, netloc: string, path: string): (r: string)
    ensures EndsWith(r, path)
  {
    if netloc != "" then
      if |path| > 0 && path[0] != '/' then
        EndsAfter("//" + netloc + "/", path, path);
        "//" + netloc + "/" + path
      else
        EndsAfter("//" + netloc, path, path);
        "//" + netloc + path
    else if |path| >= 2 && path[..2] == "//" then
      EndsAfter("//", path, path);
      "//" + path
    else if scheme != "" && scheme in UsesNetloc && (path == "" || path[0] == '/') then
      EndsAfter("//", path, path);
      "//" + path
    else
      EndsAfter("", path, path);
      path
  }

  /** Text put before a string keeps its ending. */
  lemma EndsAfter(a: string, b: string, suffix: string)
    requires EndsWith(b, suffix) || b == suffix
    ensures EndsWith(a + b, suffix)
  {
    assert (a + b)[|a + b| - |suffix|..] == b[|b| - |suffix|..];
  }

  /** `urlunparse`: the parameters joined back onto the path, then `urlunsplit`. */
  function UrlUnparse(p: Parts): (r: string)
    ensures p.params == "" ==> r == UrlUnsplit(p)
  {
    var path := if p.params != "" then p.path + ";" + p.params else p.path;
    UrlUnsplit(p.(path := path, params := ""))
  }

  /** The non-empty strings of `s`, in order: `filter(None, s)`. */
  function NonEmpty(s: seq<string>): (r: seq<string>)
    ensures forall x :: x in r <==> x in s && x != ""
    ensures |r| <= |s|
  {
    if |s| == 0 then []
    else
      var rest := NonEmpty(s[1..]);
      assert forall x :: x in s <==> x == s[0] || x in s[1..] by {
        assert s == [s[0]] + s[1..];
      }
      if s[0] == "" then rest else [s[0]] + rest
  }

  /** `segments[1:-1] = filter(None, segments[1:-1])`: empty segments dropped except at the two ends. */
  function DropInnerEmpty(s: seq<string>): (r: seq<string>)
    ensures |s| >= 2 ==> |r| >= 2 && r[0] == s[0] && r[|r| - 1] == s[|s| - 1]
    ensures |s| < 2 ==> r == s
  {
    if |s| < 2 then s else [s[0]] + NonEmpty(s[1..|s| - 1]) + [s[|s| - 1]]
  }

  /** The loop that removes dot segments: "." is skipped and ".." drops the last segment kept, if any. */
  function RemoveDots(s: seq<string>, kept: seq<string>): seq<string>
  {
    if |s| == 0 then kept
    else if s[0] == ".." then RemoveDots(s[1..], if |kept| > 0 then kept[..|kept| - 1] else [])
    else if s[0] == "." then RemoveDots(s[1..], kept)
    else RemoveDots(s[1..], kept + [s[0]])
  }

  /** The resolved segments: dot segments removed, and a trailing "/" kept when the last segment was a dot segment. */
  function ResolveSegments(s: seq<string>): seq<string>
  {
    RemoveDots(s, []) + (if |s| > 0 && (s[|s| - 1] == "." || s[|s| - 1] == "..") then [""] else [])
  }

  /** The directory segments of a base path: its "/"-separated pieces without the last one unless that one is empty. */
  function BaseDirectory(path: string): (r: seq<string>)
    ensures |r| <= |Split(path, '/')|
  {
    var parts := Split(path, '/');
    if parts[|parts| - 1] != "" then parts[..|parts| - 1] else parts
  }

  /**
   * `urljoin(base, url)`: a reference with another scheme, or under a
   * scheme outside `uses_relative`, is returned unchanged; one with an
   * authority replaces the base's; an empty path keeps the base's path;
   * an absolute path is used as it is; and a relative path is merged after
   * the base's directory, with inner empty segments dropped and dot
   * segments removed.
   */
  function UrlJoin(base: string, url: string): (r: Result<string, UrlError>)
    ensures base != "" && url != "" ==> (r.Err? <==> UrlParse(base, "").Err? || UrlParse(url, UrlParse(base, "").value.scheme).Err?)
    ensures (base != "" && url != "" && UrlParse(base, "").Ok? && UrlParse(url, UrlParse(base, "").value.scheme).Ok? &&
             UrlParse(base, "").value.scheme !in UsesRelative) ==> r == Ok(url)
  {
    if base == "" then Ok(url)
    else if url == "" then Ok(base)
    else
      var b :- UrlParse(base, "");
      var u :- UrlParse(url, b.scheme);
      if u.scheme != b.scheme || u.scheme !in UsesRelative then Ok(url)
      else if u.scheme in UsesNetloc && u.netloc != "" then Ok(UrlUnparse(u))
      else
        var netloc := if u.scheme in UsesNetloc then b.netloc else u.netloc;
        if u.path == "" && u.params == "" then
          Ok(UrlUnparse(Parts(u.scheme, netloc, b.path, b.params, if u.query == "" then b.query else u.query, u.fragment)))
        else
          var segments :=
            if |u.path| > 0 && u.path[0] == '/' then Split(u.path, '/')
            else DropInnerEmpty(BaseDirectory(b.path) + Split(u.path, '/'));
          var resolved := JoinWith(ResolveSegments(segments), "/");
          Ok(UrlUnparse(Parts(u.scheme, netloc, if resolved == "" then "/" else resolved, u.params, u.query, u.fragment)))
  }

  lemma FirstOfAbsent(s: string, stops: set<char>)
    requires forall i :: 0 <= i < |s| ==> s[i] !in stops
    ensures FirstOf(s, stops) == |s|
  {
  }

  lemma FirstOfAt(a: string, c: char, b: string, stops: set<char>)
    requires forall i :: 0 <= i < |a| ==> a[i] !in stops
    requires c in stops
    ensures FirstOf(a + [c] + b, stops) == |a|
  {
    var s := a + [c] + b;
    assert s[|a|] == c;
  }

  lemma {:induction false} NonEmptyAppend(a: seq<string>, b: seq<string>)
    ensures NonEmpty(a + b) == NonEmpty(a) + NonEmpty(b)
  {
    if |a| > 0 {
      assert (a + b)[1..] == a[1..] + b;
      NonEmptyAppend(a[1..], b);
    } else {
      assert a + b == b;
    }
  }

  lemma {:induction false} NonEmptyKeeps(a: seq<string>)
    requires forall i :: 0 <= i < |a| ==> a[i] != ""
    ensures NonEmpty(a) == a
  {
    if |a| > 0 {
      NonEmptyKeeps(a[1..]);
    }
  }

  predicate DotSegment(x: string)
  {
    x == "." || x == ".."
  }

  lemma {:induction false} RemoveDotsAppend(a: seq<string>, b: seq<string>, kept: seq<string>)
    ensures RemoveDots(a + b, kept) == RemoveDots(b, RemoveDots(a, kept))
  {
    if |a| > 0 {
      assert (a + b)[0] == a[0] && (a + b)[1..] == a[1..] + b;
      if a[0] == ".." {
        RemoveDotsAppend(a[1..], b, if |kept| > 0 then kept[..|kept| - 1] else []);
      } else if a[0] == "." {
        RemoveDotsAppend(a[1..], b, kept);
      } else {
        RemoveDotsAppend(a[1..], b, kept + [a[0]]);
      }
    } else {
      assert a + b == b;
    }
  }

  /** Without dot segments nothing is removed. */
  lemma {:induction false} RemoveDotsPlain(s: seq<string>, kept: seq<string>)
    requires forall i :: 0 <= i < |s| ==> !DotSegment(s[i])
    ensures RemoveDots(s, kept) == kept + s
  {
    if |s| > 0 {
      RemoveDotsPlain(s[1..], kept + [s[0]]);
      assert kept + [s[0]] + s[1..] == kept + s;
    }
  }

  lemma {:induction false} JoinWithAppend(a: seq<string>, b: seq<string>, sep: string)
    requires |a| > 0 && |b| > 0
    ensures JoinWith(a + b, sep) == JoinWith(a, sep) + sep + JoinWith(b, sep)
  {
    if |a| == 1 {
      assert (a + b)[1..] == b;
    } else {
      assert (a + b)[1..] == a[1..] + b;
      JoinWithAppend(a[1..], b, sep);
    }
  }

  lemma SimpleJoined()
    ensures JoinWith(["simple", ""], "/") == "simple/"
  {
  }

  lemma SimpleClean()
    ensures Clean("simple/") == "simple/"
  {
    assert LStripC0("simple/") == "simple/";
    assert forall c :: c in "simple/" ==> !Unsafe(c);
    RemoveUnsafeNone("simple/");
  }

  lemma SimpleSplit()
    ensures Split("simple/", '/') == ["simple", ""]
  {
    SimpleJoined();
    JoinSplit(["simple", ""], '/');
  }

  lemma SplitOnceAbsent(s: string, stop: char)
    requires stop !in s
    ensures SplitOnce(s, stop) == (s, None)
  {
    FirstOfAbsent(s, {stop});
  }

  lemma SimpleNoScheme(scheme: string)
    ensures SplitScheme(Clean("simple/"), scheme) == (scheme, "simple/")
  {
    SimpleClean();
    SimpleSchemeEnd();
  }

  lemma SimpleSchemeEnd()
    ensures SchemeEnd("simple/") == None
  {
    FirstOfAbsent("simple/", {':'});
  }

  lemma SimpleNoAuthority()
    ensures SplitAuthority("simple/") == ("", "simple/")
  {
    assert "simple/"[..2][0] == 's';
  }

  /** A text with no scheme, no authority, no query and no fragment is all path. */
  lemma SplitPlainPath(url: string, scheme: string)
    requires SplitScheme(Clean(url), scheme) == (scheme, url) && SplitAuthority(url) == ("", url)
    requires '#' !in url && '?' !in url
    ensures UrlSplit(url, scheme) == Ok(Parts(scheme, "", url, "", "", ""))
    ensures ';' !in url ==> UrlParse(url, scheme) == Ok(Parts(scheme, "", url, "", "", ""))
  {
    SplitOnceAbsent(url, '#');
    SplitOnceAbsent(url, '?');
  }

  /** The reference "simple/" is a relative path under whatever scheme it inherits. */
  lemma SimpleReference(scheme: string)
    ensures UrlParse("simple/", scheme) == Ok(Parts(scheme, "", "simple/", "", "", ""))
  {
    SimpleNoScheme(scheme);
    SimpleNoAuthority();
    SimpleChars();
    SplitPlainPath("simple/", scheme);
  }

  lemma SimpleChars()
    ensures '#' !in "simple/" && '?' !in "simple/" && ';' !in "simple/"
  {
  }

  lemma RelativeHasNetloc(scheme: string)
    requires scheme in UsesRelative
    ensures scheme in UsesNetloc
  {
  }

  /** The path `urljoin(base, "simple/")` resolves to, given the base's path. */
  function SimplePath(basePath: string): string
  {
    var resolved := JoinWith(ResolveSegments(DropInnerEmpty(BaseDirectory(basePath) + ["simple", ""])), "/");
    if resolved == "" then "/" else resolved
  }

  /** Under a scheme that resolves relative references, "simple/" keeps the base's scheme and authority and takes `SimplePath`. */
  lemma JoinSimple(base: string, b: Parts)
    requires base != "" && UrlParse(base, "") == Ok(b) && b.scheme in UsesRelative
    ensures UrlJoin(base, "simple/") == Ok(UrlUnsplit(Parts(b.scheme, b.netloc, SimplePath(b.path), "", "", "")))
  {
    SimpleReference(b.scheme);
    SimpleSplit();
    RelativeHasNetloc(b.scheme);
    var u := Parts(b.scheme, "", "simple/", "", "", "");
    var segments := DropInnerEmpty(BaseDirectory(b.path) + Split(u.path, '/'));
    var resolved := JoinWith(ResolveSegments(segments), "/");
    var p := Parts(u.scheme, b.netloc, if resolved == "" then "/" else resolved, u.params, u.query, u.fragment);
    assert p == Parts(b.scheme, b.netloc, SimplePath(b.path), "", "", "");
    assert UrlJoin(base, "simple/") == Ok(UrlUnparse(p));
  }

  /** The resolved segments of a directory followed by "simple/": the kept directory segments, then "simple" and "". */
  lemma {:induction false} SimpleSegments(dir: seq<string>)
    ensures var segments := DropInnerEmpty(dir + ["simple", ""]);
            |dir| == 0 ==> segments == ["simple", ""]
    ensures var segments := DropInnerEmpty(dir + ["simple", ""]);
            |dir| > 0 ==> segments == [dir[0]] + NonEmpty(dir[1..]) + ["simple", ""]
  {
    var s := dir + ["simple", ""];
    if |dir| == 0 {
      assert s[1..|s| - 1] == [];
    } else {
      assert s[1..|s| - 1] == dir[1..] + ["simple"];
      NonEmptyAppend(dir[1..], ["simple"]);
      assert NonEmpty(["simple"]) == ["simple"];
    }
  }

  /** Whatever the base's path, the resolved path ends in "simple/". */
  lemma SimplePathEnds(basePath: string)
    ensures EndsWith(SimplePath(basePath), "simple/")
  {
    var dir := BaseDirectory(basePath);
    SimpleSegments(dir);
    var y := if |dir| == 0 then [] else [dir[0]] + NonEmpty(dir[1..]);
    assert DropInnerEmpty(dir + ["simple", ""]) == y + ["simple", ""];
    RemoveDotsAppend(y, ["simple", ""], []);
    RemoveDotsPlain(["simple", ""], RemoveDots(y, []));
    var z := RemoveDots(y, []);
    assert ResolveSegments(y + ["simple", ""]) == z + ["simple", ""];
    assert JoinWith(["simple", ""], "/") == "simple/";
    if |z| > 0 {
      JoinWithAppend(z, ["simple", ""], "/");
    } else {
      assert z + ["simple", ""] == ["simple", ""];
    }
  }

  /** Every `urljoin(base, "simple/")` of a non-empty base fails exactly when the base does not parse, and ends in "simple/". */
  lemma JoinSimpleFacts(base: string)
    requires base != ""
    ensures var r := UrlJoin(base, "simple/");
            r.Err? <==> UrlParse(base, "").Err?
    ensures var r := UrlJoin(base, "simple/");
            r.Ok? ==> EndsWith(r.value, "simple/")
    ensures var r := UrlJoin(base, "simple/");
            r.Ok? && UrlParse(base, "").value.scheme !in UsesRelative ==> r.value == "simple/"
  {
    if UrlParse(base, "").Ok? {
      var b := UrlParse(base, "").value;
      SimpleReference(b.scheme);
      if b.scheme in UsesRelative {
        JoinSimple(base, b);
        SimplePathEnds(b.path);
        UnsplitEndsSimple(b.scheme, b.netloc, SimplePath(b.path));
      }
    }
  }

  /** Put back together with no query or fragment, a path that ends in "simple/" still ends the URL. */
  lemma UnsplitEndsSimple(scheme: string, netloc: string, q: string)
    ensures EndsWith(q, "simple/") ==> EndsWith(UrlUnsplit(Parts(scheme, netloc, q, "", "", "")), "simple/")
  {
    if EndsWith(q, "simple/") {
      assert EndsWith(q, "/") by {
        assert q[|q| - 1..] == q[|q| - 7..][6..];
      }
      var r := UrlUnsplit(Parts(scheme, netloc, q, "", "", ""));
      assert EndsWith(r, q);
      assert r[|r| - 7..] == r[|r| - |q|..][|q| - 7..];
    }
  }

  /** Each piece followed by "/": `"a/b/"` for `["a", "b"]`. */
  function DirText(segs: seq<string>): string
  {
    JoinWith(segs + [""], "/")
  }

  /** A join avoids every character its pieces and its separator avoid. */
  lemma {:induction false} JoinWithAvoids(parts: seq<string>, sep: string, bad: set<char>)
    requires forall c :: c in sep ==> c !in bad
    requires forall i, c :: 0 <= i < |parts| && c in parts[i] ==> c !in bad
    ensures forall c :: c in JoinWith(parts, sep) ==> c !in bad
  {
    if |parts| > 1 {
      JoinWithAvoids(parts[1..], sep, bad);
      assert JoinWith(parts, sep) == parts[0] + sep + JoinWith(parts[1..], sep);
    }
  }

  /** The pieces of a directory text: the segments and a final empty piece. */
  lemma DirTextSplit(segs: seq<string>)
    requires forall i :: 0 <= i < |segs| ==> '/' !in segs[i]
    ensures Split(DirText(segs), '/') == segs + [""]
    ensures JoinWith([""] + segs + [""], "/") == "/" + DirText(segs)
    ensures Split("/" + DirText(segs), '/') == [""] + segs + [""]
  {
    DirTextPieces(segs);
    RootedDirText(segs);
    RootedDirTextPieces(segs);
  }

  lemma DirTextPieces(segs: seq<string>)
    requires forall i :: 0 <= i < |segs| ==> '/' !in segs[i]
    ensures Split(DirText(segs), '/') == segs + [""]
  {
    JoinSplit(segs + [""], '/');
  }

  lemma RootedDirText(segs: seq<string>)
    ensures JoinWith([""] + segs + [""], "/") == "/" + DirText(segs)
  {
    var parts := [""] + segs + [""];
    assert parts[1..] == segs + [""];
    JoinWithCons(parts, "/");
  }

  lemma RootedDirTextPieces(segs: seq<string>)
    requires forall i :: 0 <= i < |segs| ==> '/' !in segs[i]
    ensures Split("/" + DirText(segs), '/') == [""] + segs + [""]
  {
    var parts := [""] + segs + [""];
    RootedDirText(segs);
    assert forall i :: 0 <= i < |parts| ==> '/' !in parts[i] by {
      assert forall i :: 1 <= i < |parts| - 1 ==> parts[i] == segs[i - 1];
    }
    JoinSplit(parts, '/');
  }

  lemma DirTextOfSome(segs: seq<string>)
    requires |segs| > 0
    ensures DirText(segs) == JoinWith(segs, "/") + "/"
  {
    JoinWithAppend(segs, [""], "/");
  }

  predicate PlainSegments(segs: seq<string>)
  {
    forall i :: 0 <= i < |segs| ==> '/' !in segs[i] && !DotSegment(segs[i])
  }

  lemma NonEmptyPlain(segs: seq<string>)
    requires PlainSegments(segs)
    ensures PlainSegments(NonEmpty(segs))
    ensures forall i :: 0 <= i < |NonEmpty(segs)| ==> NonEmpty(segs)[i] != ""
  {
    var n := NonEmpty(segs);
    forall i | 0 <= i < |n|
      ensures '/' !in n[i] && !DotSegment(n[i]) && n[i] != ""
    {
      assert n[i] in n;
      var j :| 0 <= j < |segs| && segs[j] == n[i];
    }
  }

  lemma SimpleNotDot()
    ensures !DotSegment("simple") && !DotSegment("")
  {
  }

  /** Resolving plain segments that end in "simple" and "" changes nothing. */
  lemma ResolvedSimple(front: seq<string>)
    requires PlainSegments(front)
    ensures ResolveSegments(front + ["simple", ""]) == front + ["simple", ""]
  {
    var s := front + ["simple", ""];
    SimpleNotDot();
    forall i | 0 <= i < |s|
      ensures !DotSegment(s[i])
    {
      if i < |front| {
        assert s[i] == front[i];
      } else if i == |front| {
        assert s[i] == "simple";
      } else {
        assert s[i] == "";
      }
    }
    RemoveDotsPlain(s, []);
    assert [] + s == s;
    assert s[|s| - 1] == "";
  }

  lemma JoinSimpleTail(front: seq<string>)
    ensures JoinWith(front + ["simple", ""], "/") ==
            (if |front| == 0 then "simple/" else JoinWith(front, "/") + "/" + "simple/")
  {
    SimpleJoined();
    if |front| > 0 {
      JoinWithAppend(front, ["simple", ""], "/");
    } else {
      assert front + ["simple", ""] == ["simple", ""];
    }
  }

  /** A joined list of resolved segments that ends in "simple" and "". */
  lemma JoinedSimple(front: seq<string>)
    requires PlainSegments(front)
    ensures JoinWith(ResolveSegments(front + ["simple", ""]), "/") ==
            (if |front| == 0 then "simple/" else JoinWith(front, "/") + "/" + "simple/")
  {
    ResolvedSimple(front);
    JoinSimpleTail(front);
  }

  lemma BaseOfDirectory(segs: seq<string>)
    requires PlainSegments(segs)
    ensures BaseDirectory("/" + DirText(segs)) == [""] + segs + [""]
  {
    DirTextSplit(segs);
  }

  lemma BaseOfRelative(segs: seq<string>)
    requires PlainSegments(segs)
    ensures BaseDirectory(DirText(segs)) == segs + [""]
  {
    DirTextSplit(segs);
  }

  /** Merging "simple/" after a directory keeps its first segment and drops its empty inner ones. */
  lemma DropAfterDirectory(first: string, segs: seq<string>)
    ensures DropInnerEmpty([first] + segs + [""] + ["simple", ""]) == [first] + NonEmpty(segs) + ["simple", ""]
  {
    var dir := [first] + segs + [""];
    SimpleSegments(dir);
    assert dir[0] == first;
    assert dir[1..] == segs + [""];
    NonEmptyAppend(segs, [""]);
    assert NonEmpty([""]) == [];
    assert NonEmpty(segs) + [] == NonEmpty(segs);
  }

  lemma JoinDirectory(front: seq<string>)
    requires |front| > 0
    ensures JoinWith(front, "/") + "/" + "simple/" == JoinWith(front + [""], "/") + "simple/"
  {
    var j := JoinWith(front, "/");
    JoinWithAppend(front, [""], "/");
    assert JoinWith([""], "/") == "";
    assert j + "/" + "" == j + "/";
  }

  /** Once the merged segments are known, the resolved path is their directory text followed by "simple/". */
  lemma SimplePathFrom(basePath: string, front: seq<string>)
    requires PlainSegments(front) && |front| > 0
    requires DropInnerEmpty(BaseDirectory(basePath) + ["simple", ""]) == front + ["simple", ""]
    ensures SimplePath(basePath) == DirText(front) + "simple/"
  {
    JoinedSimple(front);
    JoinDirectory(front);
  }

  /** The non-empty segments of a list whose first segment is not empty start with it. */
  lemma NonEmptyHead(segs: seq<string>)
    requires |segs| > 0 && segs[0] != ""
    ensures NonEmpty(segs) == [segs[0]] + NonEmpty(segs[1..])
  {
  }

  lemma RootedPlain(n: seq<string>)
    requires PlainSegments(n)
    ensures PlainSegments([""] + n)
  {
    assert forall i :: 1 <= i < |[""] + n| ==> ([""] + n)[i] == n[i - 1];
  }

  /** Below an absolute directory, "simple/" lands in that directory with its empty segments dropped. */
  lemma SimplePathUnderDirectory(segs: seq<string>)
    requires PlainSegments(segs)
    ensures SimplePath("/" + DirText(segs)) == "/" + DirText(NonEmpty(segs)) + "simple/"
  {
    var n := NonEmpty(segs);
    BaseOfDirectory(segs);
    DropAfterDirectory("", segs);
    NonEmptyPlain(segs);
    RootedPlain(n);
    SimplePathFrom("/" + DirText(segs), [""] + n);
    RootedDirText(n);
  }

  /** Below a relative directory whose first segment is not empty, the same. */
  lemma SimplePathUnderRelative(segs: seq<string>)
    requires PlainSegments(segs) && |segs| > 0 && segs[0] != ""
    ensures SimplePath(DirText(segs)) == DirText(NonEmpty(segs)) + "simple/"
  {
    BaseOfRelative(segs);
    DropAfterDirectory(segs[0], segs[1..]);
    assert [segs[0]] + segs[1..] == segs;
    NonEmptyHead(segs);
    NonEmptyPlain(segs);
    SimplePathFrom(DirText(segs), NonEmpty(segs));
  }

  /** What a plain path segment leaves out: query, fragment and parameter separators, tabs and line breaks. */
  const PathStops: set<char> := {'?', '#', ';', '\t', '\r', '\n'}

  /** What a plain authority leaves out: the separators that end it, square brackets, tabs and line breaks. */
  const HostStops: set<char> := {'/', '?', '#', '[', ']', '\t', '\r', '\n'}

  /** What a segment of a base with no scheme leaves out: ":" as well as `PathStops`. */
  const NameStops: set<char> := {':', '?', '#', ';', '\t', '\r', '\n'}

  /** What the rest of a URL leaves out for its authority to pass the bracket check and its text to be read as written. */
  const BracketStops: set<char> := {'[', ']', '\t', '\r', '\n'}

  /** No character of `s` is in `bad`. */
  predicate Avoids(s: string, bad: set<char>)
  {
    forall c :: c in s ==> c !in bad
  }

  /** A scheme `urlsplit` recognises: a letter, then letters, digits, "+", "-" or ".". */
  predicate SchemeText(scheme: string)
  {
    |scheme| > 0 && AsciiLetter(scheme[0]) && forall i :: 0 <= i < |scheme| ==> SchemeChar(scheme[i])
  }

  /** A scheme `urlsplit` recognises and keeps as written: no capitals. */
  predicate LowerScheme(scheme: string)
  {
    SchemeText(scheme) && forall i :: 0 <= i < |scheme| ==> !('A' <= scheme[i] <= 'Z')
  }

  /** A text that starts with neither a control character nor a space, and holds no tab or line break, is read as written. */
  lemma CleanPlain(url: string)
    requires |url| > 0 ==> !C0OrSpace(url[0])
    requires Avoids(url, {'\t', '\r', '\n'})
    ensures Clean(url) == url
  {
    RemoveUnsafeNone(url);
  }

  /** The scheme ends at the first ":" when what precedes it is a scheme. */
  lemma SchemeAt(scheme: string, rest: string, defaultScheme: string)
    requires SchemeText(scheme)
    ensures SplitScheme(scheme + ":" + rest, defaultScheme) == (LowerAscii(scheme), rest)
  {
    var url := scheme + ":" + rest;
    SchemeEndAt(scheme, rest);
    assert url[..|scheme|] == scheme && url[|scheme| + 1..] == rest;
  }

  lemma SchemeEndAt(scheme: string, rest: string)
    requires SchemeText(scheme)
    ensures SchemeEnd(scheme + ":" + rest) == Some(|scheme|)
  {
    var url := scheme + ":" + rest;
    FirstOfAt(scheme, ':', rest, {':'});
    assert url[0] == scheme[0];
    assert forall i :: 0 <= i < |scheme| ==> url[i] == scheme[i];
  }

  lemma LowerAsciiLower(s: string)
    requires forall i :: 0 <= i < |s| ==> !('A' <= s[i] <= 'Z')
    ensures LowerAscii(s) == s
  {
  }

  /** After "//", the authority runs to the start of a path that is empty or starts with "/". */
  lemma AuthorityAt(host: string, path: string)
    requires Avoids(host, {'/', '?', '#'})
    requires path == "" || path[0] == '/'
    ensures SplitAuthority("//" + host + path) == (host, path)
  {
    var s := "//" + host + path;
    assert s[..2] == "//" && s[2..] == host + path;
    if path == "" {
      FirstOfAbsent(host + path, {'/', '?', '#'});
    } else {
      assert host + path == host + [path[0]] + path[1..];
      FirstOfAt(host, path[0], path[1..], {'/', '?', '#'});
    }
    assert s[2..2 + |host|] == host && s[2 + |host|..] == path;
  }

  /** `scheme://host/path` with no query, fragment or parameters parses into exactly those parts. */
  lemma ParseHierarchical(scheme: string, host: string, path: string)
    requires LowerScheme(scheme)
    requires Avoids(host, HostStops)
    requires Avoids(path, PathStops) && (path == "" || path[0] == '/')
    ensures UrlParse(scheme + "://" + host + path, "") == Ok(Parts(scheme, host, path, "", "", ""))
  {
    var after := "//" + host + path;
    var url := scheme + ":" + after;
    assert scheme + "://" + host + path == url;
    assert Avoids(url, {'\t', '\r', '\n'}) by {
      assert forall c :: c in url ==> c in scheme || c == ':' || c == '/' || c in host || c in path;
      assert forall i :: 0 <= i < |scheme| ==> SchemeChar(scheme[i]);
    }
    CleanPlain(url);
    SchemeAt(scheme, after, "");
    LowerAsciiLower(scheme);
    AuthorityAt(host, path);
    SplitOnceAbsent(path, '#');
    SplitOnceAbsent(path, '?');
  }

  /** A directory text avoids whatever its segments and "/" avoid. */
  lemma DirTextAvoids(segs: seq<string>, bad: set<char>)
    requires '/' !in bad
    requires forall i :: 0 <= i < |segs| ==> Avoids(segs[i], bad)
    ensures Avoids(DirText(segs), bad)
  {
    var parts := segs + [""];
    assert forall i :: 0 <= i < |parts| ==> Avoids(parts[i], bad);
    JoinWithAvoids(parts, "/", bad);
  }

  /** A directory text starts with the first character of its first segment. */
  lemma DirTextHead(segs: seq<string>)
    requires |segs| > 0 && segs[0] != ""
    ensures |DirText(segs)| > 0 && DirText(segs)[0] == segs[0][0]
  {
    var parts := segs + [""];
    assert parts[0] == segs[0] && parts[1..] == segs[1..] + [""];
    JoinWithCons(parts, "/");
  }

  /** Put back together, a scheme, a non-empty authority and an absolute path read `scheme://host/path`. */
  lemma UnsplitAuthority(scheme: string, host: string, path: string)
    requires scheme != "" && host != "" && |path| > 0 && path[0] == '/'
    ensures UrlUnsplit(Parts(scheme, host, path, "", "", "")) == scheme + "://" + host + path
  {
  }

  /** Put back together, a lone relative path is itself. */
  lemma UnsplitRelative(path: string)
    requires |path| > 0 && path[0] != '/'
    ensures UrlUnsplit(Parts("", "", path, "", "", "")) == path
  {
    assert |path| >= 2 ==> path[..2][0] == path[0];
  }

  /** `scheme://host/d1/.../dn/` parses into its scheme, its authority and the absolute path "/d1/.../dn/". */
  lemma ParseDirectoryBase(scheme: string, host: string, segs: seq<string>)
    requires LowerScheme(scheme) && Avoids(host, HostStops)
    requires forall i :: 0 <= i < |segs| ==> Avoids(segs[i], PathStops)
    ensures UrlParse(scheme + "://" + host + "/" + DirText(segs), "") == Ok(Parts(scheme, host, "/" + DirText(segs), "", "", ""))
  {
    var path := "/" + DirText(segs);
    DirTextAvoids(segs, PathStops);
    AvoidsRooted(DirText(segs), PathStops);
    ParseHierarchical(scheme, host, path);
    AppendAssoc(scheme + "://" + host, "/", DirText(segs));
  }

  lemma AvoidsRooted(d: string, bad: set<char>)
    requires Avoids(d, bad) && '/' !in bad
    ensures Avoids("/" + d, bad) && ("/" + d)[0] == '/'
  {
  }

  /**
   * `urljoin(scheme://host/d1/.../dn/, "simple/")` under a scheme that
   * resolves relative references: the same authority and directory, its
   * empty segments dropped, then "simple/".
   */
  lemma JoinSimpleUnderAuthority(scheme: string, host: string, segs: seq<string>)
    requires LowerScheme(scheme) && scheme in UsesRelative
    requires host != "" && Avoids(host, HostStops)
    requires PlainSegments(segs) && forall i :: 0 <= i < |segs| ==> Avoids(segs[i], PathStops)
    ensures UrlJoin(scheme + "://" + host + "/" + DirText(segs), "simple/")
         == Ok(scheme + "://" + host + "/" + DirText(NonEmpty(segs)) + "simple/")
  {
    ParseDirectoryBase(scheme, host, segs);
    JoinSimple(scheme + "://" + host + "/" + DirText(segs), Parts(scheme, host, "/" + DirText(segs), "", "", ""));
    SimplePathUnderDirectory(segs);
    var q := "/" + DirText(NonEmpty(segs)) + "simple/";
    UnsplitAuthority(scheme, host, q);
    AppendAssoc(scheme + "://" + host, "/" + DirText(NonEmpty(segs)), "simple/");
    AppendAssoc(scheme + "://" + host, "/", DirText(NonEmpty(segs)));
  }

  /** `d1/.../dn/` with no ":" parses as a lone relative path. */
  lemma ParseRelativeBase(segs: seq<string>)
    requires |segs| > 0 && segs[0] != "" && !C0OrSpace(segs[0][0]) && '/' !in segs[0]
    requires forall i :: 0 <= i < |segs| ==> Avoids(segs[i], NameStops)
    ensures UrlParse(DirText(segs), "") == Ok(Parts("", "", DirText(segs), "", "", ""))
  {
    var base := DirText(segs);
    DirTextAvoids(segs, NameStops);
    DirTextHead(segs);
    CleanPlain(base);
    FirstOfAbsent(base, {':'});
    assert base[0] != '/' by {
      assert segs[0][0] in segs[0];
    }
    assert |base| < 2 || base[..2][0] == base[0];
    SplitPlainPath(base, "");
  }

  /** The merged relative path put back together is itself. */
  lemma UnsplitRelativeDirectory(segs: seq<string>)
    requires |segs| > 0 && segs[0] != "" && '/' !in segs[0]
    ensures var q := DirText(NonEmpty(segs)) + "simple/";
            UrlUnsplit(Parts("", "", q, "", "", "")) == q
  {
    var n := NonEmpty(segs);
    assert n == [segs[0]] + NonEmpty(segs[1..]);
    DirTextHead(n);
    var q := DirText(n) + "simple/";
    assert q[0] == segs[0][0];
    assert segs[0][0] in segs[0];
    UnsplitRelative(q);
  }

  /**
   * `urljoin(d1/.../dn/, "simple/")` for a base with no scheme: the
   * directory with its empty segments dropped, then "simple/".
   */
  lemma JoinSimpleUnderRelativePath(segs: seq<string>)
    requires PlainSegments(segs) && |segs| > 0 && segs[0] != "" && !C0OrSpace(segs[0][0])
    requires forall i :: 0 <= i < |segs| ==> Avoids(segs[i], NameStops)
    ensures UrlJoin(DirText(segs), "simple/") == Ok(DirText(NonEmpty(segs)) + "simple/")
  {
    ParseRelativeBase(segs);
    JoinSimple(DirText(segs), Parts("", "", DirText(segs), "", "", ""));
    SimplePathUnderRelative(segs);
    UnsplitRelativeDirectory(segs);
  }

  /** `scheme:rest` is read as written when the scheme starts with a letter and the rest has no tab or line break. */
  lemma CleanSchemeUrl(scheme: string, rest: string)
    requires SchemeText(scheme)
    requires Avoids(rest, BracketStops)
    ensures Clean(scheme + ":" + rest) == scheme + ":" + rest
  {
    var url := scheme + ":" + rest;
    assert Avoids(url, {'\t', '\r', '\n'}) by {
      assert forall c :: c in url ==> c in scheme || c == ':' || c in rest;
      assert forall i :: 0 <= i < |scheme| ==> SchemeChar(scheme[i]);
    }
    CleanPlain(url);
  }

  /** The authority is a piece of the text it is split from. */
  lemma AuthorityWithin(s: string)
    ensures forall c :: c in SplitAuthority(s).0 ==> c in s
  {
  }

  /** `scheme:rest` with no square bracket, tab or line break splits, under the scheme lower-cased. */
  lemma SplitSchemeOnly(scheme: string, rest: string)
    requires SchemeText(scheme)
    requires Avoids(rest, BracketStops)
    ensures UrlSplit(scheme + ":" + rest, "").Ok? && UrlSplit(scheme + ":" + rest, "").value.scheme == LowerAscii(scheme)
  {
    SchemeOfClean(scheme, rest);
    NoBracketAuthority(rest);
    SplitKeepsScheme(scheme + ":" + rest, "");
  }

  /** `scheme:rest` is read as written, and its scheme is found. */
  lemma SchemeOfClean(scheme: string, rest: string)
    requires SchemeText(scheme)
    requires Avoids(rest, BracketStops)
    ensures SplitScheme(Clean(scheme + ":" + rest), "") == (LowerAscii(scheme), rest)
  {
    SchemeAt(scheme, rest, "");
    CleanSchemeUrl(scheme, rest);
  }

  /** The scheme of a split URL is the one `SplitScheme` finds. */
  lemma SplitKeepsScheme(url: string, defaultScheme: string)
    ensures UrlSplit(url, defaultScheme).Ok? ==> UrlSplit(url, defaultScheme).value.scheme == SplitScheme(Clean(url), defaultScheme).0
  {
  }

  lemma NoBracketAuthority(rest: string)
    requires Avoids(rest, BracketStops)
    ensures !BracketMismatch(SplitAuthority(rest).0)
  {
    AuthorityWithin(rest);
  }

  /** `urlparse` keeps the scheme `urlsplit` finds. */
  lemma ParseKeepsScheme(url: string, defaultScheme: string, scheme: string)
    requires UrlSplit(url, defaultScheme).Ok? && UrlSplit(url, defaultScheme).value.scheme == scheme
    ensures UrlParse(url, defaultScheme).Ok? && UrlParse(url, defaultScheme).value.scheme == scheme
  {
  }

  /** `urljoin(base, "simple/")` under a scheme outside `uses_relative` is "simple/" itself. */
  lemma JoinSimpleOutsideRelative(base: string)
    requires base != "" && UrlSplit(base, "").Ok? && UrlSplit(base, "").value.scheme !in UsesRelative
    ensures UrlJoin(base, "simple/") == Ok("simple/")
  {
    ParseKeepsScheme(base, "", UrlSplit(base, "").value.scheme);
    JoinSimpleFacts(base);
  }

  /** The same for a base written `scheme:rest`, the scheme lower-cased as `urlsplit` does. */
  lemma JoinSimpleUnderOtherScheme(scheme: string, rest: string)
    requires SchemeText(scheme)
    requires LowerAscii(scheme) !in UsesRelative
    requires Avoids(rest, BracketStops)
    ensures UrlJoin(scheme + ":" + rest, "simple/") == Ok("simple/")
  {
    var base := scheme + ":" + rest;
    SplitSchemeOnly(scheme, rest);
    assert base != "" && UrlSplit(base, "").Ok? && UrlSplit(base, "").value.scheme !in UsesRelative;
    JoinSimpleOutsideRelative(base);
  }
}

=== FILE: wrappers.dfy ===
/** Failure-compatible result types shared by every module of the model. */
module Wrappers {

  /** An optional value: Python's `X | None`. */
  datatype Option<+T> = None | Some(value: T) {

    /** The value, or `default` when there is none. */
    function GetOr(default: T): T {
      match this
      case Some(v) => v
      case None => default
    }
  }

  /** The outcome of an operation that may raise: `Ok(value)` or `Err(error)`. */
  datatype Result<+T, +E> = Ok(value: T) | Err(error: E) {

    predicate IsFailure() {
      Err?
    }

    function PropagateFailure<U>(): Result<U, E>
      requires Err?
    {
      Err(error)
    }

    function Extract(): T
      requires Ok?
    {
      value
    }
  }
}
